=== FILE: README.md ===
# Research workflow engine — a Dafny model

This project models the core of a research assistant that turns a topic into an HTML report, together with the helpers that core relies on. The pipeline has four stages:

- it generates search queries with an LLM;
- it searches the web and scrapes the pages it finds;
- it asks the LLM to score each page's trustworthiness;
- it stores the trustworthy pages in a vector store and writes the report.

The engine is a LangGraph state machine with three parts:

- a shared state record whose list fields accumulate and whose scalar fields are replaced (`ResearchState`);
- six node functions, each turning the state into a partial update and catching its own failures (`Nodes`);
- a fixed topology: query_gen → search → scraper → analyzer → (storage | report), then storage → report → END (`Graph`).

LangGraph's reducer and executor are written out directly. `Merge` folds one update into the state field by field. `RunResearch` executes the graph over a closed `Node` enum; each edge strictly lowers a rank, so every run ends.

The agents, the LLM, HTTP, DuckDuckGo, ChromaDB, md5, `urlparse` and `json.loads` become function-valued parameters. Examples are `Nodes.Collaborators`, `Search.Provider`, `ScraperTool.Extractors`, `VectorStore.StoreEnv`, `AnalyzerAgent.Llm` and `AnalyzerAgent.JsonDecoder`. Each of them may fail, so every failure branch of the source is reachable in the model.

Around the engine sit the pure helpers, one Dafny module per source file:

- source records and their filters (`Sources`);
- URL search and deduplication (`Search`, `SearcherAgent`);
- scraping with retries (`ScraperTool`, `ScraperAgent`);
- the id-mangling vector store (`VectorStore`);
- response parsing and statistics (`AnalyzerAgent`);
- HTML escaping and report assembly (`ReporterAgent`, `HtmlGenerator`);
- uniform result records (`AgentBase`);
- report-path sanitising and the pathlib join (`Config`).

`Wrappers`, `Seqs` and `Text` hold shared definitions:

- `Option` and `Result`;
- subsequences and order-preserving deduplication;
- Python's `strip`, `split`, `join`, `replace`, `lower` and `isalnum` over ASCII.

Several Python behaviours are modelled as written:

- `x or default` turns 0 into the default (`Config.OrDefault`).
- `s[:n]` with a negative `n` drops elements from the end (`Seqs.PyPrefix`).
- The query strip set lacks `'0'` (`SearcherAgent.TenthLineKeepsZero`).
- `html_generator` fails on a digit-initial list line without a `.` (`HtmlGenerator.ItemText`).
- `_generate_id` is not injective (`VectorStore.IdCollision`).

Scores are `real`; counts are `nat`.

## Model

| member | source | states |
|---|---|---|
| ResearchState.InitialState | research_assistant/graph/state.py:89-125 | The initial state keeps the topic and takes max_sources from its argument, 10 when omitted. All eight list fields start empty, report_html is "" and the step is "initialized". |
| ResearchState.MergeOmittedUnchanged | research_assistant/graph/state.py:13-86 | Every one of the twelve fields that an update leaves out keeps its previous value. |
| ResearchState.MergeNoUpdate | research_assistant/graph/state.py:13-86 | Merging the empty update is the identity. |
| ResearchState.MergeAllSnoc | research_assistant/graph/state.py:13-86 | Folding one more update onto a run equals merging it into the run's result, so the fold is the step-by-step executor. |
| ResearchState.MergeAllAccumulates | research_assistant/graph/state.py:41-86 | After any sequence of updates, each of the seven accumulate fields equals its initial value followed by every increment, in application order. |
| ResearchState.MergeAllReplaces | research_assistant/graph/state.py:13-39 | After any sequence of updates, each of the five plain fields holds the value from the last update that wrote it, or its initial value if none did. |
| ResearchState.MergeAllGrows | research_assistant/graph/state.py:41-86 | Accumulate fields only grow: each earlier value is a prefix of every later one. |
| Nodes.QueryGenNode | research_assistant/graph/nodes.py:24-57 | query_gen writes only search_queries, current_step and errors, and ends in "query_generation_complete" or "query_generation_failed". |
| Nodes.QueryGenOutcome | research_assistant/graph/nodes.py:24-57 | The node fails iff the query generator fails. On failure it adds exactly one "Query generation failed: " error and falls back to [topic]; on success it adds no error. |
| Nodes.SearchNode | research_assistant/graph/nodes.py:65-95 | search writes only discovered_urls, current_step and errors, always returns a URL list, and ends in "search_complete" or "search_failed". |
| Nodes.SearchOutcome | research_assistant/graph/nodes.py:65-95 | The URL update is a prefix of the searcher's result no longer than max_sources. A failed search yields [] with one "Search failed: " error, and it fails iff the searcher fails. |
| Nodes.ScraperNode | research_assistant/graph/nodes.py:103-150 | scraper writes only scraped_sources, failed_urls, current_step and errors, and ends in one of its three steps. |
| Nodes.ScraperOutcome | research_assistant/graph/nodes.py:103-150 | The skip step happens iff there are no URLs, and then it reports "No URLs to scrape". Success passes the scraper's two lists through without an error. Failure records every discovered URL as failed, with no sources and one error. |
| Nodes.DefaultScores | research_assistant/graph/nodes.py:196-207 | The analyzer fallback keeps the list's length and order. It raises exactly the sources scoring 0.0 to 50.0 and leaves every other source unchanged. |
| Nodes.AnalyzerOutcome | research_assistant/graph/nodes.py:158-207 | The skip step happens iff there are no scraped sources, and then it reports "No sources to analyze". Success returns the analyzer's list without an error. Failure adds one error and scores every source 50.0 if it had 0.0, its own score otherwise. |
| Nodes.CollectionName | research_assistant/graph/nodes.py:246-249 | The collection name is "research_" followed by a prefix of the topic of at most 30 characters. |
| Nodes.StorageNode | research_assistant/graph/nodes.py:215-268 | storage writes only stored_sources, rejected_sources, current_step and errors, and ends in one of its four steps. |
| Nodes.StorageOutcome | research_assistant/graph/nodes.py:215-268 | Both lists are always written, and an error is added iff storing failed. No sources means two empty lists; no trustworthy source means every source is rejected. Success stores the sources scoring at least 85 and rejects the rest. |
| Nodes.NoSourcesReport | research_assistant/graph/nodes.py:290-303 | The no-sources page is non-empty and contains the topic right after its fixed head. |
| Nodes.ErrorReport | research_assistant/graph/nodes.py:323-335 | The error page is non-empty and contains the topic right after its fixed head. |
| Nodes.ReportNode | research_assistant/graph/nodes.py:276-335 | report always writes report_html, writes nothing but report_html, current_step and errors, and ends in "report_complete", "report_generated_with_errors" or "report_failed". |
| Nodes.ReportOutcome | research_assistant/graph/nodes.py:276-335 | With no analyzed sources the node emits the no-sources page without an error. Success returns the reporter's HTML. Failure adds one "Report generation failed: " error and emits the error page for that message. |
| Nodes.ShouldStoreSources | research_assistant/graph/nodes.py:343-359 | The route is storage iff some analyzed source scores at least 85.0, so an empty list routes to report. |
| Nodes.StorageFollowsRoute | research_assistant/graph/nodes.py:228-244 | The routing predicate and the storage node's own skip test agree: storage reaches its store step iff the route is storage. |
| Nodes.StorageSplit | research_assistant/graph/nodes.py:236-237 | On success every stored score is ≥ 85 and every rejected score is < 85. Together they are a permutation of the analyzed sources, and each is an order-preserving subsequence of them. |
| Graph.AnalyzerTargetsTotal | research_assistant/graph/graph.py:64-71 | The conditional map's key set is exactly {storage, report}, so every label the router can return has a target. |
| Graph.Successor | research_assistant/graph/graph.py:56-75 | Every edge leads to a node of strictly lower rank, so runs terminate. END follows exactly the report node. |
| Graph.RunResearch | research_assistant/graph/graph.py:81-107 | Executing the graph from the initial state visits the modelled path. The final state is the fold of the node updates it emitted, one update per visited node. |
| Graph.RunPaths | research_assistant/graph/graph.py:22-78 | Every run starts at query_gen and visits 5 or 6 nodes. Report runs exactly once, as the last node. Storage is visited iff the state after analyzer routes to storage. |
| Graph.RunEndsInReportStep | research_assistant/graph/graph.py:74-75 | The final current_step is one of report_complete, report_generated_with_errors and report_failed. |
| Graph.RunKeepsInputs | research_assistant/graph/graph.py:81-107 | topic and max_sources in the final state equal their initial values. |
| Graph.RunDiscovered | research_assistant/graph/nodes.py:65-95 | The final discovered_urls is the initial list followed by exactly the search node's update. |
| Graph.RunDiscoveredBound | research_assistant/graph/nodes.py:86-89 | Starting from the initial state, the final discovered_urls holds at most max_sources URLs. |
| Graph.SkippedStorageLeavesLists | research_assistant/graph/graph.py:64-71 | When the router skips storage, stored_sources and rejected_sources keep their initial values. |
| Graph.FailingSearchStillReports | research_assistant/graph/nodes.py:91-177 | When every search fails, the run still takes the short path to report. It ends with exactly three errors: the search error, "No URLs to scrape" and "No sources to analyze". |
| Sources.MakeSource | research_assistant/models/source.py:49-54 | Constructing a source succeeds iff the score lies in [0, 100], and the result carries every given field. |
| Sources.NewSource | research_assistant/models/source.py:13-60 | A bare source has the default score 0.0, which is valid, and empty title, content and metadata. |
| Sources.ContentPreview | research_assistant/models/source.py:107-119 | Short content is returned unchanged. Longer content becomes a prefix of the content of length max_chars, as Python slices it, followed by "...". |
| Sources.FilterPartition | research_assistant/models/source.py:149-159 | The sources at or above a threshold and those below it together form a permutation of the input. |
| Sources.FiltersKeepOrder | research_assistant/models/source.py:149-159 | Both threshold filters are order-preserving subsequences of the input. |
| Sources.AtLeastKeepsAll | research_assistant/models/source.py:149-159 | Every source scoring at least the threshold survives the filter. |
| Sources.AtLeastEmpty | research_assistant/models/source.py:149-159 | The filter is empty iff every source scores below the threshold. |
| Sources.AtLeastMonotone | research_assistant/models/source.py:149-159 | Raising the threshold never keeps more sources. |
| Sources.AnyAtLeastIffNonEmpty | research_assistant/graph/nodes.py:356-359 | "Some source reaches the threshold" holds iff the filtered list is non-empty. |
| Sources.Add | research_assistant/models/source.py:145-147 | add appends the source: the length grows by one and earlier elements are unchanged. |
| Sources.FilterByScore | research_assistant/models/source.py:149-159 | Membership: a source is in the result iff it is in the collection and scores at least the minimum. The result is a subsequence of the collection, so the order is kept. |
| Sources.GetTrustworthy | research_assistant/models/source.py:161-171 | Exactly the collection's sources scoring at least the threshold, in the collection's order. |
| Sources.Percentage | research_assistant/models/source.py:195 | `(k / n) * 100` lies in [0, 100] and times n gives 100 * k. |
| Sources.GetStatistics | research_assistant/models/source.py:173-196 | An empty collection gives zeros. Otherwise total_count is the size, and average_score is the sum of the scores over the count. trustworthy_count is the number of sources scoring at least 85, at most the total. The percentage p satisfies p * n == 100 * count and lies in [0, 100]. |
| Sources.StatisticsCountScores | research_assistant/models/source.py:186-196 | Counted independently of the filter, trustworthy_count is the number of scores at 85 or above, and the percentage is that count's share of all sources. |
| Sources.SumScoresBounds | research_assistant/models/source.py:49-54 | Valid scores sum to between 0 and 100 times their number. |
| Sources.ClassifyTrust | research_assistant/agents/reporter.py:267-272 | The class is high iff score ≥ 85, medium iff 70 ≤ score < 85, and low iff score < 70, so the three classes are total and exclusive. |
| Sources.HighIsTrustworthy | research_assistant/models/source.py:84-94 | The high trust class coincides with is_trustworthy at the default threshold. |
| Sources.CssNamesDistinct | research_assistant/agents/reporter.py:267-272 | The three trust classes render as three different CSS class names. |
| Sources.BucketTotal | research_assistant/agents/analyzer.py:371-376 | The four score bands partition the scores: their counts sum to the number of scores. |
| Sources.BucketCounts | research_assistant/agents/analyzer.py:371-376 | The excellent band counts scores ≥ 90, and excellent plus good counts scores ≥ 80. Poor plus the scores ≥ 70 accounts for all scores. |
| Sources.CountMatchesFilter | research_assistant/models/source.py:149-159 | Counting scores at or above a threshold agrees with the length of the source filter. |
| Search.SearchDuckDuckGo | research_assistant/tools/search.py:13-52 | The provider's results pass through unchanged. Any provider failure surfaces as one error "DuckDuckGo search failed for query '…': …". An absent or zero result cap falls back to the setting. |
| Search.ExtractUrls | research_assistant/tools/search.py:100-114 | The result has the same length as the results and holds each result's href, in order. |
| Search.ExtractUrlsAppend | research_assistant/tools/search.py:100-114 | Extraction distributes over concatenation. |
| Search.AllUrlsAppend | research_assistant/tools/search.py:74-85 | Per-query URL lists concatenate in query order: searching q1 ++ q2 gives the URLs of q1 followed by those of q2. |
| Search.FailingQueryContributesNothing | research_assistant/tools/search.py:82-85 | A failing query adds no URL, and the queries after it are still searched. |
| Search.SearchMultipleQueries | research_assistant/tools/search.py:55-97 | Without deduplication the result is the concatenation of per-query URLs. With it, the result has no duplicates, keeps first-seen order and has the same element set as the concatenation. |
| Search.DedupedIsSubsequence | research_assistant/tools/search.py:87-95 | The deduplicated list is a subsequence of the concatenated URLs. |
| Search.FilterUrlsByDomain | research_assistant/tools/search.py:117-162 | A URL is kept iff it parses, the allowed list is absent, empty or matched by its domain, and no blocked entry matches. No other URL is kept. |
| Search.FilterUrlsSubsequence | research_assistant/tools/search.py:117-162 | The filtered URLs are an order-preserving subsequence of the input. |
| Search.FilterWithoutListsKeepsParsable | research_assistant/tools/search.py:117-162 | With neither list given, every URL whose domain parses is kept. |
| Search.Limit | research_assistant/tools/search.py:211-221 | limit(n) keeps a prefix of the results: the first min(n, len) for n ≥ 0. |
| Search.FilterByDomainIsPerHit | research_assistant/tools/search.py:194-209 | filter_by_domain keeps, in order, exactly the results whose own href passes the URL filter. |
| Seqs.PyPrefix | research_assistant/graph/nodes.py:89 | Python's s[:n] is a prefix of s: of length min(n, len) for n ≥ 0, and len + n (at least 0) for negative n. |
| Seqs.Dedup | research_assistant/tools/search.py:87-95 | Deduplication yields no duplicates and keeps exactly the input's elements. |
| Seqs.DedupSubsequence | research_assistant/agents/scraper.py:147-153 | Deduplication keeps first occurrences in their original order: the result is a subsequence of the input. |
| Seqs.DedupSnoc | research_assistant/tools/search.py:87-95 | Appending an element already seen leaves the deduplicated list unchanged; appending a new one appends it. |
| Seqs.DedupIdempotent | research_assistant/tools/search.py:87-95 | Deduplicating twice equals deduplicating once. |
| Seqs.DedupLoop | research_assistant/tools/search.py:87-95 | The seen-set loop computes exactly the reference deduplication. |
| AgentBase.CreateSuccessResult | research_assistant/agents/base.py:82-92 | A success record has success true, error None, and carries the data unchanged. |
| AgentBase.ErrorMessage | research_assistant/agents/base.py:77 | A non-empty context gives "context: message"; an empty context gives the message alone. |
| AgentBase.HandleError | research_assistant/agents/base.py:66-80 | An error record has success false, the exception's class name as error_type, and the contextualised message as error. |
| AgentBase.HandleErrorKeepsMessage | research_assistant/agents/base.py:77 | The error text always ends with the exception's message. |
| SearcherAgent.CleanQuery | research_assistant/agents/searcher.py:80 | A cleaned query is a suffix of the stripped line that starts with no character from "123456789.-) ". |
| SearcherAgent.QueryLines | research_assistant/agents/searcher.py:81-82 | Exactly the lines that are non-blank after stripping and do not start with '#' are kept. |
| SearcherAgent.ParseQueries | research_assistant/agents/searcher.py:79-86 | The parsed queries are a prefix of the cleaned query lines. Exactly min(max_queries, number of query lines) are kept; a negative max_queries drops that many from the end, as Python's slice does. |
| SearcherAgent.GenerateQueries | research_assistant/agents/searcher.py:47-99 | The result is never empty. It is the parsed queries when there are some, and [topic] when nothing parses or the LLM fails. |
| SearcherAgent.GeneratedQueriesOrigin | research_assistant/agents/searcher.py:79-91 | Each generated query either is the topic fallback or comes from a query line of the LLM reply. The list is bounded by max_queries. |
| SearcherAgent.PrefixKeepsOrigin | research_assistant/agents/searcher.py:86 | Truncating the parsed list, even by a negative count, keeps only queries that come from query lines. |
| SearcherAgent.TenthLineKeepsZero | research_assistant/agents/searcher.py:80 | Because '0' is not stripped, "10. x" cleans to "0. x". |
| SearcherAgent.NumberingOnlyLineGivesEmptyQuery | research_assistant/agents/searcher.py:80-82 | A line made only of numbering characters passes the filter and yields the empty query "", which prevents the topic fallback. |
| SearcherAgent.SearchUrls | research_assistant/agents/searcher.py:101-128 | The URLs have no duplicates and are exactly those found by the per-query searches. |
| SearcherAgent.Run | research_assistant/agents/searcher.py:130-167 | run succeeds. It uses the given queries when present and the generated ones otherwise; url_count equals the number of URLs, which are the deduplicated search results. |
| ScraperTool.FromPage | research_assistant/tools/scraper.py:71-185 | An extractor yields a source iff the page was fetched and its stripped text has at least 50 characters. The source carries the URL, title and text; otherwise the fetch error or the "insufficient content" error passes through. |
| ScraperTool.RetryOrder | research_assistant/tools/scraper.py:45-65 | The primary extractor is tried with attempt numbers 0..max_retries in order. The fallback is tried at most once, only as the last attempt, after the final primary failure. |
| ScraperTool.RetryResult | research_assistant/tools/scraper.py:45-65 | Every attempt before the last one failed, and a successful outcome is the result of its last attempt. |
| ScraperTool.ScrapedContentIsSubstantial | research_assistant/tools/scraper.py:108-109 | Every scraped source has stripped content of at least 50 characters and keeps the requested URL. |
| ScraperTool.ExhaustedMessage | research_assistant/tools/scraper.py:67-68 | A failed scrape reports "Failed to scrape … after max_retries+1 attempts". |
| ScraperTool.AttemptCount | research_assistant/tools/scraper.py:45-68 | A failed scrape made max_retries + 2 attempts: every primary try plus the fallback. |
| ScraperTool.ScrapeUrlLoop | research_assistant/tools/scraper.py:18-68 | The loop with its early return computes the same result as the recursive retry definition, using settings for falsy retries and timeout. |
| ScraperTool.ScrapeMultiple | research_assistant/tools/scraper.py:188-226 | With skip_errors the batch always succeeds, and sources plus failures account for every URL. |
| ScraperTool.SkipErrorsPartition | research_assistant/tools/scraper.py:211-226 | With skip_errors the sources are those of the URLs that scraped, in order, and the failures are exactly the other URLs, in order. The two lists together are a permutation of the input. |
| ScraperTool.StrictBatch | research_assistant/tools/scraper.py:219-224 | Without skip_errors the batch succeeds iff no URL fails, and otherwise re-raises the first failure's error. |
| ScraperTool.StrictBatchStopsAtFailure | research_assistant/tools/scraper.py:219-224 | Without skip_errors, URLs after the first failure do not affect the outcome. |
| ScraperTool.WordBoundaryPreview | research_assistant/tools/scraper.py:269-285 | Short content is unchanged. Longer content becomes a prefix of content[:max_chars] followed by "...", at most max_chars + 3 long. |
| ScraperTool.PreviewCutsAtLastSpace | research_assistant/tools/scraper.py:283-285 | The preview body is cut at the last space of content[:max_chars], or is the whole prefix when it has none. |
| ScraperTool.ScrapeResult.SuccessRate | research_assistant/tools/scraper.py:315-320 | 0 when nothing was tried. Otherwise the rate r satisfies r · (s + f) == 100 · s, so it is 100 · s / (s + f). It lies in [0, 100]: 0 when nothing succeeded, 100 when nothing failed. |
| ScraperTool.SuccessRateShare | research_assistant/tools/scraper.py:315-320 | For every result, the rate times the number of URLs tried is 100 times the successes. |
| ScraperTool.ScrapeAndValidate | research_assistant/tools/scraper.py:344-374 | A source is returned iff scraping succeeds with content of at least min_content_length, and it is the scraped source. |
| ScraperAgent.NewAgent | research_assistant/agents/scraper.py:27-50 | A falsy timeout or max_retries (None or 0) is replaced by the configured setting; other values are kept. |
| ScraperAgent.ScrapeUrls | research_assistant/agents/scraper.py:52-89 | Successes plus failures number the URLs. A batch that raises records every URL as failed. |
| ScraperAgent.Run | research_assistant/agents/scraper.py:118-177 | An empty list fails with "ScraperAgent.run: No URLs provided". Otherwise the deduplicated URLs are scraped, and the counts equal the list lengths and sum to the unique URLs. success_rate is the batch's rate, 100 · s / (s + f), and meets_threshold holds iff that rate ≥ min_success_rate. |
| ScraperAgent.Summarise | research_assistant/agents/scraper.py:156-177 | The run data carries the batch's lists and their sizes. success_rate is the batch's rate, 100 · s / (s + f) for a non-empty batch, and meets_threshold is the comparison with the minimum. |
| ScraperAgent.RunAccountsForEachUrl | research_assistant/agents/scraper.py:147-174 | With skip_errors, the scraped and failed URLs are a permutation of the distinct input URLs. |
| ScraperAgent.RateExtremes | research_assistant/agents/scraper.py:155-174 | No failures gives rate 100 and meets any threshold up to 100. No successes gives rate 0, which meets only thresholds ≤ 0. |
| ScraperAgent.FilterSourcesByLength | research_assistant/agents/scraper.py:179-204 | Exactly the sources with at least min_length characters are kept. |
| ScraperAgent.FilterByLengthKeepsOrder | research_assistant/agents/scraper.py:197 | The kept sources are an order-preserving subsequence. |
| ScraperAgent.FilterByLengthIdempotent | research_assistant/agents/scraper.py:197 | Filtering twice equals filtering once. |
| ScraperAgent.GetScrapingStats | research_assistant/agents/scraper.py:206-243 | Empty input gives zeros. Otherwise avg_content_length is the sum of the content lengths over the count, and min and max are attained content lengths bounding all others. The domains are the sources' domains without duplicates, and domain_count is their number. |
| ScraperAgent.AverageBetweenExtremes | research_assistant/agents/scraper.py:222-243 | The average content length lies between the minimum and the maximum. |
| VectorStore.CleanUrl | research_assistant/tools/vector_store.py:323 | Cleaning keeps the length and maps each '/' and ':' to '_', leaving every other character. |
| VectorStore.CleanUrlIsReplace | research_assistant/tools/vector_store.py:323 | The per-character cleaning equals the two chained str.replace calls. |
| VectorStore.GenerateId | research_assistant/tools/vector_store.py:303-323 | Every id has at most 200 characters. A URL over 200 characters uses its hash; a shorter URL keeps its length. |
| VectorStore.ShortIdClean | research_assistant/tools/vector_store.py:318-323 | Ids of short URLs contain no '/' or ':'. |
| VectorStore.IdCollision | research_assistant/tools/vector_store.py:323 | Id generation is not injective: "a/b" and "a:b" both map to "a_b". |
| VectorStore.IndexOfId | research_assistant/tools/vector_store.py:178-189 | The position found is the first entry with the id, and none is found iff no entry has it. |
| VectorStore.LookupUnique | research_assistant/tools/vector_store.py:165-187 | In a store with unique ids, looking up an entry's id returns that entry's record. |
| VectorStore.UpsertLookup | research_assistant/tools/vector_store.py:111-116 | Adding one entry keeps ids unique. Its id reads back its record, and every other id reads back what it did before. |
| VectorStore.AddSources | research_assistant/tools/vector_store.py:85-86 | Adding no sources leaves the store unchanged. |
| VectorStore.AddSourcesValid | research_assistant/tools/vector_store.py:74-116 | Adding sources preserves the unique-id invariant. |
| VectorStore.AddFreshAppends | research_assistant/tools/vector_store.py:93-116 | Sources with pairwise-distinct ids absent from the store are appended in order. |
| VectorStore.AddFreshSources | research_assistant/tools/vector_store.py:93-116 | Adding fresh, distinct sources grows the count by their number. get_by_url then returns each source's url, title, score and content. |
| VectorStore.RecordOf | research_assistant/tools/vector_store.py:93-105 | A record keeps the url, title, score and content. Its domain is the metadata's domain entry when present, because the metadata is spread last; otherwise it is get_domain(). The word count and analysis entries are carried over. |
| VectorStore.GetByUrl | research_assistant/tools/vector_store.py:165-192 | The lookup returns None iff no record has the URL's id. |
| VectorStore.GetTrustworthySources | research_assistant/tools/vector_store.py:194-228 | Only stored records scoring at least the threshold are returned, at most limit of them. Without a limit every such record is returned. |
| VectorStore.RemoveLookup | research_assistant/tools/vector_store.py:243-262 | Removing an id keeps ids unique, makes the id absent, and leaves every other id's record unchanged. |
| VectorStore.DeleteByUrl | research_assistant/tools/vector_store.py:243-262 | The result is True iff the collection's delete did not raise; then a stored URL's record is removed (count one lower) and an absent URL changes nothing. When delete raises, the result is False and the store is unchanged. |
| VectorStore.DeleteAbsentReportsTrue | research_assistant/tools/vector_store.py:251-262 | Deleting an absent URL leaves the store as it is and returns True. The code returns True whenever delete does not raise, although the docstring promises False for a URL that is not found; the model follows the code. |
| VectorStore.DeleteByUrlLookup | research_assistant/tools/vector_store.py:243-262 | After deletion the URL reads back None, and URLs with other ids read back as before. |
| VectorStore.Clear | research_assistant/tools/vector_store.py:264-277 | After clear the count is 0 and every lookup gives None. |
| VectorStore.GetStatistics | research_assistant/tools/vector_store.py:279-301 | total_count is the store's count. trustworthy_count equals the number of stored records whose score is at least 85, counted over the stored scores independently of the query, so it is at most the total. |
| VectorStore.RecordsAtLeastCount | research_assistant/tools/vector_store.py:213-217 | The `$gte` query over the stored records returns as many records as there are stored scores at or above the threshold. |
| AnalyzerAgent.UnfencedIsStripped | research_assistant/agents/analyzer.py:142-150 | A stripped reply that does not start with "```" is parsed as is. |
| AnalyzerAgent.FencedSpan | research_assistant/agents/analyzer.py:145-150 | A fenced reply with a '{' before a later '}' is cut to exactly the span from the first '{' to the last '}'. |
| AnalyzerAgent.FencedWithoutSpan | research_assistant/agents/analyzer.py:145-150 | A fenced reply without such a span is parsed unchanged. |
| AnalyzerAgent.Search | research_assistant/agents/analyzer.py:177 | The regex search finds the first position where "score", then separators, then digits match, and finds none iff no position matches. |
| AnalyzerAgent.ParseNatOfString | research_assistant/agents/analyzer.py:179 | Reading back the decimal digits of a number gives the number. |
| AnalyzerAgent.ExtractScore | research_assistant/agents/analyzer.py:176-179 | A score is extracted iff some position matches, and it is never negative. |
| AnalyzerAgent.ScoreAfterLabel | research_assistant/agents/analyzer.py:177-179 | In text of the shape "…Score: 87…", with no earlier 's', the extracted score is 87, whatever the label's case. |
| AnalyzerAgent.Clamp | research_assistant/agents/analyzer.py:159-164 | The clamped score lies in [0, 100]. It equals the score when the score is already in range, and the nearer bound otherwise. |
| AnalyzerAgent.ParseAnalysisResponse | research_assistant/agents/analyzer.py:126-187 | A non-object value, a missing "score" and a score that `float` rejects each fail with their messages. A numeric score, or a numeric string, is clamped to [0, 100]; an in-range string stays a string in the result. Missing reasoning, red_flags and strengths take their defaults. On a decode error the regex score is used unclamped, with reasoning "Parsed from malformed response". When the regex does not match, the error is "Could not parse analysis response: " plus the first 100 characters. |
| AnalyzerAgent.ParsedScoreRange | research_assistant/agents/analyzer.py:159-187 | Parsed scores are never negative, and those from a decoded object lie in [0, 100]. |
| AnalyzerAgent.MalformedScoreUnclamped | research_assistant/agents/analyzer.py:173-186 | An undecodable reply "…score: N…" yields score N unclamped, so the fallback can exceed 100. |
| AnalyzerAgent.AnalyzeSource | research_assistant/agents/analyzer.py:56-124 | Analysis keeps the source's url, title, content, domain and word count and always attaches analysis metadata. A parsed reply with a numeric score sets the score, reasoning, red flags and strengths. Any error sets score 50.0 and "Analysis failed - assigned default score" with the error's message. This includes the `:.1f` format error on a score still held as a string. |
| AnalyzerAgent.TextScoreFallsBack | research_assistant/agents/analyzer.py:103-124 | A JSON string score within [0, 100] is not clamped, so it stays a string. The `:.1f` log line then raises, and the source gets 50.0 with that error. An out-of-range string is clamped to a number and taken. |
| AnalyzerAgent.AnalyzedScoreRange | research_assistant/agents/analyzer.py:116-187 | Analyzed scores are never negative, and only the malformed-response fallback can leave [0, 100]. |
| AnalyzerAgent.AnalyzeSources | research_assistant/agents/analyzer.py:189-218 | Each source is analyzed once, in order. |
| AnalyzerAgent.Run | research_assistant/agents/analyzer.py:220-299 | Empty sources or an empty topic are rejected with their messages. Otherwise trustworthy_count counts the analyzed sources at the threshold, average_score is their mean, and the percentage p satisfies p * n == 100 * trustworthy_count. With filtering the returned sources are exactly those and filtered_count is the rest; without it all are returned. |
| AnalyzerAgent.RunFilterPartition | research_assistant/agents/analyzer.py:272-286 | With filtering, the returned sources are an order-preserving subsequence of the analyzed ones holding exactly those at the threshold. filtered_count counts the rest. |
| AnalyzerAgent.GetTrustworthySources | research_assistant/agents/analyzer.py:301-329 | A source is returned iff it scores at least the threshold. A None or 0.0 threshold means the agent's default. |
| AnalyzerAgent.ZeroThresholdMeansDefault | research_assistant/agents/analyzer.py:320 | A threshold of 0.0 behaves as None, so a source scoring 0.0 is not returned at threshold 0.0. |
| AnalyzerAgent.SortSorted | research_assistant/agents/analyzer.py:357 | Sorting yields an ascending permutation of the scores. |
| AnalyzerAgent.SortedUnique | research_assistant/agents/analyzer.py:357 | Two ascending permutations of the same scores are equal, so the statistics do not depend on how they were sorted. |
| AnalyzerAgent.GetAnalysisStatistics | research_assistant/agents/analyzer.py:331-376 | Empty input gives zeros and no distribution. Otherwise it gives the total, the average, and the trustworthy count at the default threshold. The percentage p satisfies p * n == 100 * count and lies in [0, 100]. |
| AnalyzerAgent.StatisticsOrderFacts | research_assistant/agents/analyzer.py:357-368 | For any ascending arrangement of the scores, median = sorted[n/2] and min and max are its ends. They bound every score, and min ≤ median ≤ max. |
| AnalyzerAgent.DistributionPartitions | research_assistant/agents/analyzer.py:371-376 | The four bands sum to the number of sources, and the excellent band counts the sources scoring ≥ 90. |
| AnalyzerAgent.BucketSort | research_assistant/agents/analyzer.py:357-376 | Counting the bands over the sorted scores equals counting them over the scores in any order. |
| ReporterAgent.EscapeChar | research_assistant/agents/reporter.py:414-420 | Each character escapes to a non-empty text with no raw '<', '>', '"' or "'"; only the five specials change. |
| ReporterAgent.EscapeHtmlPerChar | research_assistant/agents/reporter.py:414-420 | The five chained replacements, '&' first, equal escaping each character on its own. |
| ReporterAgent.EscapeRoundTrip | research_assistant/agents/reporter.py:410-420 | Applying the inverse replacements in reverse order recovers the input. |
| ReporterAgent.EscapedHasNoRaw | research_assistant/agents/reporter.py:410-420 | Escaped text contains no raw '<', '>', '"' or "'", and only "" escapes to "". |
| ReporterAgent.OneParagraph | research_assistant/agents/reporter.py:390-408 | Text without a blank line yields "" when blank, and otherwise one `<p>` holding its escaped, stripped text. |
| ReporterAgent.ParagraphsInOrder | research_assistant/agents/reporter.py:393-406 | The emitted paragraphs are the non-blank stripped "\n\n"-pieces, in order. List-looking paragraphs are treated the same. |
| ReporterAgent.ParagraphElements | research_assistant/agents/reporter.py:404-406 | Each paragraph becomes `<p>` around its escaped text, one element per paragraph. |
| ReporterAgent.StatisticsSection | research_assistant/agents/reporter.py:346-388 | The section is hidden iff there are no sources. Its min and max are attained scores bounding all others. |
| ReporterAgent.StatisticsBandsPartition | research_assistant/agents/reporter.py:357-360 | The four bands partition the sources. excellent counts scores ≥ 90, excellent + good counts scores ≥ 80, and poor counts scores < 70. |
| ReporterAgent.StatisticsAverageInRange | research_assistant/agents/reporter.py:351-354 | The average lies between the minimum and the maximum. |
| ReporterAgent.SourcesSection | research_assistant/agents/reporter.py:261-344 | The sources section has one entry per source, numbered from 1 in order, with the source's url and score. |
| ReporterAgent.EntryFaithful | research_assistant/agents/reporter.py:261-344 | Unescaping an entry gives back the source's title, its content or 300-character preview, and the "No analysis available" default. The URL, the domain (get_domain) and the word count (None shown as "N/A") are the source's own. Its class is high iff the source is trustworthy. |
| ReporterAgent.EntryEscaped | research_assistant/agents/reporter.py:283-330 | The title, the text, the reasoning and every strength and red flag hold no raw `<`, `>`, `"` or `'`. The URL (in the link and its text) and the domain are shown unescaped. |
| ReporterAgent.DisplaySources | research_assistant/agents/reporter.py:197-201 | The displayed sources are a prefix of all sources. They are all of them unless the limit is set and exceeded, in which case there are exactly limit of them. |
| ReporterAgent.NegativeLimitDropsFromEnd | research_assistant/agents/reporter.py:199-200 | A negative limit drops that many sources from the end, as Python's slice does. |
| ReporterAgent.GenerateHtmlReport | research_assistant/agents/reporter.py:158-259 | Totals and the trustworthy count use all sources. The average is the mean score, or 0 when there are none. The summary and findings appear as their formatted paragraphs. The statistics panel is the statistics section of all sources and is hidden iff there are none. The entries list only the displayed sources. |
| ReporterAgent.ReportListsSources | research_assistant/agents/reporter.py:193-205 | The report lists at most all sources, numbered in order with their URLs. The trustworthy count is at most the total, and the statistics bands sum to the total. |
| ReporterAgent.ExecutiveSummary | research_assistant/agents/reporter.py:56-96 | The summary is the stripped LLM reply, or "Error generating executive summary: " with the error. |
| ReporterAgent.KeyFindingsText | research_assistant/agents/reporter.py:98-136 | The findings are the stripped LLM reply, or "Error extracting key findings: " with the error. |
| ReporterAgent.Narrative | research_assistant/agents/reporter.py:707-737 | Without trustworthy sources, the summary and findings are the fixed warning texts. With some, they are the executive summary and key findings asked of the LLM about the sources scoring ≥ 85. |
| ReporterAgent.NarrativeAsksOnlyAboutTrustworthy | research_assistant/agents/reporter.py:707-721 | Summary and findings depend only on what the LLM says about the sources scoring ≥ 85. |
| ReporterAgent.Run | research_assistant/agents/reporter.py:665-767 | Empty sources and an empty topic fail with their messages. Otherwise the report covers all sources with the narrative of the trustworthy ones. A failing save becomes an error record. |
| HtmlGenerator.ItemText | research_assistant/utils/html_generator.py:605-613 | "-"/"*" lines drop their marker and are stripped, and digit-initial lines keep the stripped text after the first '.'. Other lines are kept. A digit-initial line without '.' fails with the index error. |
| HtmlGenerator.MapOrFail | research_assistant/utils/html_generator.py:604-613 | The map succeeds iff every element does, and otherwise reports a failing element's error. |
| HtmlGenerator.Items | research_assistant/utils/html_generator.py:604-615 | One `<li>` is produced per line, in order, unless some line fails. |
| HtmlGenerator.FormatParagraph | research_assistant/utils/html_generator.py:595-618 | A list paragraph fails, with the IndexError message, iff one of its stripped non-blank lines starts with a digit and has no '.'. Otherwise it becomes one `<ul>` with one `<li>` per such line, in order. Any other paragraph becomes `<p>` around the unescaped text. |
| HtmlGenerator.FormatTextToHtml | research_assistant/utils/html_generator.py:578-620 | Empty text gives "<p>No content available.</p>". Otherwise it fails iff some non-blank paragraph of the stripped text fails. On success it is the "\n"-join of each paragraph's element, in order. |
| HtmlGenerator.BlankTextFormatsToNothing | research_assistant/utils/html_generator.py:588-597 | Non-empty whitespace-only text formats to "". |
| HtmlGenerator.OneLineIsParagraph | research_assistant/utils/html_generator.py:592-618 | A single non-blank line becomes exactly one unescaped `<p>`. |
| HtmlGenerator.EntryOf | research_assistant/utils/html_generator.py:525-558 | An entry's analysis is absent iff the source's analysis metadata is missing or empty. Its class is high iff the source is trustworthy. |
| HtmlGenerator.Generate | research_assistant/utils/html_generator.py:481-576 | The page renders iff both texts format; otherwise the IndexError message is returned. On success the page has the topic, total_sources as the count, trustworthy_count as the number of scores ≥ 85.0, and the mean score (0 without sources). It also has the formatted summary and findings, queries_count, show_statistics, and each source's entry in order. |
| HtmlGenerator.GenerateTrustAgrees | research_assistant/utils/html_generator.py:514-532 | The high entries number trustworthy_count, and each entry's trust class agrees with the reporter's class for the same source. |
| Config.DefaultsValid | research_assistant/config.py:58-103 | The default settings satisfy their declared bounds, with threshold 85.0. |
| Config.OrDefault | research_assistant/tools/scraper.py:45-46 | `x or default`: a present non-zero value is kept; None and 0 become the default. |
| Config.RealOrDefault | research_assistant/agents/analyzer.py:320 | The real-valued `x or default`: None and 0.0 become the default. |
| Config.SafeTopic | research_assistant/config.py:148-149 | Every character of the safe topic is alphanumeric or '_'. |
| Config.SafeTopicPerChar | research_assistant/config.py:148-149 | Sanitising works character by character: spaces become '_', letters are lowercased, other unsafe characters are dropped. |
| Config.SafeTopicLowerCase | research_assistant/config.py:148 | The safe topic contains no upper-case letter. |
| Config.SanitiseIdempotent | research_assistant/config.py:148-149 | Sanitising an already sanitised name leaves it unchanged. |
| Config.GetReportPath | research_assistant/config.py:132-150 | The path is the normalised reports directory with one more component. That last component is the sanitised topic plus ".html" and contains no '/'. |
| Config.ParsePath | research_assistant/config.py:85-88 | A parsed path's components are non-empty, not '.', and free of '/'. It is rooted iff the string starts with '/'. |
| Config.DotAndSlashVanish | research_assistant/config.py:145 | A leading "./" or "/" adds no component, so "./data/reports" has the same components as "data/reports", as the docstring's example shows. |
| Config.ReportPathString | research_assistant/config.py:150 | The printed report path is the directory's prefix followed by the sanitised topic and ".html". The prefix is the printed directory and a '/', a lone '/' for the root, or nothing for an empty relative directory. |
| Config.JoinNameString | research_assistant/config.py:150 | Printing `dir / name` gives the directory's prefix followed by the name. |

## Left out

- LangGraph's `StateGraph`, `compile` and `invoke`: the reducers declared in research_assistant/graph/state.py and the fixed topology are encoded directly. The unknown-label failure of a conditional edge cannot occur in this graph (`Graph.AnalyzerTargetsTotal`).
- The LLM (research_assistant/utils/llm.py) and the prompt templates (research_assistant/utils/prompts.py): replies are parameters of the model. The prompt text, including `_format_sources_for_prompt`, has nothing to verify.
- newspaper3k, BeautifulSoup, requests and DuckDuckGo's `DDGS`: page fetches and search results are parameters. Only the 50-character check and the retry control flow are modelled.
- ChromaDB, SentenceTransformer, embeddings, `query_similar`, distances and md5: the collection is an abstract list of (id, record) entries with unique ids, and the hash is a parameter returning 32 characters. The model writes an id that is already stored by replacing its record in place, which keeps the size unchanged. ChromaDB's own handling of a duplicate id in `add` is not modelled.
- `urlparse` (`get_domain`, `extract_domain`, `is_valid_url`): a domain is a parameter function of the URL, with `None` for an unparsable URL.
- `json.loads`: it is a parameter returning a decoded object or a decode error. The regex fallback is modelled character by character over ASCII.
- AnalyzerAgent.ParseAnalysisResponse: the decoded reply's reasoning is assumed to be a string, and red_flags and strengths lists of strings (`AnalyzerAgent.JsonObject`). The code stores a value of any other JSON type as it is. A number, an object or a list holding non-strings cannot be expressed in the model.
- ReporterAgent.Run: it promises a report for non-empty sources and topic whenever the save succeeds. With a differently typed analysis value the Python code produces none. A truthy non-string reasoning or list item makes `_escape_html` raise AttributeError, and a truthy non-iterable red_flags or strengths raises TypeError in the list comprehension. The agent then returns the `handle_error` record, and the report node writes the "Report generation failed" page. The model, whose analysis values are always strings, has no such failure.
- Floating-point presentation (`:.1f`, percentages as text): scores, averages and percentages are Dafny `real`s compared against thresholds. The one place where formatting changes the outcome is modelled: `:.1f` raises on a score still held as a string (`AnalyzerAgent.TextScoreFallsBack`). A JSON `true`/`false` score is modelled as the number 1.0 or 0.0 (`AnalyzerAgent.ScoreField.Number`). Python compares and formats the stored `bool` as that number; only its type, `bool` rather than `float`, is not modelled.
- HTML markup, CSS, Jinja2 templates and `datetime.now`: reports are records of their content (entries, counts, escaped texts, sections). The whitespace and tags around them are not modelled. The node-level fallback pages keep only their fixed head and the topic.
- File writes, logging and `print`: a report save is a parameter that may fail (`ReporterAgent.Run`).
- research_assistant/main.py, settings loading from the environment and `ensure_directories`: not part of this model. `Config.Settings` holds the values with their declared bounds.
- VectorStore.RecordOf: `scraped_at` is not stored, because the Source model has no timestamp (`datetime` is left out). Metadata keys other than the domain, word count and analysis are not carried either: authors, publish date, top image and extraction method. ChromaDB's rejection of nested metadata values is not modelled.
- Config.GetReportPath: pathlib is modelled for POSIX paths. The path holds a root flag and its components, with empty and "." components dropped. The special "//" root and Windows drives are not modelled.
- Python aliasing: the analyzer mutates the same Source objects that scraped_sources holds. The model treats sources as values and does not track that sharing.
- The order of `set(domains)` in `get_scraping_stats`: the model states the element set and the absence of duplicates, not Python's iteration order.
- Unicode: `lower`, `isalnum` and `isdigit` are modelled over ASCII. `isspace` uses Python's full whitespace set.
- Convenience wrappers that add nothing beyond what they call, and so are not modelled separately: `search_and_get_urls`, `run_simple_search`, `scrape_single_url`, `ScrapeResult.get_by_domain`, `add_source`, `create_vector_store` and the module-level `generate_html_report`.
- SearcherAgent.SearchUrls: the `[]` returned when the whole search raises is not modelled. Each query's failure is already caught inside `search_multiple_queries`, so the model's search cannot raise.
- Nodes.NoSourcesReport: only the topic's position is stated. The error list the page renders is left out with the rest of the markup.

=== FILE: agent_base.dfy ===
/** The uniform result records every agent returns
    (research_assistant/agents/base.py): `create_success_result` and
    `handle_error`. */
module AgentBase {
  import opened Wrappers

  /** An exception as the agents see it: its class name and its message. */
  datatype Exception = Exception(typeName: string, message: string)

  function ValueError(message: string): Exception {
    Exception("ValueError", message)
  }

  /** The dictionary an agent's `run` returns: `success`, `error`, and either
      the data fields (on success) or `error_type` (on failure). */
  datatype AgentResult<+T> =
    | Succeeded(data: T)
    | Errored(error: string, errorType: string)
  {
    predicate Success() { this.Succeeded? }

    /** The `error` key: `None` on success. */
    function Error(): Option<string> {
      match this
      case Succeeded(_) => None
      case Errored(e, _) => Some(e)
    }
  }

  /** `create_success_result(data)`. */
  function CreateSuccessResult<T>(data: T): (r: AgentResult<T>)
    ensures r.Success() && r.Error() == None
    ensures r.Succeeded? && r.data == data
  {
    Succeeded(data)
  }

  /** The message `handle_error` records: the context, a colon and the
      exception's text, or the text alone when there is no context. */
  function ErrorMessage(e: Exception, context: string): (msg: string)
    ensures |context| > 0 ==> msg == context + ": " + e.message
    ensures |context| == 0 ==> msg == e.message
  {
    if |context| > 0 then context + ": " + e.message else e.message
  }

  /** `handle_error(error, context)`. */
  function HandleError<T>(e: Exception, context: string): (r: AgentResult<T>)
    ensures !r.Success()
    ensures r.Errored? && r.errorType == e.typeName
    ensures |context| > 0 ==> r.Error() == Some(context + ": " + e.message)
    ensures |context| == 0 ==> r.Error() == Some(e.message)
  {
    Errored(ErrorMessage(e, context), e.typeName)
  }

  /** The message of an error record ends with the exception's own text, so
      nothing of it is lost when a context is added. */
  lemma HandleErrorKeepsMessage<T>(e: Exception, context: string)
    ensures var msg := HandleError<T>(e, context).error;
      |msg| >= |e.message| && msg[|msg| - |e.message|..] == e.message
  {
  }
}

=== FILE: analyzer_agent.dfy ===
/** The analyzer agent (research_assistant/agents/analyzer.py): reading a
    trustworthiness score out of the language model's reply, scoring each
    source (with a default score when anything fails), the `run` summary,
    the threshold filter and the score statistics.

    The model's reply and `json.loads` are parameters: the reply is its text
    or the message of the exception it raised, and the JSON decoder reports
    a decode error, a non-object value, or the object's relevant keys. */
module AnalyzerAgent {
  import opened Wrappers
  import opened Seqs
  import opened Text
  import opened Sources
  import opened AgentBase
  import Config

  /** The agent's settings: `preview_length` (which only shapes the prompt)
      and `trustworthy_threshold`. */
  datatype Agent = Agent(previewLength: int, trustworthyThreshold: real)

  const DefaultThreshold: real := 85.0

  /** The `score` entry of a decoded object: absent, a JSON number (or
      boolean), a JSON string that `float` converts (`"85"`), or a value
      `float` rejects (the message of the exception it raises). */
  datatype ScoreField = Missing | Number(value: real) | Numeral(value: real) | NotNumber(message: string)

  /** The keys of a decoded JSON object that the parser reads. */
  datatype JsonObject = JsonObject(
    score: ScoreField,
    reasoning: Option<string>,
    redFlags: Option<seq<string>>,
    strengths: Option<seq<string>>)

  /** What `json.loads` made of the text. Any value other than an object
      ends in an exception when its `score` is looked up; its message is
      the decoder's to give. */
  datatype Decoded = DecodeError | Object(obj: JsonObject) | NonObject(message: string)

  type JsonDecoder = string -> Decoded

  /** The dictionary `_parse_analysis_response` returns. `score` is the
      score's numeric value; `textScore` holds when the dictionary still
      carries the JSON string itself, which happens for a string score that
      needed no clamping (only a clamped score is written back as a number). */
  datatype Analysis = Analysis(score: real, textScore: bool, reasoning: string, redFlags: seq<string>, strengths: seq<string>)

  // ---------------------------------------------------------------------------
  // Code-fence removal
  // ---------------------------------------------------------------------------

  /** The text handed to the decoder: the stripped reply, with its code
      fence cut away. */
  function Unfence(text: string): (t: string)
  {
    CutFence(Strip(text))
  }

  /** A stripped reply that opens with a code fence is cut down to the span
      from its first `{` to its last `}`, when such a span exists. */
  function CutFence(s: string): (t: string)
  {
    if "```" <= s then
      var start := FirstIndexOfChar(s, '{');
      var end := LastIndexOfChar(s, '}') + 1;
      if start != -1 && end > start then s[start..end] else s
    else s
  }

  /** Without a code fence the stripped reply is decoded unchanged. */
  lemma UnfencedIsStripped(s: string)
    requires !("```" <= s)
    ensures CutFence(s) == s
  {
  }

  /** A fenced reply is cut to exactly the span from its first `{` to its
      last `}`. */
  lemma FencedSpan(s: string, start: nat, end: nat)
    requires "```" <= s && start < end <= |s|
    requires s[start] == '{' && forall k :: 0 <= k < start ==> s[k] != '{'
    requires s[end - 1] == '}' && forall k :: end <= k < |s| ==> s[k] != '}'
    ensures CutFence(s) == s[start..end]
    ensures CutFence(s)[0] == '{' && CutFence(s)[|CutFence(s)| - 1] == '}'
  {
    assert FirstIndexOfChar(s, '{') == start;
    assert LastIndexOfChar(s, '}') == end - 1;
  }

  /** A fenced reply with no `}` after its first `{` is decoded unchanged. */
  lemma FencedWithoutSpan(s: string)
    requires "```" <= s
    requires forall i, j :: 0 <= i <= j < |s| && s[i] == '{' ==> s[j] != '}'
    ensures CutFence(s) == s
  {
  }

  // ---------------------------------------------------------------------------
  // The fallback pattern score["\s:]+(\d+), matched case-insensitively
  // ---------------------------------------------------------------------------

  /** A character of the class `["\s:]`. */
  predicate IsSeparator(c: char) {
    c == '"' || c == ':' || IsSpace(c)
  }

  /** The length of the run of separators starting at `i`. */
  function SeparatorRun(t: string, i: nat): (n: nat)
    requires i <= |t|
    ensures i + n <= |t|
    ensures forall k :: i <= k < i + n ==> IsSeparator(t[k])
    ensures i + n == |t| || !IsSeparator(t[i + n])
    decreases |t| - i
  {
    if i < |t| && IsSeparator(t[i]) then 1 + SeparatorRun(t, i + 1) else 0
  }

  /** The length of the run of ASCII digits starting at `i`. */
  function DigitRun(t: string, i: nat): (n: nat)
    requires i <= |t|
    ensures i + n <= |t|
    ensures forall k :: i <= k < i + n ==> IsDigit(t[k])
    ensures i + n == |t| || !IsDigit(t[i + n])
    decreases |t| - i
  {
    if i < |t| && IsDigit(t[i]) then 1 + DigitRun(t, i + 1) else 0
  }

  /** The word "score" in any letter case at `p`. */
  predicate ScoreWordAt(t: string, p: nat) {
    p + 5 <= |t| && Lower(t[p..p + 5]) == "score"
  }

  /** The digits the pattern captures when a match starts at `p`. The
      separator class holds no digit, so the greedy separator run is
      followed by the digits or the match fails. */
  function MatchAt(t: string, p: nat): (g: Option<string>)
    ensures g.Some? ==> |g.value| > 0 && forall k :: 0 <= k < |g.value| ==> IsDigit(g.value[k])
  {
    if !ScoreWordAt(t, p) then None
    else
      var sep := SeparatorRun(t, p + 5);
      if sep == 0 then None
      else
        var d := DigitRun(t, p + 5 + sep);
        if d == 0 then None else Some(t[p + 5 + sep..p + 5 + sep + d])
  }

  /** `re.search`: the leftmost position at or after `from` where the pattern
      matches. */
  function Search(t: string, from: nat): (r: Option<nat>)
    requires from <= |t|
    ensures r.Some? ==> from <= r.value < |t| && MatchAt(t, r.value).Some?
    ensures r.Some? ==> forall q :: from <= q < r.value ==> MatchAt(t, q).None?
    ensures r.None? ==> forall q :: from <= q < |t| ==> MatchAt(t, q).None?
    decreases |t| - from
  {
    if from == |t| then None
    else if MatchAt(t, from).Some? then Some(from)
    else Search(t, from + 1)
  }

  function DigitValue(c: char): nat
    requires IsDigit(c)
  {
    c as int - '0' as int
  }

  /** `int(digits)` for a run of ASCII digits (leading zeros allowed). */
  function ParseNat(digits: string): nat
    requires forall k :: 0 <= k < |digits| ==> IsDigit(digits[k])
  {
    if |digits| == 0 then 0
    else ParseNat(digits[..|digits| - 1]) * 10 + DigitValue(digits[|digits| - 1])
  }

  /** Reading back the decimal digits of `n` gives `n`. */
  lemma {:induction false} ParseNatOfString(n: nat)
    ensures ParseNat(NatToString(n)) == n
    decreases n
  {
    var s := NatToString(n);
    if n < 10 {
      assert s[..0] == "";
    } else {
      ParseNatOfString(n / 10);
      assert s[..|s| - 1] == NatToString(n / 10);
    }
  }

  /** The score the fallback pattern extracts from a malformed reply, if it
      matches anywhere. */
  function ExtractScore(t: string): (r: Option<real>)
    ensures r.None? <==> forall q :: 0 <= q < |t| ==> MatchAt(t, q).None?
    ensures r.Some? ==> r.value >= 0.0
  {
    match Search(t, 0)
    case None => None
    case Some(p) => Some(ParseNat(MatchAt(t, p).value) as real)
  }

  /** A reply in which no letter before the word can begin the word
      "score" yields the number written after `score: `. */
  lemma ScoreAfterLabel(prefix: string, word: string, n: nat, rest: string)
    requires forall k :: 0 <= k < |prefix| ==> LowerChar(prefix[k]) != 's'
    requires |word| == 5 && Lower(word) == "score"
    requires |rest| == 0 || !IsDigit(rest[0])
    ensures ExtractScore(prefix + word + ": " + NatToString(n) + rest) == Some(n as real)
  {
    var digits := NatToString(n);
    var t := prefix + word + ": " + digits + rest;
    MatchFound(t, prefix, word, digits, rest);
    ParseNatOfString(n);
  }

  /** The leftmost match of such a reply is the one after the word. */
  lemma MatchFound(t: string, prefix: string, word: string, digits: string, rest: string)
    requires t == prefix + word + ": " + digits + rest
    requires forall k :: 0 <= k < |prefix| ==> LowerChar(prefix[k]) != 's'
    requires |word| == 5 && Lower(word) == "score"
    requires |digits| > 0 && forall k :: 0 <= k < |digits| ==> IsDigit(digits[k])
    requires |rest| == 0 || !IsDigit(rest[0])
    ensures Search(t, 0) == Some(|prefix|) && MatchAt(t, |prefix|) == Some(digits)
  {
    var p := |prefix|;
    LabelParts(t, prefix, word, digits, rest);
    MatchAfterWord(t, p, digits, rest);
    NoMatchInPrefix(t, prefix);
    SearchSkips(t, 0, p);
  }

  lemma LabelParts(t: string, prefix: string, word: string, digits: string, rest: string)
    requires t == prefix + word + ": " + digits + rest && |word| == 5
    ensures var p := |prefix|;
      && p + 7 <= |t| && prefix <= t && t[p..p + 5] == word
      && t[p + 5] == ':' && t[p + 6] == ' ' && t[p + 7..] == digits + rest
  {
    var p := |prefix|;
    assert t == prefix + (word + (": " + (digits + rest)));
    assert t[..p] == prefix;
  }

  /** "score", a colon and a space, then a digit run: the run is captured. */
  lemma MatchAfterWord(t: string, p: nat, digits: string, rest: string)
    requires p + 7 <= |t| && Lower(t[p..p + 5]) == "score" && t[p + 5] == ':' && t[p + 6] == ' '
    requires t[p + 7..] == digits + rest
    requires |digits| > 0 && forall k :: 0 <= k < |digits| ==> IsDigit(digits[k])
    requires |rest| == 0 || !IsDigit(rest[0])
    ensures MatchAt(t, p) == Some(digits)
  {
    assert t[p + 7] == digits[0];
    assert SeparatorRun(t, p + 7) == 0;
    assert SeparatorRun(t, p + 6) == 1;
    assert SeparatorRun(t, p + 5) == 2;
    DigitRunOf(t, p + 7, digits, rest);
  }

  /** No match can start inside a prefix that holds no letter `s` or `S`. */
  lemma NoMatchInPrefix(t: string, prefix: string)
    requires prefix <= t
    requires forall k :: 0 <= k < |prefix| ==> LowerChar(prefix[k]) != 's'
    ensures forall q :: 0 <= q < |prefix| ==> MatchAt(t, q).None?
  {
    forall q | 0 <= q < |prefix|
      ensures MatchAt(t, q).None?
    {
      assert t[q] == prefix[q];
    }
  }

  /** A digit string followed by a non-digit (or the end) is one digit run. */
  lemma DigitRunOf(t: string, i: nat, digits: string, rest: string)
    requires i + |digits| + |rest| == |t|
    requires t[i..] == digits + rest
    requires forall k :: 0 <= k < |digits| ==> IsDigit(digits[k])
    requires |rest| == 0 || !IsDigit(rest[0])
    ensures DigitRun(t, i) == |digits|
    ensures t[i..i + |digits|] == digits
  {
    var d := DigitRun(t, i);
    forall k | i <= k < i + |digits|
      ensures IsDigit(t[k])
    {
      assert t[k] == t[i..][k - i] == digits[k - i];
    }
    assert t[i..i + |digits|] == t[i..][..|digits|];
  }

  /** The search passes every position where nothing matches. */
  lemma {:induction false} SearchSkips(t: string, from: nat, p: nat)
    requires from <= p < |t| && MatchAt(t, p).Some?
    requires forall q :: from <= q < p ==> MatchAt(t, q).None?
    ensures Search(t, from) == Some(p)
    decreases p - from
  {
    if from < p {
      assert MatchAt(t, from).None?;
      SearchSkips(t, from + 1, p);
    }
  }

  // ---------------------------------------------------------------------------
  // _parse_analysis_response
  // ---------------------------------------------------------------------------

  /** `max(0, min(100, score))`, applied only to a score outside [0, 100]. */
  function Clamp(x: real): (r: real)
    ensures ValidScore(r)
    ensures ValidScore(x) ==> r == x
    ensures x < 0.0 ==> r == 0.0
    ensures x > 100.0 ==> r == 100.0
  {
    if 0.0 <= x <= 100.0 then x
    else if x < 0.0 then 0.0
    else 100.0
  }

  const MissingScoreMessage := "Response missing 'score' field"

  /** `_parse_analysis_response(text)`: the analysis, or the message of the
      exception it raises. */
  function ParseAnalysisResponse(text: string, json: JsonDecoder): (r: Result<Analysis, string>)
    ensures var t := Unfence(text);
      && (json(t).NonObject? ==> r == Failure(json(t).message))
      && (json(t).Object? && json(t).obj.score.Missing? ==> r == Failure(MissingScoreMessage))
      && (json(t).Object? && json(t).obj.score.NotNumber? ==> r == Failure(json(t).obj.score.message))
      && (json(t).Object? && (json(t).obj.score.Number? || json(t).obj.score.Numeral?) ==>
            && r.Success?
            && r.value.score == Clamp(json(t).obj.score.value)
            && (r.value.textScore <==> json(t).obj.score.Numeral? && ValidScore(json(t).obj.score.value))
            && r.value.reasoning == json(t).obj.reasoning.GetOr("No reasoning provided")
            && r.value.redFlags == json(t).obj.redFlags.GetOr([])
            && r.value.strengths == json(t).obj.strengths.GetOr([]))
      && (json(t).DecodeError? ==>
            (r.Success? <==> ExtractScore(t).Some?)
            && (r.Success? ==> r.value == Analysis(ExtractScore(t).value, false, "Parsed from malformed response", [], []))
            && (r.Failure? ==> r.error == "Could not parse analysis response: " + PyPrefix(t, 100)))
  {
    var t := Unfence(text);
    match json(t)
    case Object(obj) =>
      (match obj.score
       case Missing => Failure(MissingScoreMessage)
       case NotNumber(msg) => Failure(msg)
       case Number(x) => Success(Completed(obj, Clamp(x), false))
       case Numeral(x) => Success(Completed(obj, Clamp(x), 0.0 <= x <= 100.0)))
    case NonObject(msg) => Failure(msg)
    case DecodeError =>
      match ExtractScore(t)
      case Some(score) => Success(Analysis(score, false, "Parsed from malformed response", [], []))
      case None => Failure("Could not parse analysis response: " + PyPrefix(t, 100))
  }

  /** The decoded object with its optional keys defaulted by `setdefault`. */
  function Completed(obj: JsonObject, score: real, textScore: bool): Analysis
  {
    Analysis(score, textScore, obj.reasoning.GetOr("No reasoning provided"),
             obj.redFlags.GetOr([]), obj.strengths.GetOr([]))
  }

  /** A score read from a well-formed JSON object is always within [0, 100];
      only the fallback pattern can yield a larger one. */
  lemma ParsedScoreRange(text: string, json: JsonDecoder)
    ensures var r := ParseAnalysisResponse(text, json);
      r.Success? ==> r.value.score >= 0.0 && (json(Unfence(text)).Object? ==> ValidScore(r.value.score))
  {
  }

  /** The fallback score is not clamped: a malformed reply that reads
      `score: n` yields `n`, even above 100. */
  lemma MalformedScoreUnclamped(text: string, json: JsonDecoder, prefix: string, word: string, n: nat, rest: string)
    requires Unfence(text) == prefix + word + ": " + NatToString(n) + rest
    requires json(Unfence(text)) == DecodeError
    requires forall k :: 0 <= k < |prefix| ==> LowerChar(prefix[k]) != 's'
    requires |word| == 5 && Lower(word) == "score"
    requires |rest| == 0 || !IsDigit(rest[0])
    ensures ParseAnalysisResponse(text, json) == Success(Analysis(n as real, false, "Parsed from malformed response", [], []))
  {
    ScoreAfterLabel(prefix, word, n, rest);
  }

  // ---------------------------------------------------------------------------
  // analyze_source, analyze_sources, run
  // ---------------------------------------------------------------------------

  /** The language model as the agent calls it for one source under a topic:
      its reply text, or the message of the exception it raised. */
  type Llm = (Source, string) -> Result<string, string>

  const FailedScore: real := 50.0
  const FailedReasoning := "Analysis failed - assigned default score"

  /** The message of the `ValueError` that formatting a `str` score with
      `:.1f` raises in the progress log line. */
  const TextScoreFormatMessage := "Unknown format code 'f' for object of type 'str'"

  /** The parsed analysis of one source's reply, or the message of the
      exception the model or the parser raised. */
  function Parsed(source: Source, topic: string, llm: Llm, json: JsonDecoder): Result<Analysis, string>
  {
    match llm(source, topic)
    case Success(text) => ParseAnalysisResponse(text, json)
    case Failure(e) => Failure(e)
  }

  /** `analyze_source(source, topic)`: the source with its score and its
      `trustworthiness_analysis` metadata set. Any failure (the model's, the
      parser's, or the log line's on a score still held as a string) gives
      the default score and records the error. */
  function AnalyzeSource(source: Source, topic: string, llm: Llm, json: JsonDecoder): (r: Source)
    ensures r.url == source.url && r.title == source.title && r.content == source.content
    ensures r.metadata.domain == source.metadata.domain && r.metadata.wordCount == source.metadata.wordCount
    ensures r.metadata.analysis.Some? && !r.metadata.analysis.value.IsEmpty()
    ensures var parsed := match llm(source, topic)
                          case Success(text) => ParseAnalysisResponse(text, json)
                          case Failure(e) => Failure(e);
      && (parsed.Success? && !parsed.value.textScore ==>
            && r.score == parsed.value.score
            && r.metadata.analysis == Some(AnalysisMeta(Some(parsed.value.reasoning), Some(parsed.value.redFlags),
                                                        Some(parsed.value.strengths), None)))
      && (parsed.Success? && parsed.value.textScore ==>
            && r.score == FailedScore
            && r.metadata.analysis == Some(AnalysisMeta(Some(FailedReasoning), None, None, Some(TextScoreFormatMessage))))
      && (parsed.Failure? ==>
            && r.score == FailedScore
            && r.metadata.analysis == Some(AnalysisMeta(Some(FailedReasoning), None, None, Some(parsed.error))))
  {
    var parsed := Parsed(source, topic, llm, json);
    if parsed.Success? && !parsed.value.textScore then
      var a := parsed.value;
      source.(score := a.score,
              metadata := source.metadata.(analysis := Some(AnalysisMeta(Some(a.reasoning), Some(a.redFlags),
                                                                         Some(a.strengths), None))))
    else
      var e := if parsed.Failure? then parsed.error else TextScoreFormatMessage;
      source.(score := FailedScore,
              metadata := source.metadata.(analysis := Some(AnalysisMeta(Some(FailedReasoning), None, None, Some(e)))))
  }

  /** A reply whose score is a JSON string within [0, 100] (`"85"`) is not
      taken: the score stays a string, the `:.1f` log line raises, and the
      source gets the default score with that error. An out-of-range string
      is clamped to a number and taken. */
  lemma TextScoreFallsBack(source: Source, topic: string, llm: Llm, json: JsonDecoder, text: string, obj: JsonObject)
    requires llm(source, topic) == Success(text) && json(Unfence(text)) == Object(obj) && obj.score.Numeral?
    ensures var r := AnalyzeSource(source, topic, llm, json);
      && (ValidScore(obj.score.value) ==>
            r.score == FailedScore && r.metadata.analysis.value.error == Some(TextScoreFormatMessage))
      && (!ValidScore(obj.score.value) ==>
            r.score == Clamp(obj.score.value) && r.metadata.analysis.value.error.None?)
  {
  }

  /** An analysed source's score is within [0, 100] unless it came from the
      unclamped fallback pattern. */
  lemma AnalyzedScoreRange(source: Source, topic: string, llm: Llm, json: JsonDecoder)
    ensures var r := AnalyzeSource(source, topic, llm, json);
      r.score >= 0.0
      && (r.metadata.analysis.value.reasoning != Some("Parsed from malformed response") ==> ValidScore(r.score))
  {
    match llm(source, topic)
    case Success(text) => ParsedScoreRange(text, json);
    case Failure(_) =>
  }

  /** `analyze_sources(sources, topic)`: each source analysed, in order. */
  function AnalyzeSources(sources: seq<Source>, topic: string, llm: Llm, json: JsonDecoder): (r: seq<Source>)
    ensures |r| == |sources|
    ensures forall i :: 0 <= i < |sources| ==> r[i] == AnalyzeSource(sources[i], topic, llm, json)
  {
    if |sources| == 0 then []
    else [AnalyzeSource(sources[0], topic, llm, json)] + AnalyzeSources(sources[1..], topic, llm, json)
  }

  /** Analysis keeps each source's identity: the analysed list has the same
      URLs, titles and contents in the same order. */
  lemma AnalysisKeepsSources(sources: seq<Source>, topic: string, llm: Llm, json: JsonDecoder)
    ensures var r := AnalyzeSources(sources, topic, llm, json);
      forall i :: 0 <= i < |r| ==>
        r[i].url == sources[i].url && r[i].title == sources[i].title && r[i].content == sources[i].content
  {
  }

  /** The data of a successful `run`. */
  datatype RunData = RunData(
    sources: seq<Source>,
    totalAnalyzed: nat,
    trustworthyCount: nat,
    averageScore: real,
    filteredCount: nat,
    trustworthyPercentage: real)

  /** `run(sources, topic, filter_untrustworthy)`. */
  function Run(agent: Agent, sources: seq<Source>, topic: string, filterUntrustworthy: bool,
               llm: Llm, json: JsonDecoder): (r: AgentResult<RunData>)
    ensures |sources| == 0 ==> r == HandleError(ValueError("No sources provided"), "AnalyzerAgent.run")
    ensures |sources| > 0 && |topic| == 0 ==> r == HandleError(ValueError("Research topic required"), "AnalyzerAgent.run")
    ensures r.Succeeded? <==> |sources| > 0 && |topic| > 0
    ensures r.Succeeded? ==>
      var analyzed := AnalyzeSources(sources, topic, llm, json);
      var trustworthy := AtLeast(analyzed, agent.trustworthyThreshold);
      && r.data.totalAnalyzed == |sources|
      && r.data.trustworthyCount == |trustworthy|
      && r.data.averageScore == SumScores(analyzed) / |sources| as real
      && 0.0 <= r.data.trustworthyPercentage <= 100.0
      && r.data.trustworthyPercentage == Percentage(|trustworthy|, |sources|)
      && (filterUntrustworthy ==> r.data.sources == trustworthy && r.data.filteredCount == |sources| - |trustworthy|)
      && (!filterUntrustworthy ==> r.data.sources == analyzed && r.data.filteredCount == 0)
  {
    if |sources| == 0 then HandleError(ValueError("No sources provided"), "AnalyzerAgent.run")
    else if |topic| == 0 then HandleError(ValueError("Research topic required"), "AnalyzerAgent.run")
    else CreateSuccessResult(Summarise(agent, AnalyzeSources(sources, topic, llm, json), filterUntrustworthy))
  }

  /** The data `run` reports about a non-empty list of analysed sources. */
  function Summarise(agent: Agent, analyzed: seq<Source>, filterUntrustworthy: bool): (d: RunData)
    requires |analyzed| > 0
    ensures var trustworthy := AtLeast(analyzed, agent.trustworthyThreshold);
      && d.totalAnalyzed == |analyzed|
      && d.trustworthyCount == |trustworthy|
      && d.averageScore == SumScores(analyzed) / |analyzed| as real
      && 0.0 <= d.trustworthyPercentage <= 100.0
      && d.trustworthyPercentage == Percentage(|trustworthy|, |analyzed|)
      && (filterUntrustworthy ==> d.sources == trustworthy && d.filteredCount == |analyzed| - |trustworthy|)
      && (!filterUntrustworthy ==> d.sources == analyzed && d.filteredCount == 0)
  {
    var trustworthy := AtLeast(analyzed, agent.trustworthyThreshold);
    var n := |analyzed|;
    var k := |trustworthy|;
    RunData(
      if filterUntrustworthy then trustworthy else analyzed,
      n, k, SumScores(analyzed) / n as real,
      if filterUntrustworthy then n - k else 0,
      Percentage(k, n))
  }

  /** With filtering, `run` returns exactly the analysed sources that reach
      the threshold, in their order, and the filtered ones are exactly the
      rest. */
  lemma RunFilterPartition(agent: Agent, sources: seq<Source>, topic: string, llm: Llm, json: JsonDecoder)
    requires |sources| > 0 && |topic| > 0
    ensures var r := Run(agent, sources, topic, true, llm, json);
      var analyzed := AnalyzeSources(sources, topic, llm, json);
      && r.Succeeded?
      && (forall s :: s in r.data.sources <==> s in analyzed && s.score >= agent.trustworthyThreshold)
      && IsSubsequence(r.data.sources, analyzed)
      && r.data.filteredCount == |Below(analyzed, agent.trustworthyThreshold)|
  {
    var analyzed := AnalyzeSources(sources, topic, llm, json);
    AtLeastKeepsAll(analyzed, agent.trustworthyThreshold);
    FiltersKeepOrder(analyzed, agent.trustworthyThreshold);
    FilterPartition(analyzed, agent.trustworthyThreshold);
  }

  // ---------------------------------------------------------------------------
  // get_trustworthy_sources
  // ---------------------------------------------------------------------------

  /** `get_trustworthy_sources(sources, threshold)`: a missing or zero
      threshold means the agent's own. */
  function GetTrustworthySources(agent: Agent, sources: seq<Source>, threshold: Option<real>): (r: seq<Source>)
    ensures var t := if threshold.Some? && threshold.value != 0.0 then threshold.value else agent.trustworthyThreshold;
      forall s :: s in r <==> s in sources && s.score >= t
  {
    var t := Config.RealOrDefault(threshold, agent.trustworthyThreshold);
    AtLeastKeepsAll(sources, t);
    AtLeast(sources, t)
  }

  /** Asking for threshold 0.0 is the same as asking for none: every source
      scores at least 0 would be the natural reading, but the agent's own
      threshold applies instead. */
  lemma ZeroThresholdMeansDefault(agent: Agent, sources: seq<Source>)
    ensures GetTrustworthySources(agent, sources, Some(0.0)) == GetTrustworthySources(agent, sources, None)
    ensures agent.trustworthyThreshold > 0.0 && |sources| == 1 && sources[0].score == 0.0 ==>
      GetTrustworthySources(agent, sources, Some(0.0)) == []
  {
    if agent.trustworthyThreshold > 0.0 && |sources| == 1 && sources[0].score == 0.0 {
      assert sources[1..] == [];
    }
  }

  // ---------------------------------------------------------------------------
  // get_analysis_statistics
  // ---------------------------------------------------------------------------

  predicate Sorted(s: seq<real>) {
    forall i, j :: 0 <= i < j < |s| ==> s[i] <= s[j]
  }

  /** Insertion before the first larger-or-equal element. */
  function Insert(x: real, s: seq<real>): (r: seq<real>)
    ensures |r| == |s| + 1
  {
    if |s| == 0 then [x]
    else if x <= s[0] then [x] + s
    else [s[0]] + Insert(x, s[1..])
  }

  /** `sorted(scores)`, as an insertion sort. */
  function Sort(s: seq<real>): (r: seq<real>)
    ensures |r| == |s|
  {
    if |s| == 0 then [] else Insert(s[0], Sort(s[1..]))
  }

  /** Inserting into a sorted list keeps it sorted and adds one copy of `x`. */
  lemma {:induction false} InsertSorted(x: real, s: seq<real>)
    requires Sorted(s)
    ensures Sorted(Insert(x, s))
    decreases |s|
  {
    if |s| > 0 && x > s[0] {
      var rest := Insert(x, s[1..]);
      InsertSorted(x, s[1..]);
      InsertMultiset(x, s[1..]);
      forall k | 0 <= k < |rest|
        ensures s[0] <= rest[k]
      {
        assert rest[k] in multiset(s[1..]) + multiset{x};
        if rest[k] != x {
          var j :| 0 <= j < |s[1..]| && s[1..][j] == rest[k];
          assert s[j + 1] == rest[k];
        }
      }
      SortedCons(s[0], rest);
    }
  }

  /** Inserting adds exactly one copy of `x`. */
  lemma {:induction false} InsertMultiset(x: real, s: seq<real>)
    ensures multiset(Insert(x, s)) == multiset(s) + multiset{x}
    decreases |s|
  {
    if |s| > 0 && x > s[0] {
      InsertMultiset(x, s[1..]);
      assert s == [s[0]] + s[1..];
    }
  }

  /** A head no larger than any element of a sorted tail keeps it sorted. */
  lemma SortedCons(x: real, r: seq<real>)
    requires Sorted(r) && forall k :: 0 <= k < |r| ==> x <= r[k]
    ensures Sorted([x] + r)
  {
    forall i, j | 0 <= i < j < |r| + 1
      ensures ([x] + r)[i] <= ([x] + r)[j]
    {
      if i > 0 {
        assert ([x] + r)[i] == r[i - 1];
      }
      assert ([x] + r)[j] == r[j - 1];
    }
  }

  /** The sort yields a sorted arrangement of its input. */
  lemma {:induction false} SortSorted(s: seq<real>)
    ensures Sorted(Sort(s))
    ensures multiset(Sort(s)) == multiset(s)
    decreases |s|
  {
    SortIsSorted(s);
    SortMultiset(s);
  }

  lemma {:induction false} SortIsSorted(s: seq<real>)
    ensures Sorted(Sort(s))
    decreases |s|
  {
    if |s| > 0 {
      SortIsSorted(s[1..]);
      InsertSorted(s[0], Sort(s[1..]));
    }
  }

  lemma {:induction false} SortMultiset(s: seq<real>)
    ensures multiset(Sort(s)) == multiset(s)
    decreases |s|
  {
    if |s| > 0 {
      SortMultiset(s[1..]);
      InsertMultiset(s[0], Sort(s[1..]));
      assert s == [s[0]] + s[1..];
    }
  }

  /** The ends of a sorted list bound every element it holds. */
  lemma SortedEnds(a: seq<real>, x: real)
    requires Sorted(a) && x in multiset(a)
    ensures a[0] <= x <= a[|a| - 1]
  {
    var j :| 0 <= j < |a| && a[j] == x;
  }

  /** Two sorted lists with the same elements are the same list, so the
      median and extremes read from `sorted(...)` depend only on the scores. */
  lemma {:induction false} SortedUnique(a: seq<real>, b: seq<real>)
    requires Sorted(a) && Sorted(b) && multiset(a) == multiset(b)
    ensures a == b
    decreases |a|
  {
    assert |a| == |multiset(a)| == |b|;
    if |a| > 0 {
      SortedEnds(b, a[0]);
      SortedEnds(a, b[0]);
      assert a[0] == b[0];
      assert a == [a[0]] + a[1..];
      assert b == [b[0]] + b[1..];
      assert multiset(a) == multiset{a[0]} + multiset(a[1..]);
      assert multiset(b) == multiset{b[0]} + multiset(b[1..]);
      assert multiset(a[1..]) == multiset(a) - multiset{a[0]};
      assert multiset(b[1..]) == multiset(b) - multiset{b[0]};
      SortedUnique(a[1..], b[1..]);
    }
  }

  /** The statistics dictionary; `distribution` is absent for no sources. */
  datatype AnalysisStats = AnalysisStats(
    totalSources: nat,
    averageScore: real,
    medianScore: real,
    minScore: real,
    maxScore: real,
    trustworthyCount: nat,
    trustworthyPercentage: real,
    distribution: Option<Buckets>)

  /** `get_analysis_statistics(sources)`. The scores are sorted before the
      average is taken; with exact arithmetic the order does not matter. */
  function GetAnalysisStatistics(agent: Agent, sources: seq<Source>): (st: AnalysisStats)
    ensures |sources| == 0 ==> st == AnalysisStats(0, 0.0, 0.0, 0.0, 0.0, 0, 0.0, None)
    ensures |sources| > 0 ==>
      && st.totalSources == |sources|
      && st.averageScore == SumScores(sources) / |sources| as real
      && st.trustworthyCount == |GetTrustworthySources(agent, sources, None)|
      && st.trustworthyCount <= |sources|
      && 0.0 <= st.trustworthyPercentage <= 100.0
      && st.trustworthyPercentage == Percentage(st.trustworthyCount, |sources|)
      && st.distribution.Some?
  {
    if |sources| == 0 then AnalysisStats(0, 0.0, 0.0, 0.0, 0.0, 0, 0.0, None)
    else
      var scores := Sort(Scores(sources));
      var n := |sources|;
      var k := |GetTrustworthySources(agent, sources, None)|;
      assert k <= n by {
        AtLeastLength(sources, agent.trustworthyThreshold);
      }
      AnalysisStats(n, SumScores(sources) / n as real, scores[n / 2], scores[0], scores[n - 1],
                    k, Percentage(k, n), Some(Bucket(scores)))
  }

  lemma AtLeastLength(xs: seq<Source>, t: real)
    ensures |AtLeast(xs, t)| <= |xs|
  {
  }

  /** The median is the middle element of any sorted arrangement of the
      scores, the minimum and maximum are its ends, and the minimum, median
      and maximum are scores that bound every other score. */
  lemma StatisticsOrderFacts(agent: Agent, sources: seq<Source>, arranged: seq<real>)
    requires |sources| > 0
    requires Sorted(arranged) && multiset(arranged) == multiset(Scores(sources))
    ensures var st := GetAnalysisStatistics(agent, sources); var n := |sources|;
      && |arranged| == n
      && st.medianScore == arranged[n / 2]
      && st.minScore == arranged[0] && st.maxScore == arranged[n - 1]
      && st.minScore <= st.medianScore <= st.maxScore
      && (forall i :: 0 <= i < n ==> st.minScore <= sources[i].score <= st.maxScore)
  {
    var n := |sources|;
    var scores := Scores(sources);
    var sorted := Sort(scores);
    StatisticsReadSorted(agent, sources);
    assert sorted == arranged by {
      SortSorted(scores);
      SortedUnique(sorted, arranged);
    }
    assert arranged[0] <= arranged[n / 2] <= arranged[n - 1] by {
      SortedEnds(arranged, arranged[n / 2]);
    }
    forall i | 0 <= i < n
      ensures arranged[0] <= sources[i].score <= arranged[n - 1]
    {
      assert scores[i] == sources[i].score;
      assert scores[i] in multiset(arranged);
      SortedEnds(arranged, scores[i]);
    }
  }

  /** The median, minimum and maximum are read from the sorted scores. */
  lemma StatisticsReadSorted(agent: Agent, sources: seq<Source>)
    requires |sources| > 0
    ensures var st := GetAnalysisStatistics(agent, sources); var n := |sources|; var sorted := Sort(Scores(sources));
      st.medianScore == sorted[n / 2] && st.minScore == sorted[0] && st.maxScore == sorted[n - 1]
  {
  }

  /** The four buckets partition the scores: their counts add up to the
      number of sources, and the excellent bucket counts the scores of 90
      and above. */
  lemma DistributionPartitions(agent: Agent, sources: seq<Source>)
    requires |sources| > 0
    ensures var st := GetAnalysisStatistics(agent, sources);
      && st.distribution.value.Total() == |sources|
      && st.distribution.value.excellent == |AtLeast(sources, 90.0)|
  {
    BucketSort(Scores(sources));
    BucketTotal(Scores(sources));
    BucketCounts(Scores(sources));
    CountMatchesFilter(sources, 90.0);
  }

  /** Inserting a score into a list does not change how the list buckets. */
  lemma {:induction false} BucketInsert(x: real, s: seq<real>)
    ensures Bucket(Insert(x, s)) == Bucket([x] + s)
    decreases |s|
  {
    if |s| > 0 && x > s[0] {
      BucketInsert(x, s[1..]);
      assert ([s[0]] + Insert(x, s[1..]))[1..] == Insert(x, s[1..]);
      assert ([x] + s[1..])[1..] == s[1..];
      assert ([x] + s)[1..] == s;
    }
  }

  /** Sorting does not change the distribution. */
  lemma {:induction false} BucketSort(s: seq<real>)
    ensures Bucket(Sort(s)) == Bucket(s)
    decreases |s|
  {
    if |s| > 0 {
      BucketSort(s[1..]);
      BucketInsert(s[0], Sort(s[1..]));
      assert ([s[0]] + Sort(s[1..]))[1..] == Sort(s[1..]);
    }
  }
}

=== FILE: config.dfy ===
/** The settings record the core reads (research_assistant/config.py), the
    `x or default` idiom the agents use to fall back on it, and the report
    file name derived from a research topic. */
module Config {
  import opened Wrappers
  import opened Text

  /** The settings the core consults; environment loading is not modelled,
      so a `Settings` value is whatever the environment produced. */
  datatype Settings = Settings(
    maxSources: int,
    trustworthinessThreshold: real,
    maxSearchResultsPerQuery: int,
    reportsPath: string,
    scraperTimeout: int,
    scraperMaxRetries: int)
  {
    /** The pydantic field bounds of `Settings`. */
    predicate Valid() {
      && 1 <= maxSources <= 50
      && 0.0 <= trustworthinessThreshold <= 100.0
      && 1 <= maxSearchResultsPerQuery <= 20
      && 1 <= scraperTimeout <= 60
      && 0 <= scraperMaxRetries <= 5
    }
  }

  /** The defaults declared on each field. */
  const Defaults := Settings(10, 85.0, 5, "./data/reports", 10, 2)

  lemma DefaultsValid()
    ensures Defaults.Valid()
    ensures Defaults.trustworthinessThreshold == 85.0
  {
  }

  /** Python's `value or default` for an optional integer: `None` and `0` are
      both falsy and give the default; any other value, negative included,
      is kept. */
  function OrDefault(value: Option<int>, default: int): (r: int)
    ensures value.Some? && value.value != 0 ==> r == value.value
    ensures value.None? || value.value == 0 ==> r == default
  {
    match value
    case Some(v) => if v == 0 then default else v
    case None => default
  }

  /** The same idiom for an optional real threshold (`0.0` is falsy). */
  function RealOrDefault(value: Option<real>, default: real): (r: real)
    ensures value.Some? && value.value != 0.0 ==> r == value.value
    ensures value.None? || value.value == 0.0 ==> r == default
  {
    match value
    case Some(v) => if v == 0.0 then default else v
    case None => default
  }

  /** An explicit `0` is not honoured: it is replaced by the default. */
  lemma ZeroMeansDefault(default: int)
    ensures OrDefault(Some(0), default) == default
    ensures OrDefault(None, default) == OrDefault(Some(0), default)
  {
  }

  /** A character allowed in a sanitised file name. */
  predicate SafeChar(c: char) {
    IsAlnum(c) || c == '_'
  }

  /** Keeps the characters for which `SafeChar` holds, in order. */
  function KeepSafe(s: string): (r: string)
    ensures |r| <= |s|
    ensures forall i :: 0 <= i < |r| ==> SafeChar(r[i])
  {
    if |s| == 0 then ""
    else if SafeChar(s[0]) then [s[0]] + KeepSafe(s[1..])
    else KeepSafe(s[1..])
  }

  /** `topic.lower().replace(" ", "_")` followed by the filter keeping
      alphanumerics and underscores. */
  function SafeTopic(topic: string): (r: string)
    ensures forall i :: 0 <= i < |r| ==> SafeChar(r[i])
  {
    KeepSafe(ReplaceStr(Lower(topic), " ", "_"))
  }

  // ---------------------------------------------------------------------------
  // POSIX paths, as pathlib holds them
  // ---------------------------------------------------------------------------

  /** A component of a normalised path: not empty, not `.`, and free of `/`. */
  predicate Component(c: string) {
    c != "" && c != "." && forall i :: 0 <= i < |c| ==> c[i] != '/'
  }

  /** A `PurePosixPath`: whether it starts at the root, and its components. */
  datatype PosixPath = PosixPath(rooted: bool, parts: seq<string>)

  predicate WellFormed(p: PosixPath) {
    forall i :: 0 <= i < |p.parts| ==> Component(p.parts[i])
  }

  /** The components of a path string: the pieces between `/` characters,
      with the empty pieces (from repeated or trailing slashes) and the `.`
      pieces dropped. */
  function Components(s: string): (parts: seq<string>)
    ensures forall i :: 0 <= i < |parts| ==> Component(parts[i])
    decreases |s|
  {
    var k := FirstIndexOfChar(s, '/');
    var head := if k < 0 then s else s[..k];
    var rest := if k < 0 then [] else Components(s[k + 1..]);
    if head == "" || head == "." then rest else [head] + rest
  }

  /** `PurePosixPath(s)`: `./data/reports` becomes `data/reports`, and a
      trailing or doubled `/` disappears. */
  function ParsePath(s: string): (p: PosixPath)
    ensures WellFormed(p)
    ensures p.rooted <==> |s| > 0 && s[0] == '/'
  {
    PosixPath(|s| > 0 && s[0] == '/', Components(s))
  }

  /** `str(path)`: the components joined by `/`, after a `/` when rooted;
      the empty relative path prints as `.`. */
  function PathString(p: PosixPath): string {
    if !p.rooted && |p.parts| == 0 then "."
    else (if p.rooted then "/" else "") + Join(p.parts, "/")
  }

  /** `path / name` for a name that is a single component. */
  function JoinName(p: PosixPath, name: string): (r: PosixPath)
    requires WellFormed(p) && Component(name)
    ensures WellFormed(r)
    ensures r.rooted == p.rooted && |r.parts| == |p.parts| + 1
    ensures r.parts[..|p.parts|] == p.parts && r.parts[|p.parts|] == name
  {
    PosixPath(p.rooted, p.parts + [name])
  }

  /** `settings.reports_path / f"{safe_topic}.html"`: the normalised reports
      directory with one more component, the sanitised topic plus `.html`. */
  function GetReportPath(settings: Settings, topic: string): (path: PosixPath)
    ensures WellFormed(path)
    ensures |path.parts| >= 1
    ensures path.parts[|path.parts| - 1] == SafeTopic(topic) + ".html"
    ensures PosixPath(path.rooted, path.parts[..|path.parts| - 1]) == ParsePath(settings.reportsPath)
  {
    var name := SafeTopic(topic) + ".html";
    assert Component(name) by {
      assert name[|name| - 5..] == ".html";
      assert forall i :: 0 <= i < |name| ==> (i < |SafeTopic(topic)| ==> SafeChar(name[i]));
    }
    JoinName(ParsePath(settings.reportsPath), name)
  }

  /** The report file's name is the last component of the printed path: the
      printed path is the printed directory, a `/`, and the file name (the
      directory prefix is empty for `.` and a bare `/` for the root). */
  lemma ReportPathString(settings: Settings, topic: string)
    ensures var dir := ParsePath(settings.reportsPath);
      PathString(GetReportPath(settings, topic)) == DirPrefix(dir) + SafeTopic(topic) + ".html"
  {
    var dir := ParsePath(settings.reportsPath);
    var name := SafeTopic(topic) + ".html";
    assert GetReportPath(settings, topic) == JoinName(dir, name);
    JoinNameString(dir, name);
  }

  /** What a directory contributes to the printed path of a file in it. */
  function DirPrefix(dir: PosixPath): string {
    if |dir.parts| == 0 then (if dir.rooted then "/" else "") else PathString(dir) + "/"
  }

  /** The printed path of `dir / name` is the directory's prefix followed by
      the name. */
  lemma JoinNameString(dir: PosixPath, name: string)
    requires WellFormed(dir) && Component(name)
    ensures PathString(JoinName(dir, name)) == DirPrefix(dir) + name
  {
    var root: string := if dir.rooted then "/" else "";
    JoinSnoc(dir.parts, name, "/");
    if |dir.parts| > 0 {
      assert PathString(JoinName(dir, name)) == root + (Join(dir.parts, "/") + "/" + name);
    }
  }

  /** `sep.join(parts + [x])` adds `sep` and `x` to a non-empty join. */
  lemma {:induction false} JoinSnoc(parts: seq<string>, x: string, sep: string)
    ensures Join(parts + [x], sep) == if |parts| == 0 then x else Join(parts, sep) + sep + x
    decreases |parts|
  {
    if |parts| > 1 {
      assert (parts + [x])[1..] == parts[1..] + [x];
      JoinSnoc(parts[1..], x, sep);
    } else if |parts| == 1 {
      assert (parts + [x])[1..] == [x];
    }
  }

  /** A piece before the first `/` becomes the first component unless it is
      empty or `.`. */
  lemma ComponentsCons(head: string, rest: string)
    requires forall i :: 0 <= i < |head| ==> head[i] != '/'
    ensures Components(head + "/" + rest) == (if head == "" || head == "." then [] else [head]) + Components(rest)
  {
    var s := head + "/" + rest;
    assert s[|head|] == '/';
    assert FirstIndexOfChar(s, '/') == |head|;
    assert s[..|head|] == head && s[|head| + 1..] == rest;
  }

  /** Normalisation: a leading `./` and a repeated `/` add no component,
      so `./data/reports` and `data//reports` name the same directory as
      `data/reports`. */
  lemma DotAndSlashVanish(s: string)
    ensures Components("./" + s) == Components(s)
    ensures Components("/" + s) == Components(s)
  {
    var dot: string := ".";
    assert "./" + s == dot + "/" + s;
    ComponentsCons(dot, s);
    var empty: string := "";
    assert "/" + s == empty + "/" + s;
    ComponentsCons(empty, s);
  }

  /** The character-by-character reading of the sanitiser: a space becomes
      `_`, an upper-case letter its lower-case form, other alphanumerics and
      `_` stay, and everything else disappears. */
  function SanitiseChar(c: char): (r: string)
    ensures |r| <= 1
    ensures forall i :: 0 <= i < |r| ==> SafeChar(r[i]) && !IsAsciiUpper(r[i])
  {
    if c == ' ' then "_"
    else if SafeChar(LowerChar(c)) then [LowerChar(c)]
    else ""
  }

  function SanitiseEach(s: string): (r: string)
    ensures |r| <= |s|
    ensures forall i :: 0 <= i < |r| ==> SafeChar(r[i]) && !IsAsciiUpper(r[i])
  {
    if |s| == 0 then "" else SanitiseChar(s[0]) + SanitiseEach(s[1..])
  }

  /** The pipeline of string operations agrees with the per-character
      reading on every input. */
  lemma {:induction false} SafeTopicPerChar(topic: string)
    ensures SafeTopic(topic) == SanitiseEach(topic)
    decreases |topic|
  {
    if |topic| > 0 {
      var low := Lower(topic);
      assert low == [LowerChar(topic[0])] + Lower(topic[1..]);
      assert low[1..] == Lower(topic[1..]);
      ReplaceCharPrefix(low, ' ', '_');
      SafeTopicPerChar(topic[1..]);
      var c := LowerChar(topic[0]);
      assert c == ' ' <==> topic[0] == ' ';
    }
  }

  /** A sanitised name holds no upper-case letter. */
  lemma SafeTopicLowerCase(topic: string)
    ensures forall i :: 0 <= i < |SafeTopic(topic)| ==> !IsAsciiUpper(SafeTopic(topic)[i])
  {
    SafeTopicPerChar(topic);
  }

  /** Sanitising an already-sanitised name changes nothing. */
  lemma {:induction false} SanitiseIdempotent(s: string)
    ensures SafeTopic(SafeTopic(s)) == SafeTopic(s)
  {
    SafeTopicPerChar(s);
    SafeTopicPerChar(SafeTopic(s));
    SanitiseEachOfSafe(SafeTopic(s));
  }

  lemma {:induction false} SanitiseEachOfSafe(s: string)
    requires forall i :: 0 <= i < |s| ==> SafeChar(s[i]) && !IsAsciiUpper(s[i])
    ensures SanitiseEach(s) == s
    decreases |s|
  {
    if |s| > 0 {
      assert LowerChar(s[0]) == s[0];
      SanitiseEachOfSafe(s[1..]);
    }
  }
}

=== FILE: graph.dfy ===
/** The fixed workflow topology (research_assistant/graph/graph.py) and an
    executor for it: starting at `query_gen`, each node's update is merged
    into the state and the edge out of the node picks the next one, the
    edge out of `analyzer` through the routing label. */
module Graph {
  import opened Wrappers
  import opened Sources
  import opened ResearchState
  import opened Nodes

  datatype Node = QueryGen | Search | Scraper | Analyzer | Storage | Report

  /** Where an edge leads: another node or END. */
  datatype Target = Goto(node: Node) | End

  /** The conditional edge out of `analyzer`: routing label to node. */
  const AnalyzerTargets: map<Route, Node> := map[StorageRoute := Storage, ReportRoute := Report]

  /** The same mapping, by cases. */
  function RouteTarget(r: Route): Node {
    match r
    case StorageRoute => Storage
    case ReportRoute => Report
  }

  /** Every label the router can return has a target, so the "unknown
      branch" failure of the graph library cannot arise, and the target is
      the node named by the label. */
  lemma AnalyzerTargetsTotal()
    ensures forall r: Route :: r in AnalyzerTargets && AnalyzerTargets[r] == RouteTarget(r)
    ensures AnalyzerTargets.Keys == {StorageRoute, ReportRoute}
  {
    forall r: Route ensures r in AnalyzerTargets && AnalyzerTargets[r] == RouteTarget(r) {
      if r.StorageRoute? {
        assert r == StorageRoute;
      } else {
        assert r == ReportRoute;
      }
    }
  }

  /** Distance to END, which every edge decreases. */
  function Rank(n: Node): nat {
    match n
    case QueryGen => 6
    case Search => 5
    case Scraper => 4
    case Analyzer => 3
    case Storage => 2
    case Report => 1
  }

  /** The entry point. */
  const Entry := QueryGen

  /** The edge out of `n`, evaluated on the state after `n` ran. */
  function Successor(n: Node, s: State): (t: Target)
    ensures t.Goto? ==> Rank(t.node) < Rank(n)
    ensures t == End <==> n == Report
  {
    match n
    case QueryGen => Goto(Search)
    case Search => Goto(Scraper)
    case Scraper => Goto(Analyzer)
    case Analyzer => Goto(RouteTarget(ShouldStoreSources(s)))
    case Storage => Goto(Report)
    case Report => End
  }

  /** The node functions, by name. */
  function Execute(n: Node, s: State, c: Collaborators): Update {
    match n
    case QueryGen => QueryGenNode(s, c)
    case Search => SearchNode(s, c)
    case Scraper => ScraperNode(s, c)
    case Analyzer => AnalyzerNode(s, c)
    case Storage => StorageNode(s, c)
    case Report => ReportNode(s, c)
  }

  // ---------------------------------------------------------------------------
  // The run, node by node
  // ---------------------------------------------------------------------------

  // The states a run passes through, named after the node that produced them.

  function AfterQueryGen(s0: State, c: Collaborators): State {
    Merge(s0, QueryGenNode(s0, c))
  }

  function AfterSearch(s0: State, c: Collaborators): State {
    var s1 := AfterQueryGen(s0, c);
    Merge(s1, SearchNode(s1, c))
  }

  function AfterScraper(s0: State, c: Collaborators): State {
    var s2 := AfterSearch(s0, c);
    Merge(s2, ScraperNode(s2, c))
  }

  /** The state the router reads. */
  function AfterAnalyzer(s0: State, c: Collaborators): State {
    var s3 := AfterScraper(s0, c);
    Merge(s3, AnalyzerNode(s3, c))
  }

  function AfterStorage(s0: State, c: Collaborators): State {
    var s4 := AfterAnalyzer(s0, c);
    Merge(s4, StorageNode(s4, c))
  }

  /** Whether the router sends the run through storage. */
  predicate Stores(s0: State, c: Collaborators) {
    exists i :: 0 <= i < |AfterAnalyzer(s0, c).analyzedSources|
      && AfterAnalyzer(s0, c).analyzedSources[i].score >= StoreThreshold
  }

  /** The state before the report node runs. */
  function BeforeReport(s0: State, c: Collaborators): State {
    if Stores(s0, c) then AfterStorage(s0, c) else AfterAnalyzer(s0, c)
  }

  const LongPath := [QueryGen, Search, Scraper, Analyzer, Storage, Report]
  const ShortPath := [QueryGen, Search, Scraper, Analyzer, Report]

  /** The nodes a run from `s0` visits. */
  function PathOf(s0: State, c: Collaborators): seq<Node> {
    if Stores(s0, c) then LongPath else ShortPath
  }

  /** The state a run from `s0` ends in: the report node's update merged
      into the state it was given. */
  function FinalState(s0: State, c: Collaborators): State {
    var s := BeforeReport(s0, c);
    Merge(s, ReportNode(s, c))
  }

  /** Where the executor stands: about to run `next` (or finished), with the
      state and trace the nodes before it produced. */
  predicate AtStage(next: Target, s: State, trace: seq<Node>, s0: State, c: Collaborators) {
    match next
    case Goto(QueryGen) => s == s0 && trace == []
    case Goto(Search) => s == AfterQueryGen(s0, c) && trace == LongPath[..1]
    case Goto(Scraper) => s == AfterSearch(s0, c) && trace == LongPath[..2]
    case Goto(Analyzer) => s == AfterScraper(s0, c) && trace == LongPath[..3]
    case Goto(Storage) => s == AfterAnalyzer(s0, c) && trace == LongPath[..4] && Stores(s0, c)
    case Goto(Report) => s == BeforeReport(s0, c) && trace == PathOf(s0, c)[..|PathOf(s0, c)| - 1]
    case End => s == FinalState(s0, c) && trace == PathOf(s0, c)
  }

  function TargetRank(t: Target): nat {
    match t
    case Goto(n) => Rank(n)
    case End => 0
  }

  /** One iteration of the executor moves it to the next stage. */
  lemma StageStep(next: Target, s: State, trace: seq<Node>, s0: State, c: Collaborators)
    requires next.Goto? && AtStage(next, s, trace, s0, c)
    ensures var after := Merge(s, Execute(next.node, s, c));
      AtStage(Successor(next.node, after), after, trace + [next.node], s0, c)
  {
    match next.node
    case QueryGen => StageStepQueryGen(s, trace, s0, c);
    case Search => StageStepSearch(s, trace, s0, c);
    case Scraper => StageStepScraper(s, trace, s0, c);
    case Analyzer => StageStepAnalyzer(s, trace, s0, c);
    case Storage => StageStepStorage(s, trace, s0, c);
    case Report => StageStepReport(s, trace, s0, c);
  }

  lemma StageStepQueryGen(s: State, trace: seq<Node>, s0: State, c: Collaborators)
    requires AtStage(Goto(QueryGen), s, trace, s0, c)
    ensures var after := Merge(s, QueryGenNode(s, c));
      AtStage(Successor(QueryGen, after), after, trace + [QueryGen], s0, c)
  {
  }

  lemma StageStepSearch(s: State, trace: seq<Node>, s0: State, c: Collaborators)
    requires AtStage(Goto(Search), s, trace, s0, c)
    ensures var after := Merge(s, SearchNode(s, c));
      AtStage(Successor(Search, after), after, trace + [Search], s0, c)
  {
  }

  lemma StageStepScraper(s: State, trace: seq<Node>, s0: State, c: Collaborators)
    requires AtStage(Goto(Scraper), s, trace, s0, c)
    ensures var after := Merge(s, ScraperNode(s, c));
      AtStage(Successor(Scraper, after), after, trace + [Scraper], s0, c)
  {
  }

  lemma StageStepStorage(s: State, trace: seq<Node>, s0: State, c: Collaborators)
    requires AtStage(Goto(Storage), s, trace, s0, c)
    ensures var after := Merge(s, StorageNode(s, c));
      AtStage(Successor(Storage, after), after, trace + [Storage], s0, c)
  {
    var after := Merge(s, StorageNode(s, c));
    assert after == AfterStorage(s0, c) == BeforeReport(s0, c);
    assert PathOf(s0, c) == LongPath;
    assert trace + [Storage] == LongPath[..5];
  }

  lemma StageStepReport(s: State, trace: seq<Node>, s0: State, c: Collaborators)
    requires AtStage(Goto(Report), s, trace, s0, c)
    ensures var after := Merge(s, ReportNode(s, c));
      AtStage(Successor(Report, after), after, trace + [Report], s0, c)
  {
    var p := PathOf(s0, c);
    PathEndsInReport(p);
  }

  lemma PathEndsInReport(p: seq<Node>)
    requires p == LongPath || p == ShortPath
    ensures |p| > 0 && p[..|p| - 1] + [Report] == p
  {
  }

  lemma StageStepAnalyzer(s: State, trace: seq<Node>, s0: State, c: Collaborators)
    requires AtStage(Goto(Analyzer), s, trace, s0, c)
    ensures var after := Merge(s, AnalyzerNode(s, c));
      AtStage(Successor(Analyzer, after), after, trace + [Analyzer], s0, c)
  {
    var after := Merge(s, AnalyzerNode(s, c));
    assert after == AfterAnalyzer(s0, c);
    if Stores(s0, c) {
      assert Successor(Analyzer, after) == Goto(Storage);
    } else {
      assert Successor(Analyzer, after) == Goto(Report);
      assert BeforeReport(s0, c) == after;
    }
  }

  /** `run_research(topic, max_sources)`: runs the graph from the entry until
      END, merging each node's update into the state. */
  method RunResearch(topic: string, maxSources: Option<int>, c: Collaborators)
    returns (final: State, trace: seq<Node>, updates: seq<Update>)
    ensures trace == PathOf(InitialState(topic, maxSources), c)
    ensures final == FinalState(InitialState(topic, maxSources), c)
    ensures |updates| == |trace| && final == MergeAll(InitialState(topic, maxSources), updates)
  {
    var s0 := InitialState(topic, maxSources);
    var s := s0;
    var next := Goto(Entry);
    trace := [];
    updates := [];
    while next.Goto?
      invariant AtStage(next, s, trace, s0, c)
      invariant |updates| == |trace| && s == MergeAll(s0, updates)
      decreases TargetRank(next)
    {
      var n := next.node;
      var u := Execute(n, s, c);
      StageStep(next, s, trace, s0, c);
      MergeAllSnoc(s0, updates, u);
      updates := updates + [u];
      s := Merge(s, u);
      trace := trace + [n];
      next := Successor(n, s);
    }
    final := s;
  }

  // ---------------------------------------------------------------------------
  // Properties of a run
  // ---------------------------------------------------------------------------

  /** Every run takes one of exactly two paths, of 5 or 6 nodes, starting at
      the entry; report is on it once, as the last node, and storage is on it
      exactly when the analysed sources hold a score of at least 85. */
  lemma RunPaths(s0: State, c: Collaborators)
    ensures var p := PathOf(s0, c);
      && (|p| == 5 || |p| == 6)
      && p[0] == QueryGen && p[|p| - 1] == Report
      && (forall i :: 0 <= i < |p| - 1 ==> p[i] != Report)
      && (Storage in p <==> ShouldStoreSources(AfterAnalyzer(s0, c)) == StorageRoute)
  {
    var p := PathOf(s0, c);
    assert Storage !in ShortPath;
    assert Storage in LongPath by { assert LongPath[4] == Storage; }
  }

  /** The run ends in one of the three report steps. */
  lemma RunEndsInReportStep(s0: State, c: Collaborators)
    ensures FinalState(s0, c).currentStep in {ReportComplete, ReportGeneratedWithErrors, ReportFailed}
  {
    var u := ReportNode(BeforeReport(s0, c), c);
    assert StepIs(u, ReportComplete) || StepIs(u, ReportGeneratedWithErrors) || StepIs(u, ReportFailed);
  }

  // One merge at a time: what an update that leaves a field out keeps.
  lemma KeepsInputs(s: State, u: Update)
    requires u.topic.None? && u.maxSources.None?
    ensures Merge(s, u).topic == s.topic && Merge(s, u).maxSources == s.maxSources
  {
  }

  lemma KeepsDiscovered(s: State, u: Update)
    requires u.discoveredUrls.None?
    ensures Merge(s, u).discoveredUrls == s.discoveredUrls
  {
  }


  lemma MergeLists(s: State, u: Update)
    ensures Merge(s, u).discoveredUrls == s.discoveredUrls + u.discoveredUrls.GetOr([])
    ensures Merge(s, u).scrapedSources == s.scrapedSources + u.scrapedSources.GetOr([])
    ensures Merge(s, u).analyzedSources == s.analyzedSources + u.analyzedSources.GetOr([])
    ensures Merge(s, u).errors == s.errors + u.errors.GetOr([])
  {
  }

  lemma KeepsStorageLists(s: State, u: Update)
    requires u.storedSources.None? && u.rejectedSources.None?
    ensures Merge(s, u).storedSources == s.storedSources
    ensures Merge(s, u).rejectedSources == s.rejectedSources
  {
  }

  /** No node writes the topic or the source limit, so a run keeps the
      caller's values. */
  lemma RunKeepsInputs(s0: State, c: Collaborators)
    ensures FinalState(s0, c).topic == s0.topic
    ensures FinalState(s0, c).maxSources == s0.maxSources
  {
    var s1 := AfterQueryGen(s0, c);
    var s2 := AfterSearch(s0, c);
    var s3 := AfterScraper(s0, c);
    var s4 := AfterAnalyzer(s0, c);
    var b := BeforeReport(s0, c);
    KeepsInputs(s0, QueryGenNode(s0, c));
    KeepsInputs(s1, SearchNode(s1, c));
    KeepsInputs(s2, ScraperNode(s2, c));
    KeepsInputs(s3, AnalyzerNode(s3, c));
    KeepsInputs(s4, StorageNode(s4, c));
    KeepsInputs(b, ReportNode(b, c));
  }

  /** Starting from `create_initial_state`, the URLs a run discovers are the
      search node's increment, which that node cut to the source limit. */
  lemma RunDiscoveredBound(topic: string, maxSources: Option<int>, c: Collaborators)
    requires maxSources.GetOr(10) >= 0
    ensures |FinalState(InitialState(topic, maxSources), c).discoveredUrls| <= maxSources.GetOr(10)
  {
    var s0 := InitialState(topic, maxSources);
    var s1 := AfterQueryGen(s0, c);
    RunDiscovered(s0, c);
    KeepsDiscovered(s0, QueryGenNode(s0, c));
    SearchOutcome(s1, c);
  }

  /** The search node is the only one that discovers URLs. */
  lemma RunDiscovered(s0: State, c: Collaborators)
    ensures var s1 := AfterQueryGen(s0, c);
      FinalState(s0, c).discoveredUrls == s0.discoveredUrls + SearchNode(s1, c).discoveredUrls.value
  {
    var s1 := AfterQueryGen(s0, c);
    var s2 := AfterSearch(s0, c);
    var s3 := AfterScraper(s0, c);
    var s4 := AfterAnalyzer(s0, c);
    var b := BeforeReport(s0, c);
    KeepsDiscovered(s0, QueryGenNode(s0, c));
    MergeLists(s1, SearchNode(s1, c));
    KeepsDiscovered(s2, ScraperNode(s2, c));
    KeepsDiscovered(s3, AnalyzerNode(s3, c));
    KeepsDiscovered(s4, StorageNode(s4, c));
    KeepsDiscovered(b, ReportNode(b, c));
  }


  /** When the router skips storage, the stored and rejected lists keep the
      values they had before the run. */
  lemma SkippedStorageLeavesLists(s0: State, c: Collaborators)
    requires !Stores(s0, c)
    ensures FinalState(s0, c).storedSources == s0.storedSources
    ensures FinalState(s0, c).rejectedSources == s0.rejectedSources
  {
    var s1 := AfterQueryGen(s0, c);
    var s2 := AfterSearch(s0, c);
    var s3 := AfterScraper(s0, c);
    var s4 := AfterAnalyzer(s0, c);
    KeepsStorageLists(s0, QueryGenNode(s0, c));
    KeepsStorageLists(s1, SearchNode(s1, c));
    KeepsStorageLists(s2, ScraperNode(s2, c));
    KeepsStorageLists(s3, AnalyzerNode(s3, c));
    KeepsStorageLists(s4, ReportNode(s4, c));
  }

  /** A failing search does not stop the run: scraping and analysis are
      skipped with their own errors and the error page is written. */
  lemma FailingSearchStillReports(topic: string, maxSources: Option<int>, c: Collaborators)
    requires c.generateQueries(topic, QueryGenResultsPerQuery(maxSources.GetOr(10))).Success?
    requires forall qs, n :: c.searchUrls(qs, n).Failure?
    ensures var s0 := InitialState(topic, maxSources);
      var r := FinalState(s0, c);
      && PathOf(s0, c) == ShortPath
      && |r.errors| == 3
      && "Search failed: " <= r.errors[0]
      && r.errors[1..] == ["No URLs to scrape", "No sources to analyze"]
      && r.currentStep == ReportGeneratedWithErrors
  {
    var s0 := InitialState(topic, maxSources);
    var s1 := AfterQueryGen(s0, c);
    var s2 := AfterSearch(s0, c);
    var s3 := AfterScraper(s0, c);
    var s4 := AfterAnalyzer(s0, c);
    var u1 := QueryGenNode(s0, c);
    QueryGenOutcome(s0, c);
    MergeLists(s0, u1);
    assert s1.errors == [] && s1.discoveredUrls == [];
    var u2 := SearchNode(s1, c);
    SearchOutcome(s1, c);
    MergeLists(s1, u2);
    assert s2.discoveredUrls == [] && |s2.errors| == 1 && "Search failed: " <= s2.errors[0];
    var u3 := ScraperNode(s2, c);
    ScraperOutcome(s2, c);
    MergeLists(s2, u3);
    assert s3.scrapedSources == s2.scrapedSources && s3.errors == s2.errors + ["No URLs to scrape"];
    var u4 := AnalyzerNode(s3, c);
    AnalyzerOutcome(s3, c);
    MergeLists(s3, u4);
    assert s4.analyzedSources == s3.analyzedSources && s4.errors == s3.errors + ["No sources to analyze"];
    var u5 := ReportNode(s4, c);
    ReportOutcome(s4, c);
    MergeLists(s4, u5);
  }
}

=== FILE: html_generator.dfy ===
/** The template-based report generator (research_assistant/utils/html_generator.py):
    the figures and per-source entries `generate` hands to its template, and
    the plain-text formatter, which, unlike the reporter's, recognises lists
    and does not escape. The template markup itself is not modelled. */
module HtmlGenerator {
  import opened Wrappers
  import opened Text
  import opened Sources
  import ReporterAgent

  // ---------------------------------------------------------------------------
  // Formatting plain text
  // ---------------------------------------------------------------------------

  const NoContent := "<p>No content available.</p>"

  /** The message of the `IndexError` raised by `split('.', 1)[1]` on a
      line without a dot. */
  const SplitIndexError := "list index out of range"

  /** The prefixes that make a paragraph's first line open a list. */
  predicate OpensList(line: string) {
    "-" <= line || "*" <= line || "1." <= line || "2." <= line || "3." <= line
  }

  /** The text of one stripped, non-empty list line: a bullet and the
      spaces after it dropped, a number up to its first dot dropped, any
      other line kept whole. A digit-initial line without a dot fails. */
  function ItemText(line: string): (r: Result<string, string>)
    ensures r.Failure? <==> |line| > 0 && IsDigit(line[0]) && FirstIndexOfChar(line, '.') < 0
    ensures r.Failure? ==> r.error == SplitIndexError
    ensures |line| > 0 && (line[0] == '-' || line[0] == '*') ==> r == Success(Strip(line[1..]))
    ensures |line| > 0 && IsDigit(line[0]) && FirstIndexOfChar(line, '.') >= 0 ==>
      r == Success(Strip(line[FirstIndexOfChar(line, '.') + 1..]))
    ensures |line| > 0 && line[0] != '-' && line[0] != '*' && !IsDigit(line[0]) ==> r == Success(line)
  {
    if |line| > 0 && (line[0] == '-' || line[0] == '*') then Success(Strip(line[1..]))
    else if |line| > 0 && IsDigit(line[0]) then
      var dot := FirstIndexOfChar(line, '.');
      if dot < 0 then Failure(SplitIndexError) else Success(Strip(line[dot + 1..]))
    else Success(line)
  }

  /** `f` applied to each string, or the error of the first that fails:
      a loop that raises out of the first failing step. */
  function MapOrFail(xs: seq<string>, f: string -> Result<string, string>): (r: Result<seq<string>, string>)
    ensures r.Success? <==> forall i :: 0 <= i < |xs| ==> f(xs[i]).Success?
    ensures r.Success? ==> |r.value| == |xs| && forall i :: 0 <= i < |xs| ==> r.value[i] == f(xs[i]).value
    ensures r.Failure? ==> exists i :: 0 <= i < |xs| && f(xs[i]) == Failure(r.error)
  {
    if |xs| == 0 then Success([])
    else
      match f(xs[0])
      case Failure(e) => Failure(e)
      case Success(h) =>
        var rest := MapOrFail(xs[1..], f);
        assert forall i :: 1 <= i < |xs| ==> xs[i] == xs[1..][i - 1];
        if rest.Failure? then
          assert exists i :: 1 <= i < |xs| && f(xs[i]) == Failure(rest.error) by {
            var j :| 0 <= j < |xs[1..]| && f(xs[1..][j]) == Failure(rest.error);
            assert xs[1..][j] == xs[j + 1];
          }
          Failure(rest.error)
        else
          Success([h] + rest.value)
  }

  /** The `<li>` element of one stripped, non-empty list line. */
  function ItemElement(line: string): Result<string, string> {
    match ItemText(line)
    case Success(t) => Success("<li>" + t + "</li>")
    case Failure(e) => Failure(e)
  }

  /** The `<li>` elements of the given lines, or the error of the first
      line that fails. */
  function Items(lines: seq<string>): (r: Result<seq<string>, string>)
    ensures r.Success? <==> forall i :: 0 <= i < |lines| ==> ItemText(lines[i]).Success?
    ensures r.Success? ==> |r.value| == |lines|
    ensures r.Success? ==> forall i :: 0 <= i < |lines| ==> r.value[i] == "<li>" + ItemText(lines[i]).value + "</li>"
    ensures r.Failure? ==> r.error == SplitIndexError
  {
    MapOrFail(lines, ItemElement)
  }

  /** A paragraph of several lines whose first line, stripped, opens a
      list. */
  predicate IsList(para: string) {
    var lines := Split(para, "\n");
    |lines| > 1 && OpensList(Strip(lines[0]))
  }

  /** The lines of a list paragraph that become items: each stripped, the
      blank ones dropped. */
  function ItemLines(para: string): seq<string> {
    NonEmpty(StripAll(Split(para, "\n")))
  }

  /** A line that starts with a digit and has no dot, on which
      `split('.', 1)[1]` raises. */
  predicate BadItem(line: string) {
    |line| > 0 && IsDigit(line[0]) && FirstIndexOfChar(line, '.') < 0
  }

  /** The `<ul>` of the given item lines, one `<li>` per line, in order. */
  function ListHtml(lines: seq<string>): string
    requires forall i :: 0 <= i < |lines| ==> !BadItem(lines[i])
  {
    "<ul>" + Concat(seq(|lines|, i requires 0 <= i < |lines| && !BadItem(lines[i]) =>
                          "<li>" + ItemText(lines[i]).value + "</li>")) + "</ul>"
  }

  /** One stripped, non-blank paragraph: a list paragraph becomes a `<ul>`
      of its non-blank lines and fails exactly when one of them is a
      digit-initial line without a dot; any other paragraph is a `<p>`
      around the text as it is (no escaping). */
  function FormatParagraph(para: string): (r: Result<string, string>)
    ensures !IsList(para) ==> r == Success("<p>" + para + "</p>")
    ensures IsList(para) ==>
      (r.Failure? <==> exists i :: 0 <= i < |ItemLines(para)| && BadItem(ItemLines(para)[i]))
    ensures r.Failure? ==> r.error == SplitIndexError
    ensures IsList(para) && r.Success? ==> r.value == ListHtml(ItemLines(para))
  {
    if IsList(para) then
      var lines := ItemLines(para);
      ItemsFailure(lines);
      match Items(lines)
      case Success(items) =>
        ItemsAreListHtml(lines);
        Success("<ul>" + Concat(items) + "</ul>")
      case Failure(e) => Failure(e)
    else Success("<p>" + para + "</p>")
  }

  /** When every item line formats, the `<li>` elements make up `ListHtml`. */
  lemma ItemsAreListHtml(lines: seq<string>)
    requires Items(lines).Success?
    ensures forall i :: 0 <= i < |lines| ==> !BadItem(lines[i])
    ensures "<ul>" + Concat(Items(lines).value) + "</ul>" == ListHtml(lines)
  {
    ItemsFailure(lines);
    assert Items(lines).value == seq(|lines|, i requires 0 <= i < |lines| && !BadItem(lines[i]) =>
                                       "<li>" + ItemText(lines[i]).value + "</li>");
  }

  /** The formatted paragraphs, or the first error. */
  function FormatParagraphs(paras: seq<string>): Result<seq<string>, string> {
    MapOrFail(paras, FormatParagraph)
  }

  /** The element of each paragraph, in order, when none fails. */
  function Elements(paras: seq<string>): (r: seq<string>)
    requires forall i :: 0 <= i < |paras| ==> FormatParagraph(paras[i]).Success?
    ensures |r| == |paras|
  {
    seq(|paras|, i requires 0 <= i < |paras| => FormatParagraph(paras[i]).value)
  }

  /** `_format_text_to_html(text)`: the placeholder for the empty text;
      otherwise one element per non-blank paragraph of the stripped text
      (the pieces between blank lines, stripped), in order, one per line.
      It fails, with the `IndexError` message, exactly when some paragraph
      fails. */
  function FormatTextToHtml(text: string): (r: Result<string, string>)
    ensures text == "" ==> r == Success(NoContent)
    ensures text != "" ==> var paras := ReporterAgent.Paragraphs(Strip(text));
      && (r.Failure? <==> exists i :: 0 <= i < |paras| && FormatParagraph(paras[i]).Failure?)
      && (r.Failure? ==> r.error == SplitIndexError)
      && (r.Success? ==> r.value == Join(Elements(paras), "\n"))
  {
    if text == "" then Success(NoContent)
    else
      var paras := ReporterAgent.Paragraphs(Strip(text));
      match FormatParagraphs(paras)
      case Success(parts) =>
        assert parts == Elements(paras);
        Success(Join(parts, "\n"))
      case Failure(e) => Failure(e)
  }

  /** A text of white space only is not empty, so it gets no placeholder:
      it formats to the empty string. */
  lemma BlankTextFormatsToNothing(text: string)
    requires text != "" && forall i :: 0 <= i < |text| ==> IsSpace(text[i])
    ensures FormatTextToHtml(text) == Success("")
  {
    assert Strip(text) == "";
    SplitWithoutSeparator("", "\n\n");
    ParagraphsOfEmpty();
  }

  lemma ParagraphsOfEmpty()
    ensures NonEmpty(StripAll([""])) == []
  {
    StripNoop("");
    assert StripAll([""]) == [""];
  }

  /** A single line of text is one `<p>` paragraph holding the stripped line
      unescaped, whatever it starts with. */
  lemma OneLineIsParagraph(text: string)
    requires Strip(text) != ""
    requires forall i :: 0 <= i < |text| ==> text[i] != '\n'
    ensures FormatTextToHtml(text) == Success("<p>" + Strip(text) + "</p>")
  {
    var p := Strip(text);
    OneLineParagraphs(text, p);
    var html := "<p>" + p + "</p>";
    assert FormatParagraph(p) == Success(html) by {
      NoNewlineInSlice(text, p);
      SplitWithoutSeparator(p, "\n");
    }
    MapOrFailOne(p, FormatParagraph);
    assert Join([html], "\n") == html;
  }

  /** A single non-blank line is the only paragraph of its text. */
  lemma OneLineParagraphs(text: string, p: string)
    requires p == Strip(text) && p != ""
    requires forall i :: 0 <= i < |text| ==> text[i] != '\n'
    ensures NonEmpty(StripAll(Split(p, "\n\n"))) == [p]
  {
    NoNewlineInSlice(text, p);
    SplitWithoutSeparator(p, "\n\n");
    StripNoop(p);
    assert StripAll([p]) == [p];
    assert [p][1..] == [];
  }

  lemma MapOrFailOne(x: string, f: string -> Result<string, string>)
    requires f(x).Success?
    ensures MapOrFail([x], f) == Success([f(x).value])
  {
    assert [x][1..] == [];
    assert MapOrFail([], f) == Success([]);
    assert [f(x).value] + [] == [f(x).value];
  }

  lemma NoNewlineInSlice(text: string, p: string)
    requires forall i :: 0 <= i < |text| ==> text[i] != '\n'
    requires p == Strip(text)
    ensures !Contains(p, "\n\n") && !Contains(p, "\n")
  {
    assert forall i :: 0 <= i < |p| ==> p[i] != '\n' by {
      assert forall i :: 0 <= i < |p| ==> p[i] == text[LeadingSpace(text) + i];
    }
    NoNewlineNoBreak(p, "\n");
    NoNewlineNoBreak(p, "\n\n");
  }

  lemma NoNewlineNoBreak(p: string, pat: string)
    requires forall i :: 0 <= i < |p| ==> p[i] != '\n'
    requires |pat| > 0 && pat[0] == '\n'
    ensures !Contains(p, pat)
  {
    forall k: nat ensures !OccursAt(p, pat, k) {
      if k + |pat| <= |p| {
        assert p[k..k + |pat|][0] == p[k];
      }
    }
  }

  lemma ItemsFailure(lines: seq<string>)
    ensures Items(lines).Failure? <==> exists i :: 0 <= i < |lines| && BadItem(lines[i])
  {
    assert forall i :: 0 <= i < |lines| ==> (ItemText(lines[i]).Failure? <==> BadItem(lines[i]));
  }

  // ---------------------------------------------------------------------------
  // generate
  // ---------------------------------------------------------------------------

  /** The analysis part of a template entry. */
  datatype EntryAnalysis = EntryAnalysis(reasoning: string, strengths: seq<string>, redFlags: seq<string>)

  /** One source as the template receives it. */
  datatype Entry = Entry(
    url: string,
    title: string,
    score: real,
    trust: TrustClass,
    preview: string,
    domain: string,
    wordCount: Option<int>,
    analysis: Option<EntryAnalysis>)

  const PreviewChars := 400

  /** A source's entry: the analysis is absent when the metadata has none
      or an empty one; an absent key in it reads as "" or []. */
  function EntryOf(s: Source): (e: Entry)
    ensures e.analysis.None? <==> s.metadata.analysis.None? || s.metadata.analysis.value.IsEmpty()
    ensures e.trust == TrustHigh <==> IsTrustworthy(s, TrustThreshold)
  {
    var a := s.metadata.analysis;
    HighIsTrustworthy(s);
    Entry(s.url, s.title, s.score, ClassifyTrust(s.score), ContentPreview(s, PreviewChars),
          s.metadata.domain.GetOr(""), s.metadata.wordCount,
          if a.None? || a.value.IsEmpty() then None
          else Some(EntryAnalysis(a.value.reasoning.GetOr(""), a.value.strengths.GetOr([]), a.value.redFlags.GetOr([]))))
  }

  /** What `generate` hands to the template. */
  datatype Page = Page(
    topic: string,
    totalSources: nat,
    trustworthyCount: nat,
    averageScore: real,
    queriesCount: int,
    executiveSummary: string,
    keyFindings: string,
    entries: seq<Entry>,
    showStatistics: bool)

  function Entries(sources: seq<Source>): (r: seq<Entry>)
    ensures |r| == |sources|
    ensures forall i :: 0 <= i < |sources| ==> r[i] == EntryOf(sources[i])
  {
    seq(|sources|, i requires 0 <= i < |sources| => EntryOf(sources[i]))
  }

  /** `generate(...)`: the page shows the topic, the number of sources, how
      many score 85 or above, their mean score (0 for none), the formatted
      summary and findings, and one entry per source in order; it fails
      when formatting either text fails. */
  function Generate(topic: string, sources: seq<Source>, summary: string, findings: string,
                    queriesCount: int, showStatistics: bool): (r: Result<Page, string>)
    ensures r.Success? <==> FormatTextToHtml(summary).Success? && FormatTextToHtml(findings).Success?
    ensures r.Failure? ==> r.error == SplitIndexError
    ensures r.Success? ==>
      && r.value.topic == topic
      && r.value.totalSources == |sources|
      && r.value.trustworthyCount == |AtLeast(sources, 85.0)|
      && (|sources| == 0 ==> r.value.averageScore == 0.0)
      && (|sources| > 0 ==> r.value.averageScore == SumScores(sources) / |sources| as real)
      && r.value.queriesCount == queriesCount
      && r.value.executiveSummary == FormatTextToHtml(summary).value
      && r.value.keyFindings == FormatTextToHtml(findings).value
      && |r.value.entries| == |sources|
      && (forall i :: 0 <= i < |sources| ==> r.value.entries[i] == EntryOf(sources[i]))
      && r.value.showStatistics == showStatistics
  {
    var n := |sources|;
    match FormatTextToHtml(summary)
    case Failure(e) => Failure(e)
    case Success(s) =>
      match FormatTextToHtml(findings)
      case Failure(e) => Failure(e)
      case Success(f) =>
        Success(Page(topic, n, |AtLeast(sources, 85.0)|,
                     if n == 0 then 0.0 else SumScores(sources) / n as real,
                     queriesCount, s, f, Entries(sources), showStatistics))
  }

  /** The entries marked "trust-high" are exactly the trustworthy sources,
      so they are as many as the trustworthy count; and a source gets the
      same class here as in the reporter's sources section. */
  lemma GenerateTrustAgrees(topic: string, sources: seq<Source>, summary: string, findings: string,
                            queriesCount: int, showStatistics: bool, includeFullContent: bool,
                            domainOf: string -> string)
    requires Generate(topic, sources, summary, findings, queriesCount, showStatistics).Success?
    ensures var page := Generate(topic, sources, summary, findings, queriesCount, showStatistics).value;
      && CountHigh(page.entries) == page.trustworthyCount
      && forall i :: 0 <= i < |sources| ==>
           page.entries[i].trust == ReporterAgent.EntryOf(i + 1, sources[i], includeFullContent, domainOf).trust
  {
    var page := Generate(topic, sources, summary, findings, queriesCount, showStatistics).value;
    CountHighIsTrustworthy(sources, page.entries);
  }

  function CountHigh(entries: seq<Entry>): nat {
    if |entries| == 0 then 0
    else (if entries[0].trust == TrustHigh then 1 else 0) + CountHigh(entries[1..])
  }

  lemma {:induction false} CountHighIsTrustworthy(sources: seq<Source>, entries: seq<Entry>)
    requires |entries| == |sources|
    requires forall i :: 0 <= i < |sources| ==> entries[i] == EntryOf(sources[i])
    ensures CountHigh(entries) == |AtLeast(sources, 85.0)|
  {
    if |sources| > 0 {
      CountHighIsTrustworthy(sources[1..], entries[1..]);
      assert entries[0].trust == TrustHigh <==> sources[0].score >= 85.0;
    }
  }
}

=== FILE: nodes.dfy ===
/** The six workflow nodes and the routing predicate
    (research_assistant/graph/nodes.py). Each node reads the state, calls
    its collaborator, catches the collaborator's failure and returns a
    partial update; the agents behind the nodes are parameters. */
module Nodes {
  import opened Wrappers
  import opened Text
  import opened Seqs
  import opened Sources
  import opened ResearchState

  /** What a successful scraping run returns. */
  datatype Scraped = Scraped(sources: seq<Source>, failedUrls: seq<string>)

  /** The agents and the store the nodes construct and call. A `Failure`
      (or `Some` error for the store) is an exception raised by that call,
      carrying `str(e)`; an agent whose result record has `success` false is
      a failure with the record's `error`. */
  datatype Collaborators = Collaborators(
    // SearcherAgent.generate_queries(topic) on an agent built with max_results_per_query
    generateQueries: (string, int) -> Result<seq<string>, string>,
    // SearcherAgent.search_urls(queries) on an agent built with max_results_per_query
    searchUrls: (seq<string>, int) -> Result<seq<string>, string>,
    // ScraperAgent.run(urls, min_success_rate=0.0)
    scrape: seq<string> -> Result<Scraped, string>,
    // AnalyzerAgent.run(sources, topic, filter_untrustworthy=False)
    analyze: (seq<Source>, string) -> Result<seq<Source>, string>,
    // VectorStore(collection_name).add_sources(trustworthy)
    store: (string, seq<Source>) -> Option<string>,
    // ReporterAgent.run(topic, sources)["html_report"]
    report: (string, seq<Source>) -> Result<string, string>)

  /** The names of the keys an update returns. */
  datatype Key =
    | TopicKey | MaxSourcesKey | QueriesKey | DiscoveredKey | ScrapedKey | FailedKey
    | AnalyzedKey | StoredKey | RejectedKey | ReportKey | StepKey | ErrorsKey

  /** The update returns no key outside `ks`. */
  predicate WritesOnly(u: Update, ks: set<Key>) {
    && (u.topic.Some? ==> TopicKey in ks)
    && (u.maxSources.Some? ==> MaxSourcesKey in ks)
    && (u.searchQueries.Some? ==> QueriesKey in ks)
    && (u.discoveredUrls.Some? ==> DiscoveredKey in ks)
    && (u.scrapedSources.Some? ==> ScrapedKey in ks)
    && (u.failedUrls.Some? ==> FailedKey in ks)
    && (u.analyzedSources.Some? ==> AnalyzedKey in ks)
    && (u.storedSources.Some? ==> StoredKey in ks)
    && (u.rejectedSources.Some? ==> RejectedKey in ks)
    && (u.reportHtml.Some? ==> ReportKey in ks)
    && (u.currentStep.Some? ==> StepKey in ks)
    && (u.errors.Some? ==> ErrorsKey in ks)
  }

  /** The update appends exactly one error, which starts with `prefix`. */
  predicate OneError(u: Update, prefix: string) {
    u.errors.Some? && |u.errors.value| == 1 && prefix <= u.errors.value[0]
  }

  predicate StepIs(u: Update, step: Step) {
    u.currentStep == Some(step)
  }

  // ---------------------------------------------------------------------------
  // query_gen
  // ---------------------------------------------------------------------------

  /** `max_sources // 3`; Python floors, as Dafny's division does for a
      positive divisor. */
  function QueryGenResultsPerQuery(maxSources: int): int {
    maxSources / 3
  }

  function QueryGenNode(s: State, c: Collaborators): (u: Update)
    ensures WritesOnly(u, {QueriesKey, StepKey, ErrorsKey})
    ensures StepIs(u, QueryGenerationComplete) || StepIs(u, QueryGenerationFailed)
  {
    match c.generateQueries(s.topic, QueryGenResultsPerQuery(s.maxSources))
    case Success(queries) =>
      NoUpdate.(searchQueries := Some(queries), currentStep := Some(QueryGenerationComplete))
    case Failure(e) =>
      NoUpdate.(searchQueries := Some([s.topic]), currentStep := Some(QueryGenerationFailed),
                errors := Some(["Query generation failed: " + e]))
  }

  /** What `query_gen` returns in each case: the generated queries, or the topic
      itself as the only query together with one error. */
  lemma QueryGenOutcome(s: State, c: Collaborators)
    ensures var u := QueryGenNode(s, c);
      StepIs(u, QueryGenerationComplete) ==> u.errors.None? && u.searchQueries.Some?
    ensures var u := QueryGenNode(s, c);
      StepIs(u, QueryGenerationFailed) ==>
        OneError(u, "Query generation failed: ") && u.searchQueries == Some([s.topic])
    ensures var u := QueryGenNode(s, c);
      StepIs(u, QueryGenerationFailed) <==>
        c.generateQueries(s.topic, QueryGenResultsPerQuery(s.maxSources)).Failure?
  {
  }

  // ---------------------------------------------------------------------------
  // search
  // ---------------------------------------------------------------------------

  /** `max_sources // len(queries) if queries else max_sources`. */
  function SearchResultsPerQuery(maxSources: int, queries: seq<string>): int {
    if |queries| > 0 then maxSources / |queries| else maxSources
  }

  function SearchNode(s: State, c: Collaborators): (u: Update)
    ensures WritesOnly(u, {DiscoveredKey, StepKey, ErrorsKey}) && u.discoveredUrls.Some?
    ensures StepIs(u, SearchComplete) || StepIs(u, SearchFailed)
  {
    match c.searchUrls(s.searchQueries, SearchResultsPerQuery(s.maxSources, s.searchQueries))
    case Success(urls) =>
      NoUpdate.(discoveredUrls := Some(PyPrefix(urls, s.maxSources)), currentStep := Some(SearchComplete))
    case Failure(e) =>
      NoUpdate.(discoveredUrls := Some([]), currentStep := Some(SearchFailed),
                errors := Some(["Search failed: " + e]))
  }

  /** What `search` returns in each case: at most `max_sources` of the found
      URLs, taken from the front, or no URLs and one error. */
  lemma SearchOutcome(s: State, c: Collaborators)
    ensures var u := SearchNode(s, c);
      s.maxSources >= 0 ==> |u.discoveredUrls.value| <= s.maxSources
    ensures var u := SearchNode(s, c);
      StepIs(u, SearchComplete) ==> u.errors.None?
    ensures var u := SearchNode(s, c);
      StepIs(u, SearchComplete) ==>
        exists urls :: c.searchUrls(s.searchQueries, SearchResultsPerQuery(s.maxSources, s.searchQueries))
                       == Success(urls) && u.discoveredUrls.value <= urls
    ensures var u := SearchNode(s, c);
      StepIs(u, SearchFailed) ==> OneError(u, "Search failed: ") && u.discoveredUrls == Some([])
    ensures var u := SearchNode(s, c);
      StepIs(u, SearchFailed) <==>
        c.searchUrls(s.searchQueries, SearchResultsPerQuery(s.maxSources, s.searchQueries)).Failure?
  {
  }

  // ---------------------------------------------------------------------------
  // scraper
  // ---------------------------------------------------------------------------

  function ScraperNode(s: State, c: Collaborators): (u: Update)
    ensures WritesOnly(u, {ScrapedKey, FailedKey, StepKey, ErrorsKey}) && u.scrapedSources.Some?
    ensures StepIs(u, ScrapingSkippedNoUrls) || StepIs(u, ScrapingComplete) || StepIs(u, ScrapingFailed)
  {
    var urls := s.discoveredUrls;
    if |urls| == 0 then
      NoUpdate.(scrapedSources := Some([]), currentStep := Some(ScrapingSkippedNoUrls),
                errors := Some(["No URLs to scrape"]))
    else
      match c.scrape(urls)
      case Success(r) =>
        NoUpdate.(scrapedSources := Some(r.sources), failedUrls := Some(r.failedUrls),
                  currentStep := Some(ScrapingComplete))
      case Failure(e) =>
        NoUpdate.(scrapedSources := Some([]), failedUrls := Some(urls), currentStep := Some(ScrapingFailed),
                  errors := Some(["Scraping failed: " + e]))
  }

  /** What `scraper` returns in each case: a skip when nothing was discovered,
      the scraper's own result, or every discovered URL counted as failed. */
  lemma ScraperOutcome(s: State, c: Collaborators)
    ensures var u := ScraperNode(s, c);
      StepIs(u, ScrapingSkippedNoUrls) <==> s.discoveredUrls == []
    ensures var u := ScraperNode(s, c);
      StepIs(u, ScrapingSkippedNoUrls) ==>
        u.scrapedSources == Some([]) && u.errors == Some(["No URLs to scrape"]) && u.failedUrls.None?
    ensures var u := ScraperNode(s, c);
      StepIs(u, ScrapingComplete) ==> u.errors.None?
    ensures var u := ScraperNode(s, c);
      StepIs(u, ScrapingComplete) ==>
        && u.scrapedSources.Some? && u.failedUrls.Some?
        && c.scrape(s.discoveredUrls) == Success(Scraped(u.scrapedSources.value, u.failedUrls.value))
    ensures var u := ScraperNode(s, c);
      StepIs(u, ScrapingFailed) ==>
        && OneError(u, "Scraping failed: ")
        && u.scrapedSources == Some([])
        && u.failedUrls == Some(s.discoveredUrls)
  {
  }

  // ---------------------------------------------------------------------------
  // analyzer
  // ---------------------------------------------------------------------------

  /** The fallback of a failed analysis: a source still scoring exactly 0.0
      is given 50.0, every other source keeps its score. */
  function DefaultScores(xs: seq<Source>): (r: seq<Source>)
    ensures |r| == |xs|
    ensures forall i :: 0 <= i < |xs| ==>
      r[i] == (if xs[i].score == 0.0 then xs[i].(score := 50.0) else xs[i])
  {
    if |xs| == 0 then []
    else [if xs[0].score == 0.0 then xs[0].(score := 50.0) else xs[0]] + DefaultScores(xs[1..])
  }

  function AnalyzerNode(s: State, c: Collaborators): (u: Update)
    ensures WritesOnly(u, {AnalyzedKey, StepKey, ErrorsKey}) && u.analyzedSources.Some?
    ensures StepIs(u, AnalysisSkippedNoSources) || StepIs(u, AnalysisComplete)
         || StepIs(u, AnalysisFailed)
  {
    var sources := s.scrapedSources;
    if |sources| == 0 then
      NoUpdate.(analyzedSources := Some([]), currentStep := Some(AnalysisSkippedNoSources),
                errors := Some(["No sources to analyze"]))
    else
      match c.analyze(sources, s.topic)
      case Success(analyzed) =>
        NoUpdate.(analyzedSources := Some(analyzed), currentStep := Some(AnalysisComplete))
      case Failure(e) =>
        NoUpdate.(analyzedSources := Some(DefaultScores(sources)), currentStep := Some(AnalysisFailed),
                  errors := Some(["Analysis failed: " + e]))
  }

  /** What `analyzer` returns in each case: a skip when nothing was scraped, the
      analyser's result, or the scraped sources with default scores. */
  lemma AnalyzerOutcome(s: State, c: Collaborators)
    ensures var u := AnalyzerNode(s, c);
      StepIs(u, AnalysisSkippedNoSources) <==> s.scrapedSources == []
    ensures var u := AnalyzerNode(s, c);
      StepIs(u, AnalysisSkippedNoSources) ==>
        u.analyzedSources == Some([]) && u.errors == Some(["No sources to analyze"])
    ensures var u := AnalyzerNode(s, c);
      StepIs(u, AnalysisComplete) ==>
        && u.errors.None? && u.analyzedSources.Some?
        && c.analyze(s.scrapedSources, s.topic) == Success(u.analyzedSources.value)
    ensures var u := AnalyzerNode(s, c);
      StepIs(u, AnalysisFailed) ==>
        && OneError(u, "Analysis failed: ")
        && |u.analyzedSources.value| == |s.scrapedSources|
        && forall i :: 0 <= i < |s.scrapedSources| ==>
             u.analyzedSources.value[i].score ==
               (if s.scrapedSources[i].score == 0.0 then 50.0 else s.scrapedSources[i].score)
  {
  }

  // ---------------------------------------------------------------------------
  // storage
  // ---------------------------------------------------------------------------

  /** The threshold the storage node and the router share. */
  const StoreThreshold: real := 85.0

  /** `f"research_{topic[:30]}"`. */
  function CollectionName(topic: string): (name: string)
    ensures |name| <= 9 + 30
    ensures |name| >= 9 && name[..9] == "research_" && name[9..] <= topic
  {
    "research_" + PyPrefix(topic, 30)
  }

  function StorageNode(s: State, c: Collaborators): (u: Update)
    ensures WritesOnly(u, {StoredKey, RejectedKey, StepKey, ErrorsKey})
    ensures StepIs(u, StorageComplete) || StepIs(u, StorageFailed)
         || StepIs(u, StorageSkippedNoSources) || StepIs(u, StorageSkippedNoTrustworthySources)
  {
    var sources := s.analyzedSources;
    if |sources| == 0 then
      NoUpdate.(storedSources := Some([]), rejectedSources := Some([]),
                currentStep := Some(StorageSkippedNoSources))
    else
      var trustworthy := AtLeast(sources, StoreThreshold);
      var rejected := Below(sources, StoreThreshold);
      if |trustworthy| == 0 then
        NoUpdate.(storedSources := Some([]), rejectedSources := Some(rejected),
                  currentStep := Some(StorageSkippedNoTrustworthySources))
      else
        match c.store(CollectionName(s.topic), trustworthy)
        case None =>
          NoUpdate.(storedSources := Some(trustworthy), rejectedSources := Some(rejected),
                    currentStep := Some(StorageComplete))
        case Some(e) =>
          NoUpdate.(storedSources := Some([]), rejectedSources := Some(sources),
                    currentStep := Some(StorageFailed), errors := Some(["Storage failed: " + e]))
  }

  /** What `storage` returns in each case. */
  lemma StorageOutcome(s: State, c: Collaborators)
    ensures var u := StorageNode(s, c);
      u.storedSources.Some? && u.rejectedSources.Some?
    // only the failure branch reports an error; the two skips are silent
    ensures var u := StorageNode(s, c);
      u.errors.Some? <==> StepIs(u, StorageFailed)
    ensures var u := StorageNode(s, c);
      StepIs(u, StorageFailed) ==>
        && OneError(u, "Storage failed: ")
        && u.storedSources == Some([]) && u.rejectedSources == Some(s.analyzedSources)
    ensures var u := StorageNode(s, c);
      StepIs(u, StorageSkippedNoSources) <==> s.analyzedSources == []
    ensures var u := StorageNode(s, c);
      StepIs(u, StorageSkippedNoSources) ==> u.storedSources == Some([]) && u.rejectedSources == Some([])
    ensures var u := StorageNode(s, c);
      StepIs(u, StorageSkippedNoTrustworthySources) ==>
        u.storedSources == Some([]) && u.rejectedSources == Some(s.analyzedSources)
    ensures var u := StorageNode(s, c);
      StepIs(u, StorageComplete) ==>
        && u.storedSources == Some(AtLeast(s.analyzedSources, StoreThreshold))
        && u.rejectedSources == Some(Below(s.analyzedSources, StoreThreshold))
        && |u.storedSources.value| > 0
  {
    if |s.analyzedSources| > 0 && |AtLeast(s.analyzedSources, StoreThreshold)| == 0 {
      AtLeastEmpty(s.analyzedSources, StoreThreshold);
      BelowKeepsAll(s.analyzedSources, StoreThreshold);
    }
  }

  // ---------------------------------------------------------------------------
  // report
  // ---------------------------------------------------------------------------

  const NoSourcesHead := "<!DOCTYPE html>\n<html>\n<head><title>Research Report: "

  /** The page written when nothing was analysed: it names the topic and
      lists the accumulated errors joined by ", ". */
  function NoSourcesReport(topic: string, errors: seq<string>): (html: string)
    ensures |html| > |NoSourcesHead| + |topic|
    ensures html[|NoSourcesHead|..|NoSourcesHead| + |topic|] == topic
  {
    NoSourcesHead + topic + "</title></head>\n<body>\n<h1>Research Report: " + topic + "</h1>\n"
    + "<p>No sources were successfully analyzed.</p>\n<p>Errors: " + Join(errors, ", ") + "</p>\n"
    + "</body>\n</html>\n"
  }

  const ErrorReportHead := "<!DOCTYPE html>\n<html>\n<head><title>Error Report: "

  /** The page written when the reporter failed. */
  function ErrorReport(topic: string, message: string): (html: string)
    ensures |html| > |ErrorReportHead| + |topic|
    ensures html[|ErrorReportHead|..|ErrorReportHead| + |topic|] == topic
  {
    ErrorReportHead + topic + "</title></head>\n<body>\n<h1>Report Generation Error</h1>\n<p>" + message
    + "</p>\n</body>\n</html>\n"
  }

  function ReportNode(s: State, c: Collaborators): (u: Update)
    ensures WritesOnly(u, {ReportKey, StepKey, ErrorsKey}) && u.reportHtml.Some?
    ensures StepIs(u, ReportComplete) || StepIs(u, ReportGeneratedWithErrors) || StepIs(u, ReportFailed)
  {
    var sources := s.analyzedSources;
    if |sources| == 0 then
      NoUpdate.(reportHtml := Some(NoSourcesReport(s.topic, s.errors)),
                currentStep := Some(ReportGeneratedWithErrors))
    else
      match c.report(s.topic, sources)
      case Success(html) =>
        NoUpdate.(reportHtml := Some(html), currentStep := Some(ReportComplete))
      case Failure(e) =>
        var msg := "Report generation failed: " + e;
        NoUpdate.(reportHtml := Some(ErrorReport(s.topic, msg)), currentStep := Some(ReportFailed),
                  errors := Some([msg]))
  }

  /** What `report` returns in each case: the no-sources page, the reporter's
      HTML, or the error page. */
  lemma ReportOutcome(s: State, c: Collaborators)
    ensures var u := ReportNode(s, c);
      StepIs(u, ReportGeneratedWithErrors) <==> s.analyzedSources == []
    ensures var u := ReportNode(s, c);
      StepIs(u, ReportGeneratedWithErrors) ==>
        u.reportHtml == Some(NoSourcesReport(s.topic, s.errors)) && u.errors.None?
    ensures var u := ReportNode(s, c);
      StepIs(u, ReportComplete) ==>
        && u.errors.None? && u.reportHtml.Some?
        && c.report(s.topic, s.analyzedSources) == Success(u.reportHtml.value)
    ensures var u := ReportNode(s, c);
      StepIs(u, ReportFailed) ==>
        && OneError(u, "Report generation failed: ")
        && u.reportHtml == Some(ErrorReport(s.topic, u.errors.value[0]))
  {
  }

  // ---------------------------------------------------------------------------
  // routing
  // ---------------------------------------------------------------------------

  /** The labels `should_store_sources` can return. */
  datatype Route = StorageRoute | ReportRoute {
    function Label(): string {
      match this
      case StorageRoute => "storage"
      case ReportRoute => "report"
    }
  }

  function ShouldStoreSources(s: State): (r: Route)
    ensures r == StorageRoute <==>
      exists i :: 0 <= i < |s.analyzedSources| && s.analyzedSources[i].score >= StoreThreshold
    ensures s.analyzedSources == [] ==> r == ReportRoute
  {
    AnyAtLeastIffNonEmpty(s.analyzedSources, StoreThreshold);
    if |AtLeast(s.analyzedSources, StoreThreshold)| > 0 then StorageRoute else ReportRoute
  }

  /** The storage node stores exactly the sources the router counted. */
  lemma StorageFollowsRoute(s: State, c: Collaborators)
    ensures ShouldStoreSources(s) == StorageRoute <==>
      (StepIs(StorageNode(s, c), StorageComplete) || StepIs(StorageNode(s, c), StorageFailed))
  {
    AnyAtLeastIffNonEmpty(s.analyzedSources, StoreThreshold);
  }

  /** On success the stored and rejected sources are the two order-keeping
      halves of the analysed sources split at 85. */
  lemma StorageSplit(s: State, c: Collaborators)
    requires StepIs(StorageNode(s, c), StorageComplete)
    ensures var u := StorageNode(s, c);
      && (forall i :: 0 <= i < |u.storedSources.value| ==> u.storedSources.value[i].score >= 85.0)
      && (forall i :: 0 <= i < |u.rejectedSources.value| ==> u.rejectedSources.value[i].score < 85.0)
      && multiset(u.storedSources.value) + multiset(u.rejectedSources.value) == multiset(s.analyzedSources)
      && IsSubsequence(u.storedSources.value, s.analyzedSources)
      && IsSubsequence(u.rejectedSources.value, s.analyzedSources)
  {
    FilterPartition(s.analyzedSources, StoreThreshold);
    FiltersKeepOrder(s.analyzedSources, StoreThreshold);
  }
}

=== FILE: reporter_agent.dfy ===
/** The reporter agent (research_assistant/agents/reporter.py): HTML escaping,
    paragraph formatting, the statistics and sources sections, the choice of
    displayed sources, and `run`, which asks the language model for a
    summary and key findings over the trustworthy sources only.

    The HTML document is modelled by its contents (a `Report` record), not
    by its markup; the model's two replies are parameters. */
module ReporterAgent {
  import opened Wrappers
  import opened Seqs
  import opened Text
  import opened Sources
  import opened AgentBase

  // ---------------------------------------------------------------------------
  // Escaping
  // ---------------------------------------------------------------------------

  /** `str.replace` applied for each (pattern, replacement) pair in turn. */
  function ReplaceAll(s: string, steps: seq<(string, string)>): string
    requires forall i :: 0 <= i < |steps| ==> |steps[i].0| > 0
    decreases |steps|
  {
    if |steps| == 0 then s else ReplaceAll(ReplaceStr(s, steps[0].0, steps[0].1), steps[1..])
  }

  /** The replacements of `_escape_html`, `&` first. */
  const EscapeSteps: seq<(string, string)> :=
    [("&", "&amp;"), ("<", "&lt;"), (">", "&gt;"), ("\"", "&quot;"), ("'", "&#39;")]

  /** The inverse replacements, in the reverse order. */
  const UnescapeSteps: seq<(string, string)> :=
    [("&#39;", "'"), ("&quot;", "\""), ("&gt;", ">"), ("&lt;", "<"), ("&amp;", "&")]

  /** `_escape_html(text)`: the empty text as is, otherwise the five
      replacements in order. */
  function EscapeHtml(text: string): string {
    if |text| == 0 then "" else ReplaceAll(text, EscapeSteps)
  }

  function UnescapeHtml(text: string): string {
    ReplaceAll(text, UnescapeSteps)
  }

  /** The characters `_escape_html` replaces, in its order, and the entity
      each becomes. */
  const Specials: string := "&<>\"'"
  const Entities: seq<string> := ["&amp;", "&lt;", "&gt;", "&quot;", "&#39;"]

  /** The characters an escaped text never contains. */
  predicate RawSpecial(c: char) {
    c == '<' || c == '>' || c == '"' || c == '\''
  }

  /** The reference escaping: each character on its own. */
  function EscapeChar(c: char): (e: string)
    ensures |e| >= 1
    ensures forall i :: 0 <= i < |e| ==> !RawSpecial(e[i])
  {
    if c == '&' then "&amp;"
    else if c == '<' then "&lt;"
    else if c == '>' then "&gt;"
    else if c == '"' then "&quot;"
    else if c == '\'' then "&#39;"
    else [c]
  }

  /** The position of a character in `Specials`, or 5 for any other. */
  function Rank(c: char): (k: nat)
    ensures k <= 5
    ensures k < 5 ==> Specials[k] == c && EscapeChar(c) == Entities[k]
    ensures k == 5 ==> EscapeChar(c) == [c] && c != '&'
  {
    if c == '&' then 0
    else if c == '<' then 1
    else if c == '>' then 2
    else if c == '"' then 3
    else if c == '\'' then 4
    else 5
  }

  /** The per-character escapes of `s`. */
  function EscapeTokens(s: string): (ts: seq<string>)
    ensures |ts| == |s|
    ensures forall i :: 0 <= i < |s| ==> ts[i] == EscapeChar(s[i])
  {
    seq(|s|, i requires 0 <= i < |s| => EscapeChar(s[i]))
  }

  /** The token a character has become after the first `k` replacements of
      `EscapeHtml`. */
  function Escaping(k: nat, c: char): string {
    if Rank(c) < k then EscapeChar(c) else [c]
  }

  function EscapingTokens(s: string, k: nat): (ts: seq<string>)
    ensures |ts| == |s|
    ensures forall i :: 0 <= i < |s| ==> ts[i] == Escaping(k, s[i])
  {
    seq(|s|, i requires 0 <= i < |s| => Escaping(k, s[i]))
  }

  /** The token a character's escape has become after the first `j`
      replacements of `UnescapeHtml`, which undo the last `j` escapes. */
  function Unescaping(j: nat, c: char): string {
    if 5 - j <= Rank(c) < 5 then [c] else EscapeChar(c)
  }

  function UnescapingTokens(s: string, j: nat): (ts: seq<string>)
    ensures |ts| == |s|
    ensures forall i :: 0 <= i < |s| ==> ts[i] == Unescaping(j, s[i])
  {
    seq(|s|, i requires 0 <= i < |s| => Unescaping(j, s[i]))
  }

  lemma {:induction false} ConcatSingletons(s: string, ts: seq<string>)
    requires |ts| == |s| && forall i :: 0 <= i < |s| ==> ts[i] == [s[i]]
    ensures Concat(ts) == s
  {
    if |s| > 0 {
      ConcatSingletons(s[1..], ts[1..]);
    }
  }

  /** Replacing a one-character pattern acts on each side of a
      concatenation separately. */
  lemma {:induction false} ReplaceCharAppend(a: string, b: string, c: char, rep: string)
    ensures ReplaceStr(a + b, [c], rep) == ReplaceStr(a, [c], rep) + ReplaceStr(b, [c], rep)
  {
    if |a| > 0 {
      assert (a + b)[1..] == a[1..] + b;
      ReplaceCharAppend(a[1..], b, c, rep);
      if a[0] == c {
        assert [c] <= a && [c] <= a + b;
      } else {
        assert !([c] <= a) && !([c] <= a + b);
      }
    } else {
      assert a + b == b;
    }
  }

  lemma {:induction false} ReplaceCharAbsent(s: string, c: char, rep: string)
    requires forall i :: 0 <= i < |s| ==> s[i] != c
    ensures ReplaceStr(s, [c], rep) == s
  {
    if |s| > 0 {
      assert s[0] != c && s[..1] == [s[0]];
      assert !([c] <= s);
      ReplaceCharAbsent(s[1..], c, rep);
    }
  }

  /** Replacing a one-character pattern in a concatenation of tokens
      replaces it in each token. */
  lemma {:induction false} ReplaceCharInTokens(ts: seq<string>, us: seq<string>, c: char, rep: string)
    requires |us| == |ts|
    requires forall i :: 0 <= i < |ts| ==> us[i] == ReplaceStr(ts[i], [c], rep)
    ensures ReplaceStr(Concat(ts), [c], rep) == Concat(us)
  {
    if |ts| > 0 {
      ReplaceCharInTokens(ts[1..], us[1..], c, rep);
      ReplaceCharAppend(ts[0], Concat(ts[1..]), c, rep);
    }
  }

  /** One replacement of `EscapeHtml` turns the next special character into
      its entity and leaves every earlier entity alone. */
  lemma EscapingStep(c: char, k: nat)
    requires k < 5
    ensures ReplaceStr(Escaping(k, c), [Specials[k]], Entities[k]) == Escaping(k + 1, c)
  {
    var x := Specials[k];
    if Rank(c) < k {
      EntityShape(Rank(c));
      ReplaceCharAbsent(Entities[Rank(c)], x, Entities[k]);
    } else if Rank(c) == k {
      assert [x] <= [c];
    } else {
      ReplaceCharAbsent([c], x, Entities[k]);
    }
  }

  lemma EscapingTokensStep(s: string, k: nat, pat: string, rep: string)
    requires k < 5 && pat == [Specials[k]] && rep == Entities[k]
    ensures ReplaceStr(Concat(EscapingTokens(s, k)), pat, rep) == Concat(EscapingTokens(s, k + 1))
  {
    var ts := EscapingTokens(s, k);
    var us := EscapingTokens(s, k + 1);
    forall i | 0 <= i < |ts| ensures us[i] == ReplaceStr(ts[i], [Specials[k]], Entities[k]) {
      EscapingStep(s[i], k);
    }
    ReplaceCharInTokens(ts, us, Specials[k], Entities[k]);
  }

  /** The replacements from the `k`-th on finish the escaping. */
  lemma {:induction false} EscapingFrom(s: string, k: nat)
    requires k <= 5
    ensures ReplaceAll(Concat(EscapingTokens(s, k)), EscapeSteps[k..]) == Concat(EscapingTokens(s, 5))
    decreases 5 - k
  {
    if k < 5 {
      Literals();
      EscapingTokensStep(s, k, EscapeSteps[k].0, EscapeSteps[k].1);
      assert EscapeSteps[k..][1..] == EscapeSteps[k + 1..];
      EscapingFrom(s, k + 1);
    }
  }

  /** The chain of replacements escapes each character on its own. */
  lemma EscapeHtmlPerChar(s: string)
    ensures EscapeHtml(s) == Concat(EscapeTokens(s))
  {
    if |s| > 0 {
      ConcatSingletons(s, EscapingTokens(s, 0));
      EscapingFrom(s, 0);
      EscapingComplete(s);
    }
  }

  lemma Literals()
    ensures forall k :: 0 <= k < 5 ==> EscapeSteps[k] == ([Specials[k]], Entities[k])
    ensures forall k :: 0 <= k < 5 ==> UnescapeSteps[k] == (Entities[4 - k], [Specials[4 - k]])
  {
  }

  lemma EscapingComplete(s: string)
    ensures EscapingTokens(s, 5) == EscapeTokens(s)
  {
  }

  /** Every entity starts with `&`, has no other `&`, ends with its only
      `;`, and holds none of the characters `EscapeHtml` removes. */
  lemma EntityShape(k: nat)
    requires k < 5
    ensures var e := Entities[k];
      && |e| >= 4 && e[0] == '&' && e[|e| - 1] == ';'
      && (forall i :: 1 <= i < |e| ==> e[i] != '&')
      && (forall i :: 0 <= i < |e| - 1 ==> e[i] != ';')
      && (forall i :: 0 <= i < |e| ==> !RawSpecial(e[i]))
  {
  }

  /** No entity is a prefix of a text that starts with a different entity:
      the five differ in their second character. */
  lemma EntityPrefix(j: nat, k: nat, rest: string)
    requires j < 5 && k < 5
    requires Entities[j] <= Entities[k] + rest
    ensures j == k
  {
    EntityShape(j);
    EntityShape(k);
    assert Entities[j][1] == (Entities[k] + rest)[1] == Entities[k][1];
    EntitiesDistinct(j, k);
  }

  lemma EntitiesDistinct(j: nat, k: nat)
    requires j < 5 && k < 5 && |Entities[j]| > 1 && |Entities[k]| > 1
    requires Entities[j][1] == Entities[k][1]
    ensures j == k
  {
  }

  lemma {:induction false} ReplaceEntitySkips(a: string, b: string, pat: string, rep: string)
    requires |pat| > 0 && pat[0] == '&'
    requires forall i :: 0 <= i < |a| ==> a[i] != '&'
    ensures ReplaceStr(a + b, pat, rep) == a + ReplaceStr(b, pat, rep)
  {
    if |a| > 0 {
      assert (a + b)[0] == a[0];
      assert !(pat <= a + b);
      assert (a + b)[1..] == a[1..] + b;
      ReplaceEntitySkips(a[1..], b, pat, rep);
    } else {
      assert a + b == b;
    }
  }

  /** A token of a partly unescaped text: an entity, or one character other
      than `&`. */
  predicate ValidToken(t: string) {
    (exists k :: 0 <= k < 5 && Entities[k] == t) || (|t| == 1 && t[0] != '&')
  }

  /** Replacing an entity in a text that starts with a valid token replaces
      that token when it is the entity and leaves it alone otherwise. */
  lemma ReplaceEntityAfterToken(t: string, rest: string, j: nat, rep: string)
    requires j < 5 && ValidToken(t)
    ensures ReplaceStr(t + rest, Entities[j], rep) == (if t == Entities[j] then rep else t) + ReplaceStr(rest, Entities[j], rep)
  {
    var pat := Entities[j];
    EntityShape(j);
    if t == pat {
      assert pat <= t + rest;
      assert (t + rest)[|pat|..] == rest;
    } else if |t| == 1 && t[0] != '&' {
      assert !(pat <= t + rest);
      assert (t + rest)[1..] == rest;
    } else {
      var k :| 0 <= k < 5 && Entities[k] == t;
      ReplaceEntityAfterOther(k, rest, j, rep);
    }
  }

  lemma ReplaceEntityAfterOther(k: nat, rest: string, j: nat, rep: string)
    requires j < 5 && k < 5 && k != j
    ensures ReplaceStr(Entities[k] + rest, Entities[j], rep) == Entities[k] + ReplaceStr(rest, Entities[j], rep)
  {
    var pat, t := Entities[j], Entities[k];
    EntityShape(j);
    EntityShape(k);
    if pat <= t + rest {
      EntityPrefix(j, k, rest);
    }
    assert (t + rest)[1..] == t[1..] + rest;
    ReplaceEntitySkips(t[1..], rest, pat, rep);
    assert [t[0]] + t[1..] == t;
  }

  /** Replacing an entity in a concatenation of valid tokens replaces the
      tokens equal to it and nothing else. */
  lemma {:induction false} ReplaceEntityInTokens(ts: seq<string>, us: seq<string>, j: nat, rep: string)
    requires j < 5
    requires forall i :: 0 <= i < |ts| ==> ValidToken(ts[i])
    requires |us| == |ts|
    requires forall i :: 0 <= i < |ts| ==> us[i] == (if ts[i] == Entities[j] then rep else ts[i])
    ensures ReplaceStr(Concat(ts), Entities[j], rep) == Concat(us)
  {
    if |ts| > 0 {
      ReplaceEntityInTokens(ts[1..], us[1..], j, rep);
      ReplaceEntityAfterToken(ts[0], Concat(ts[1..]), j, rep);
    }
  }

  /** One replacement of `UnescapeHtml` turns the entity it looks for back
      into its character and leaves every other token alone. */
  lemma UnescapingStep(c: char, j: nat)
    requires j < 5
    ensures ValidToken(Unescaping(j, c))
    ensures Unescaping(j + 1, c) == (if Unescaping(j, c) == Entities[4 - j] then [Specials[4 - j]] else Unescaping(j, c))
  {
    var r := Rank(c);
    if r < 5 {
      EntityShape(r);
      EntityShape(4 - j);
      if Unescaping(j, c) == Entities[4 - j] {
        assert r < 5 - j;
        assert Entities[r] == Entities[4 - j];
      }
    }
  }

  lemma UnescapingTokensStep(s: string, j: nat, pat: string, rep: string)
    requires j < 5 && pat == Entities[4 - j] && rep == [Specials[4 - j]]
    ensures ReplaceStr(Concat(UnescapingTokens(s, j)), pat, rep) == Concat(UnescapingTokens(s, j + 1))
  {
    var ts := UnescapingTokens(s, j);
    var us := UnescapingTokens(s, j + 1);
    forall i | 0 <= i < |ts|
      ensures ValidToken(ts[i])
      ensures us[i] == (if ts[i] == Entities[4 - j] then [Specials[4 - j]] else ts[i])
    {
      UnescapingStep(s[i], j);
    }
    ReplaceEntityInTokens(ts, us, 4 - j, [Specials[4 - j]]);
  }

  /** The inverse replacements from the `j`-th on finish the unescaping. */
  lemma {:induction false} UnescapingFrom(s: string, j: nat)
    requires j <= 5
    ensures ReplaceAll(Concat(UnescapingTokens(s, j)), UnescapeSteps[j..]) == Concat(UnescapingTokens(s, 5))
    decreases 5 - j
  {
    if j < 5 {
      Literals();
      UnescapingTokensStep(s, j, UnescapeSteps[j].0, UnescapeSteps[j].1);
      assert UnescapeSteps[j..][1..] == UnescapeSteps[j + 1..];
      UnescapingFrom(s, j + 1);
    }
  }

  /** Because `&` is escaped first, the inverse replacements in the reverse
      order give the text back. */
  lemma EscapeRoundTrip(s: string)
    ensures UnescapeHtml(EscapeHtml(s)) == s
  {
    EscapeHtmlPerChar(s);
    assert EscapeTokens(s) == UnescapingTokens(s, 0);
    UnescapingFrom(s, 0);
    ConcatSingletons(s, UnescapingTokens(s, 5));
  }

  lemma {:induction false} ConcatHasNoRaw(ts: seq<string>)
    requires forall i, k :: 0 <= i < |ts| && 0 <= k < |ts[i]| ==> !RawSpecial(ts[i][k])
    ensures forall k :: 0 <= k < |Concat(ts)| ==> !RawSpecial(Concat(ts)[k])
  {
    if |ts| > 0 {
      ConcatHasNoRaw(ts[1..]);
      var a, b := ts[0], Concat(ts[1..]);
      forall k | 0 <= k < |a + b| ensures !RawSpecial((a + b)[k]) {
        if k >= |a| {
          assert (a + b)[k] == b[k - |a|];
        }
      }
    }
  }

  /** An escaped text holds no raw `<`, `>`, `"` or `'`; the empty text
      escapes to itself. */
  lemma EscapedHasNoRaw(s: string)
    ensures forall k :: 0 <= k < |EscapeHtml(s)| ==> !RawSpecial(EscapeHtml(s)[k])
    ensures |s| == 0 <==> EscapeHtml(s) == ""
  {
    EscapeHtmlPerChar(s);
    ConcatHasNoRaw(EscapeTokens(s));
    if |s| > 0 {
      assert EscapeTokens(s)[0] == EscapeChar(s[0]);
      assert |Concat(EscapeTokens(s))| >= 1;
    }
  }

  // ---------------------------------------------------------------------------
  // Paragraph formatting
  // ---------------------------------------------------------------------------

  /** The `<p>` element of each of the given paragraphs. */
  function ParagraphElements(paras: seq<string>): (r: seq<string>)
    ensures |r| == |paras|
    ensures forall i :: 0 <= i < |r| ==> r[i] == "<p>" + EscapeHtml(paras[i]) + "</p>"
  {
    seq(|paras|, i requires 0 <= i < |paras| => "<p>" + EscapeHtml(paras[i]) + "</p>")
  }

  /** The stripped, non-blank pieces of a text between blank lines. */
  function Paragraphs(text: string): seq<string> {
    NonEmpty(StripAll(Split(text, "\n\n")))
  }

  /** `_format_text_to_html(text)`: pieces between blank lines, stripped,
      blank ones dropped, each escaped in a `<p>` element, one per line.
      A piece that looks like a list is treated like any other. */
  function FormatTextToHtml(text: string): string {
    Join(ParagraphElements(Paragraphs(text)), "\n")
  }

  /** A text without a blank line is one paragraph, whatever its first
      characters: list markers are not interpreted. */
  lemma OneParagraph(text: string)
    requires !Contains(text, "\n\n")
    ensures Strip(text) == "" ==> FormatTextToHtml(text) == ""
    ensures Strip(text) != "" ==> FormatTextToHtml(text) == "<p>" + EscapeHtml(Strip(text)) + "</p>"
  {
    SplitWithoutSeparator(text, "\n\n");
    ParagraphsOfOne(text);
  }

  lemma ParagraphsOfOne(t: string)
    ensures NonEmpty(StripAll([t])) == if Strip(t) == "" then [] else [Strip(t)]
  {
    var x := Strip(t);
    assert StripAll([t]) == [x];
    assert [x][1..] == [];
  }

  /** The paragraphs are the stripped pieces that are not blank, in the
      order of the text. */
  lemma ParagraphsInOrder(text: string)
    ensures IsSubsequence(Paragraphs(text), StripAll(Split(text, "\n\n")))
  {
    NonEmptyInOrder(StripAll(Split(text, "\n\n")));
  }

  lemma {:induction false} NonEmptyInOrder(xs: seq<string>)
    ensures IsSubsequence(NonEmpty(xs), xs)
    decreases |xs|
  {
    if |xs| == 0 {
      SubsequenceOfSelf(xs);
    } else {
      var rest := NonEmpty(xs[1..]);
      NonEmptyInOrder(xs[1..]);
      assert xs == [xs[0]] + xs[1..];
      if xs[0] != "" {
        SubsequenceCons(xs[0], rest, xs[1..]);
      } else {
        SubsequenceOfTail(rest, xs[0], xs[1..]);
      }
    }
  }

  // ---------------------------------------------------------------------------
  // Statistics section
  // ---------------------------------------------------------------------------

  function MinScore(xs: seq<Source>): (m: real)
    requires |xs| > 0
    ensures forall i :: 0 <= i < |xs| ==> m <= xs[i].score
    ensures exists i :: 0 <= i < |xs| && xs[i].score == m
  {
    if |xs| == 1 then xs[0].score
    else
      var rest := MinScore(xs[1..]);
      assert forall i :: 1 <= i < |xs| ==> xs[i] == xs[1..][i - 1];
      if xs[0].score <= rest then xs[0].score else rest
  }

  function MaxScore(xs: seq<Source>): (m: real)
    requires |xs| > 0
    ensures forall i :: 0 <= i < |xs| ==> xs[i].score <= m
    ensures exists i :: 0 <= i < |xs| && xs[i].score == m
  {
    if |xs| == 1 then xs[0].score
    else
      var rest := MaxScore(xs[1..]);
      assert forall i :: 1 <= i < |xs| ==> xs[i] == xs[1..][i - 1];
      if xs[0].score >= rest then xs[0].score else rest
  }

  /** The statistics section: absent (the empty string) without sources,
      otherwise the average, the range and the four score bands. */
  datatype StatsPanel = Hidden | Shown(average: real, lowest: real, highest: real, bands: Buckets)

  function StatisticsSection(sources: seq<Source>): (r: StatsPanel)
    ensures r.Hidden? <==> |sources| == 0
    ensures r.Shown? ==> forall i :: 0 <= i < |sources| ==> r.lowest <= sources[i].score <= r.highest
    ensures r.Shown? ==> exists i :: 0 <= i < |sources| && sources[i].score == r.lowest
    ensures r.Shown? ==> exists i :: 0 <= i < |sources| && sources[i].score == r.highest
  {
    if |sources| == 0 then Hidden
    else
      var scores := Scores(sources);
      Shown(SumScores(sources) / |sources| as real, MinScore(sources), MaxScore(sources), Bucket(scores))
  }

  /** The four bands count every source once: at least 90, at least 80,
      below 70, and the rest. */
  lemma StatisticsBandsPartition(sources: seq<Source>)
    requires |sources| > 0
    ensures var b := StatisticsSection(sources).bands;
      && b.Total() == |sources|
      && b.excellent == |AtLeast(sources, 90.0)|
      && b.excellent + b.good == |AtLeast(sources, 80.0)|
      && b.poor == |Below(sources, 70.0)|
  {
    var scores := Scores(sources);
    BucketTotal(scores);
    BucketCounts(scores);
    CountMatchesFilter(sources, 90.0);
    CountMatchesFilter(sources, 80.0);
    CountMatchesFilter(sources, 70.0);
    FilterPartition(sources, 70.0);
  }

  lemma {:induction false} SumScoresBetween(xs: seq<Source>, lo: real, hi: real)
    requires forall i :: 0 <= i < |xs| ==> lo <= xs[i].score <= hi
    ensures |xs| as real * lo <= SumScores(xs) <= |xs| as real * hi
  {
    if |xs| > 0 {
      assert forall i :: 0 <= i < |xs[1..]| ==> xs[1..][i] == xs[i + 1];
      SumScoresBetween(xs[1..], lo, hi);
      assert |xs| as real * lo == (|xs| - 1) as real * lo + lo;
      assert |xs| as real * hi == (|xs| - 1) as real * hi + hi;
    }
  }

  /** The average lies between the lowest and the highest score. */
  lemma StatisticsAverageInRange(sources: seq<Source>)
    requires |sources| > 0
    ensures var st := StatisticsSection(sources);
      st.lowest <= st.average <= st.highest
  {
    var lo, hi := MinScore(sources), MaxScore(sources);
    var total, n := SumScores(sources), |sources| as real;
    SumScoresBetween(sources, lo, hi);
    MeanWithin(total, n, lo, hi);
    assert StatisticsSection(sources) == Shown(total / n, lo, hi, Bucket(Scores(sources)));
  }

  lemma MeanWithin(total: real, n: real, lo: real, hi: real)
    requires n > 0.0 && n * lo <= total <= n * hi
    ensures lo <= total / n <= hi
  {
    assert total / n * n == total;
  }

  // ---------------------------------------------------------------------------
  // Sources section
  // ---------------------------------------------------------------------------

  const NoAnalysisText := "No analysis available"
  const PreviewChars := 300

  /** What the sources section shows of one source. The title, the text, the
      reasoning and the list items are escaped; the URL and the domain are
      not. A missing word count shows as "N/A". */
  datatype SourceEntry = SourceEntry(
    number: nat,
    trust: TrustClass,
    title: string,
    url: string,
    score: real,
    domain: string,
    wordCount: Option<int>,
    text: string,
    reasoning: string,
    strengths: seq<string>,
    redFlags: seq<string>)

  function EscapeAll(xs: seq<string>): (r: seq<string>)
    ensures |r| == |xs|
    ensures forall i :: 0 <= i < |xs| ==> r[i] == EscapeHtml(xs[i])
  {
    seq(|xs|, i requires 0 <= i < |xs| => EscapeHtml(xs[i]))
  }

  /** One entry: a missing analysis, or a missing key in it, falls back to
      "No analysis available" and empty lists; the text is the full content
      or a 300-character preview. `domainOf` is `get_domain`. */
  function EntryOf(number: nat, s: Source, includeFullContent: bool, domainOf: string -> string): SourceEntry {
    var a := s.metadata.analysis.GetOr(AnalysisMeta(None, None, None, None));
    var text := if includeFullContent then s.content else ContentPreview(s, PreviewChars);
    SourceEntry(number, ClassifyTrust(s.score), EscapeHtml(s.title), s.url, s.score,
                domainOf(s.url), s.metadata.wordCount, EscapeHtml(text),
                EscapeHtml(a.reasoning.GetOr(NoAnalysisText)),
                EscapeAll(a.strengths.GetOr([])), EscapeAll(a.redFlags.GetOr([])))
  }

  /** `_generate_sources_section(sources)`: one entry per source, numbered
      from 1, in order. */
  function SourcesSection(sources: seq<Source>, includeFullContent: bool, domainOf: string -> string)
    : (r: seq<SourceEntry>)
    ensures |r| == |sources|
    ensures forall i :: 0 <= i < |r| ==> r[i].number == i + 1 && r[i].url == sources[i].url && r[i].score == sources[i].score
    ensures forall i :: 0 <= i < |r| ==> r[i] == EntryOf(i + 1, sources[i], includeFullContent, domainOf)
  {
    seq(|sources|, i requires 0 <= i < |sources| => EntryOf(i + 1, sources[i], includeFullContent, domainOf))
  }

  /** An entry's escaped fields give the source's own text back, its
      domain and word count are the source's, and its class is
      "trust-high" exactly when the source is trustworthy. */
  lemma EntryFaithful(number: nat, s: Source, includeFullContent: bool, domainOf: string -> string)
    ensures var e := EntryOf(number, s, includeFullContent, domainOf);
      && UnescapeHtml(e.title) == s.title
      && e.url == s.url && e.domain == domainOf(s.url) && e.wordCount == s.metadata.wordCount
      && (includeFullContent ==> UnescapeHtml(e.text) == s.content)
      && (!includeFullContent ==> UnescapeHtml(e.text) == ContentPreview(s, PreviewChars))
      && (s.metadata.analysis.None? ==> UnescapeHtml(e.reasoning) == NoAnalysisText && e.strengths == [] && e.redFlags == [])
      && (e.trust == TrustHigh <==> IsTrustworthy(s, TrustThreshold))
  {
    var a := s.metadata.analysis.GetOr(AnalysisMeta(None, None, None, None));
    EscapeRoundTrip(s.title);
    EscapeRoundTrip(s.content);
    EscapeRoundTrip(ContentPreview(s, PreviewChars));
    EscapeRoundTrip(a.reasoning.GetOr(NoAnalysisText));
    HighIsTrustworthy(s);
  }

  /** No escaped field of an entry holds a raw `<`, `>`, `"` or `'`: the
      title, the text, the reasoning, and every strength and red flag. The
      URL and the domain are shown as they are. */
  lemma EntryEscaped(number: nat, s: Source, includeFullContent: bool, domainOf: string -> string)
    ensures var e := EntryOf(number, s, includeFullContent, domainOf);
      && (forall k :: 0 <= k < |e.title| ==> !RawSpecial(e.title[k]))
      && (forall k :: 0 <= k < |e.text| ==> !RawSpecial(e.text[k]))
      && (forall k :: 0 <= k < |e.reasoning| ==> !RawSpecial(e.reasoning[k]))
      && (forall j :: 0 <= j < |e.strengths| ==> NoRawSpecial(e.strengths[j]))
      && (forall j :: 0 <= j < |e.redFlags| ==> NoRawSpecial(e.redFlags[j]))
  {
    var a := s.metadata.analysis.GetOr(AnalysisMeta(None, None, None, None));
    EscapedHasNoRaw(s.title);
    EscapedHasNoRaw(if includeFullContent then s.content else ContentPreview(s, PreviewChars));
    EscapedHasNoRaw(a.reasoning.GetOr(NoAnalysisText));
    EscapedAllHaveNoRaw(a.strengths.GetOr([]));
    EscapedAllHaveNoRaw(a.redFlags.GetOr([]));
  }

  /** The string holds no raw `<`, `>`, `"` or `'`. */
  predicate NoRawSpecial(t: string) {
    forall k :: 0 <= k < |t| ==> !RawSpecial(t[k])
  }

  /** Escaping every item of a list leaves no raw special in any of them. */
  lemma EscapedAllHaveNoRaw(xs: seq<string>)
    ensures forall j :: 0 <= j < |xs| ==> NoRawSpecial(EscapeAll(xs)[j])
  {
    forall j | 0 <= j < |xs|
      ensures NoRawSpecial(EscapeAll(xs)[j])
    {
      EscapedHasNoRaw(xs[j]);
    }
  }

  // ---------------------------------------------------------------------------
  // The report
  // ---------------------------------------------------------------------------

  /** The agent's settings, `include_full_content` and
      `max_sources_in_report`, and `domainOf`, which stands for
      `Source.get_domain` (the URL's `netloc`). */
  datatype Agent = Agent(includeFullContent: bool, maxSourcesInReport: Option<int>, domainOf: string -> string)

  /** The sources the report lists: the first `max_sources_in_report` when
      that is set (non-zero) and exceeded, otherwise all of them. */
  function DisplaySources(maxSources: Option<int>, sources: seq<Source>): (r: seq<Source>)
    ensures r <= sources
    ensures (maxSources.None? || maxSources.value == 0 || |sources| <= maxSources.value) ==> r == sources
    ensures maxSources.Some? && 0 < maxSources.value < |sources| ==> |r| == maxSources.value
  {
    if maxSources.Some? && maxSources.value != 0 && |sources| > maxSources.value
    then PyPrefix(sources, maxSources.value)
    else sources
  }

  /** A negative limit is truthy and always exceeded, so the slice drops
      that many sources from the end. */
  lemma NegativeLimitDropsFromEnd(limit: int, sources: seq<Source>)
    requires limit < 0
    ensures var r := DisplaySources(Some(limit), sources);
      r <= sources && |r| == (if |sources| + limit < 0 then 0 else |sources| + limit)
  {
  }

  /** The HTML document, by its contents. */
  datatype Report = Report(
    topic: string,
    totalSources: nat,
    trustworthyCount: nat,
    averageScore: real,
    summaryHtml: string,
    findingsHtml: string,
    statistics: StatsPanel,
    entries: seq<SourceEntry>)

  /** `generate_html_report`: totals and statistics over every source, the
      entries over the displayed ones. */
  function GenerateHtmlReport(agent: Agent, topic: string, sources: seq<Source>, summary: string, findings: string)
    : (r: Report)
    ensures r.topic == topic
    ensures r.totalSources == |sources|
    ensures r.trustworthyCount == |AtLeast(sources, TrustThreshold)|
    ensures |sources| == 0 ==> r.averageScore == 0.0
    ensures |sources| > 0 ==> r.averageScore == SumScores(sources) / |sources| as real
    ensures r.summaryHtml == FormatTextToHtml(summary) && r.findingsHtml == FormatTextToHtml(findings)
    ensures r.statistics == StatisticsSection(sources)
    ensures r.statistics.Hidden? <==> |sources| == 0
    ensures r.entries == SourcesSection(DisplaySources(agent.maxSourcesInReport, sources), agent.includeFullContent, agent.domainOf)
  {
    var n := |sources|;
    Report(topic, n, |AtLeast(sources, TrustThreshold)|,
           if n == 0 then 0.0 else SumScores(sources) / n as real,
           FormatTextToHtml(summary), FormatTextToHtml(findings),
           StatisticsSection(sources),
           SourcesSection(DisplaySources(agent.maxSourcesInReport, sources), agent.includeFullContent, agent.domainOf))
  }

  /** The report lists the first sources in order, all of them when there is
      no limit, and counts every source whatever the limit. */
  lemma ReportListsSources(agent: Agent, topic: string, sources: seq<Source>, summary: string, findings: string)
    ensures var r := GenerateHtmlReport(agent, topic, sources, summary, findings);
      && |r.entries| <= r.totalSources
      && r.trustworthyCount <= r.totalSources
      && (forall i :: 0 <= i < |r.entries| ==> r.entries[i].url == sources[i].url && r.entries[i].number == i + 1)
      && (agent.maxSourcesInReport.None? ==> |r.entries| == |sources|)
      && (r.statistics.Shown? ==> r.statistics.bands.Total() == r.totalSources)
  {
    if |sources| > 0 {
      StatisticsBandsPartition(sources);
    }
  }

  // ---------------------------------------------------------------------------
  // run
  // ---------------------------------------------------------------------------

  /** The two requests made of the language model. */
  datatype Request = Summary | KeyFindings

  /** The model's reply to a request about a topic and its sources, or the
      message of the exception raised on the way. */
  type Llm = (Request, string, seq<Source>) -> Result<string, string>

  /** `generate_executive_summary`: the stripped reply, or the error text. */
  function ExecutiveSummary(topic: string, sources: seq<Source>, llm: Llm): (r: string)
    ensures llm(Summary, topic, sources).Success? ==> r == Strip(llm(Summary, topic, sources).value)
    ensures llm(Summary, topic, sources).Failure? ==>
      r == "Error generating executive summary: " + llm(Summary, topic, sources).error
  {
    match llm(Summary, topic, sources)
    case Success(text) => Strip(text)
    case Failure(e) => "Error generating executive summary: " + e
  }

  /** `generate_key_findings`: the stripped reply, or the error text. */
  function KeyFindingsText(topic: string, sources: seq<Source>, llm: Llm): (r: string)
    ensures llm(KeyFindings, topic, sources).Success? ==> r == Strip(llm(KeyFindings, topic, sources).value)
    ensures llm(KeyFindings, topic, sources).Failure? ==>
      r == "Error extracting key findings: " + llm(KeyFindings, topic, sources).error
  {
    match llm(KeyFindings, topic, sources)
    case Success(text) => Strip(text)
    case Failure(e) => "Error extracting key findings: " + e
  }

  /** The fixed texts used when no source is trustworthy; both mention how
      many sources were analysed. */
  function NoTrustedSummary(n: nat): string {
    NoTrustedSummaryHead + NatToString(n) + NoTrustedSummaryTail
  }

  const NoTrustedSummaryHead := "No trustworthy sources (score >= 85) were found for this research topic. All "
  const NoTrustedSummaryTail := " sources analyzed had trustworthiness scores below the threshold. Please review the sources below with caution and consider conducting additional research from more authoritative sources."
  const NoTrustedFindingsHead := "- No reliable key findings could be extracted due to low source quality.\n- Further research from credible sources is recommended.\n- Review the "
  const NoTrustedFindingsTail := " sources below for potential leads."

  function NoTrustedFindings(n: nat): string {
    NoTrustedFindingsHead + NatToString(n) + NoTrustedFindingsTail
  }

  /** The summary and the key findings of `run`: asked of the model about
      the trustworthy sources only, or the fixed texts when there are none. */
  function Narrative(topic: string, sources: seq<Source>, llm: Llm): (r: (string, string))
    ensures |AtLeast(sources, 85.0)| == 0 ==> r.0 == NoTrustedSummary(|sources|) && r.1 == NoTrustedFindings(|sources|)
    ensures var trustworthy := AtLeast(sources, 85.0);
      |trustworthy| > 0 ==> r.0 == ExecutiveSummary(topic, trustworthy, llm) && r.1 == KeyFindingsText(topic, trustworthy, llm)
  {
    var trustworthy := AtLeast(sources, 85.0);
    if |trustworthy| > 0 then
      var summary := ExecutiveSummary(topic, trustworthy, llm);
      var findings := KeyFindingsText(topic, trustworthy, llm);
      (summary, findings)
    else (NoTrustedSummary(|sources|), NoTrustedFindings(|sources|))
  }

  /** Writing the report to a path: `None`, or the exception it raised. */
  type Saver = (string, Report) -> Option<Exception>

  /** The exception saving raises, if any: nothing is written when the path
      is absent or empty. */
  function SaveFailure(outputPath: Option<string>, report: Report, save: Saver): Option<Exception> {
    if outputPath.Some? && outputPath.value != "" then save(outputPath.value, report) else None
  }

  /** The data of a successful `run`. */
  datatype RunData = RunData(
    htmlReport: Report,
    outputPath: Option<string>,
    sourcesCount: nat,
    executiveSummary: string,
    keyFindings: string)

  /** `run(topic, sources, output_path)`. */
  function Run(agent: Agent, topic: string, sources: seq<Source>, outputPath: Option<string>, llm: Llm, save: Saver)
    : (r: AgentResult<RunData>)
    ensures |sources| == 0 ==> r == HandleError(ValueError("No sources provided"), "ReporterAgent.run")
    ensures |sources| > 0 && |topic| == 0 ==> r == HandleError(ValueError("Research topic required"), "ReporterAgent.run")
    ensures r.Succeeded? ==>
      && r.data.sourcesCount == |sources|
      && r.data.outputPath == outputPath
      && r.data.htmlReport.totalSources == |sources|
      && r.data.htmlReport.topic == topic
      && (r.data.executiveSummary, r.data.keyFindings) == Narrative(topic, sources, llm)
    ensures |sources| > 0 && |topic| > 0 ==>
      var report := GenerateHtmlReport(agent, topic, sources, Narrative(topic, sources, llm).0, Narrative(topic, sources, llm).1);
      match SaveFailure(outputPath, report, save)
      case None => r.Succeeded? && r.data.htmlReport == report
      case Some(e) => r == HandleError(e, "ReporterAgent.run")
  {
    if |sources| == 0 then HandleError(ValueError("No sources provided"), "ReporterAgent.run")
    else if |topic| == 0 then HandleError(ValueError("Research topic required"), "ReporterAgent.run")
    else
      var (summary, findings) := Narrative(topic, sources, llm);
      var report := GenerateHtmlReport(agent, topic, sources, summary, findings);
      match SaveFailure(outputPath, report, save)
      case Some(e) => HandleError(e, "ReporterAgent.run")
      case None => CreateSuccessResult(RunData(report, outputPath, |sources|, summary, findings))
  }

  /** The summary and the key findings depend on the model's replies about
      the trustworthy sources only: two models that agree there give the
      same texts, and with no trustworthy source the model is not asked. */
  lemma NarrativeAsksOnlyAboutTrustworthy(topic: string, sources: seq<Source>, llm1: Llm, llm2: Llm)
    requires |AtLeast(sources, 85.0)| > 0 ==>
      forall q :: llm1(q, topic, AtLeast(sources, 85.0)) == llm2(q, topic, AtLeast(sources, 85.0))
    ensures Narrative(topic, sources, llm1) == Narrative(topic, sources, llm2)
  {
    if |AtLeast(sources, 85.0)| > 0 {
      assert llm1(Summary, topic, AtLeast(sources, 85.0)) == llm2(Summary, topic, AtLeast(sources, 85.0));
      assert llm1(KeyFindings, topic, AtLeast(sources, 85.0)) == llm2(KeyFindings, topic, AtLeast(sources, 85.0));
    }
  }
}

=== FILE: scraper_agent.dfy ===
/** The scraper agent (research_assistant/agents/scraper.py): batch scraping
    of de-duplicated URLs with a fallback for a batch that raises, the
    success-rate check of `run`, the length filter and the scraping
    statistics. Downloading and parsing stay behind `ScraperTool.Extractors`. */
module ScraperAgent {
  import opened Wrappers
  import opened Seqs
  import opened Sources
  import opened AgentBase
  import Config
  import ScraperTool

  /** The agent's configuration after `__init__`. */
  datatype Agent = Agent(timeout: int, maxRetries: int, skipErrors: bool)

  /** `ScraperAgent(timeout, max_retries, skip_errors)`: a missing or zero
      timeout or retry count is replaced by the setting. */
  function NewAgent(timeout: Option<int>, maxRetries: Option<int>, skipErrors: bool, settings: Config.Settings)
    : (a: Agent)
    ensures timeout.Some? && timeout.value != 0 ==> a.timeout == timeout.value
    ensures timeout.None? || timeout.value == 0 ==> a.timeout == settings.scraperTimeout
    ensures maxRetries.Some? && maxRetries.value != 0 ==> a.maxRetries == maxRetries.value
    ensures maxRetries.None? || maxRetries.value == 0 ==> a.maxRetries == settings.scraperMaxRetries
    ensures a.skipErrors == skipErrors
  {
    Agent(Config.OrDefault(timeout, settings.scraperTimeout),
          Config.OrDefault(maxRetries, settings.scraperMaxRetries),
          skipErrors)
  }

  /** The per-URL scrape the agent's batches use. */
  function ScrapeFn(a: Agent, settings: Config.Settings, ex: ScraperTool.Extractors)
    : string -> Result<Source, string>
  {
    ScraperTool.Scraper(ScraperTool.BatchEnv(Some(a.timeout), Some(a.maxRetries), settings, ex))
  }

  /** `scrape_urls(urls)`: the batch's sources and failures, or, when the
      batch raises, no sources and every URL failed. */
  function ScrapeUrls(a: Agent, settings: Config.Settings, ex: ScraperTool.Extractors, urls: seq<string>)
    : (r: ScraperTool.ScrapeResult)
    ensures r.SuccessCount() + r.FailureCount() == |urls|
    ensures var batch := ScraperTool.ScrapeMultiple(ScrapeFn(a, settings, ex), urls, a.skipErrors);
      && (batch.Success? ==> r.sources == batch.value.0 && r.failedUrls == batch.value.1)
      && (batch.Failure? ==> r.sources == [] && r.failedUrls == urls)
  {
    match ScraperTool.ScrapeMultiple(ScrapeFn(a, settings, ex), urls, a.skipErrors)
    case Success(lists) => ScraperTool.ScrapeResult(lists.0, lists.1)
    case Failure(_) => ScraperTool.ScrapeResult([], urls)
  }

  /** The data of a successful `run`. */
  datatype RunData = RunData(
    sources: seq<Source>,
    failedUrls: seq<string>,
    successCount: nat,
    failureCount: nat,
    successRate: real,
    meetsThreshold: bool)

  /** `run(urls, min_success_rate)`: an empty list is an error; otherwise the
      URLs are de-duplicated (first occurrence kept), scraped, and the rate
      compared with the minimum. A low rate is still a successful run. */
  function Run(a: Agent, settings: Config.Settings, ex: ScraperTool.Extractors, urls: seq<string>,
               minSuccessRate: real): (r: AgentResult<RunData>)
    ensures |urls| == 0 <==> !r.Success()
    ensures |urls| == 0 ==> r.Error() == Some("ScraperAgent.run" + ": " + "No URLs provided") && r.errorType == "ValueError"
    ensures r.Succeeded? ==>
      && r.data.successCount == |r.data.sources|
      && r.data.failureCount == |r.data.failedUrls|
      && r.data.successCount + r.data.failureCount == |Dedup(urls)|
      && 0.0 <= r.data.successRate <= 100.0
      && (r.data.successCount + r.data.failureCount > 0 ==>
            r.data.successRate == Percentage(r.data.successCount, r.data.successCount + r.data.failureCount))
      && (r.data.meetsThreshold <==> r.data.successRate >= minSuccessRate)
    ensures r.Succeeded? ==>
      var res := ScrapeUrls(a, settings, ex, Dedup(urls));
      r.data.sources == res.sources && r.data.failedUrls == res.failedUrls && r.data.successRate == res.SuccessRate()
  {
    if |urls| == 0 then HandleError(ValueError("No URLs provided"), "ScraperAgent.run")
    else
      CreateSuccessResult(Summarise(ScrapeUrls(a, settings, ex, Dedup(urls)), minSuccessRate))
  }

  /** The data `run` reports for a batch: the batch's lists, their sizes,
      the success rate, and whether it reaches the minimum. */
  function Summarise(res: ScraperTool.ScrapeResult, minSuccessRate: real): (d: RunData)
    ensures d.sources == res.sources && d.failedUrls == res.failedUrls
    ensures d.successCount == |d.sources| && d.failureCount == |d.failedUrls|
    ensures d.successRate == res.SuccessRate() && 0.0 <= d.successRate <= 100.0
    ensures d.successCount + d.failureCount > 0 ==>
      d.successRate == Percentage(d.successCount, d.successCount + d.failureCount)
    ensures d.meetsThreshold <==> d.successRate >= minSuccessRate
  {
    var rate := res.SuccessRate();
    RunData(res.sources, res.failedUrls, res.SuccessCount(), res.FailureCount(), rate, rate >= minSuccessRate)
  }

  /** With `skip_errors`, a run accounts for every distinct input URL exactly
      once: each is either among the scraped sources' URLs or among the
      failures, and nothing else is. */
  lemma RunAccountsForEachUrl(a: Agent, settings: Config.Settings, ex: ScraperTool.Extractors, urls: seq<string>,
                              minSuccessRate: real)
    requires a.skipErrors && |urls| > 0
    ensures var r := Run(a, settings, ex, urls, minSuccessRate);
      && r.Succeeded?
      && multiset(ScraperTool.UrlsOf(r.data.sources)) + multiset(r.data.failedUrls) == multiset(Dedup(urls))
      && NoDuplicates(Dedup(urls))
  {
    var env := ScraperTool.BatchEnv(Some(a.timeout), Some(a.maxRetries), settings, ex);
    ScraperTool.SkipErrorsPartition(env, Dedup(urls));
  }

  /** With every URL scraped, the rate is 100 and any minimum up to 100 is met;
      with none scraped, the rate is 0 and only a minimum of at most 0 is met. */
  lemma RateExtremes(a: Agent, settings: Config.Settings, ex: ScraperTool.Extractors, urls: seq<string>,
                     minSuccessRate: real)
    requires |urls| > 0
    ensures var r := Run(a, settings, ex, urls, minSuccessRate);
      && (r.data.failureCount == 0 ==> r.data.successRate == 100.0 && (minSuccessRate <= 100.0 ==> r.data.meetsThreshold))
      && (r.data.successCount == 0 ==> r.data.successRate == 0.0 && (r.data.meetsThreshold <==> minSuccessRate <= 0.0))
  {
    assert |Dedup(urls)| > 0 by {
      assert urls[0] in urls;
    }
  }

  /** `filter_sources_by_length(sources, min_length)`: exactly the sources
      whose content has at least `min_length` characters, in order. */
  function FilterSourcesByLength(sources: seq<Source>, minLength: int): (r: seq<Source>)
    ensures |r| <= |sources|
    ensures forall i :: 0 <= i < |r| ==> |r[i].content| >= minLength && r[i] in sources
    ensures forall i :: 0 <= i < |sources| && |sources[i].content| >= minLength ==> sources[i] in r
  {
    if |sources| == 0 then []
    else
      var rest := FilterSourcesByLength(sources[1..], minLength);
      assert forall i :: 1 <= i < |sources| ==> sources[i] == sources[1..][i - 1];
      if |sources[0].content| >= minLength then [sources[0]] + rest else rest
  }

  /** The length filter keeps the input order: it is a subsequence. */
  lemma {:induction false} FilterByLengthKeepsOrder(sources: seq<Source>, minLength: int)
    ensures IsSubsequence(FilterSourcesByLength(sources, minLength), sources)
    decreases |sources|
  {
    if |sources| == 0 {
      SubsequenceOfSelf(sources);
    } else {
      var rest := FilterSourcesByLength(sources[1..], minLength);
      FilterByLengthKeepsOrder(sources[1..], minLength);
      assert sources == [sources[0]] + sources[1..];
      if |sources[0].content| >= minLength {
        SubsequenceCons(sources[0], rest, sources[1..]);
      } else {
        SubsequenceOfTail(rest, sources[0], sources[1..]);
      }
    }
  }

  /** Filtering twice at the same length changes nothing. */
  lemma {:induction false} FilterByLengthIdempotent(sources: seq<Source>, minLength: int)
    ensures var once := FilterSourcesByLength(sources, minLength);
      FilterSourcesByLength(once, minLength) == once
    decreases |sources|
  {
    if |sources| > 0 {
      FilterByLengthIdempotent(sources[1..], minLength);
      var rest := FilterSourcesByLength(sources[1..], minLength);
      if |sources[0].content| >= minLength {
        assert ([sources[0]] + rest)[1..] == rest;
      }
    }
  }

  // ---------------------------------------------------------------------------
  // get_scraping_stats
  // ---------------------------------------------------------------------------

  function ContentLengths(sources: seq<Source>): (r: seq<nat>)
    ensures |r| == |sources|
    ensures forall i :: 0 <= i < |sources| ==> r[i] == |sources[i].content|
  {
    if |sources| == 0 then [] else [|sources[0].content|] + ContentLengths(sources[1..])
  }

  function SumNat(xs: seq<nat>): nat {
    if |xs| == 0 then 0 else xs[0] + SumNat(xs[1..])
  }

  /** `min(xs)` of a non-empty list. */
  function MinOf(xs: seq<nat>): (m: nat)
    requires |xs| > 0
    ensures forall i :: 0 <= i < |xs| ==> m <= xs[i]
    ensures exists i :: 0 <= i < |xs| && xs[i] == m
  {
    if |xs| == 1 then xs[0]
    else
      var rest := MinOf(xs[1..]);
      assert forall i :: 1 <= i < |xs| ==> xs[i] == xs[1..][i - 1];
      if xs[0] <= rest then xs[0] else rest
  }

  /** `max(xs)` of a non-empty list. */
  function MaxOf(xs: seq<nat>): (m: nat)
    requires |xs| > 0
    ensures forall i :: 0 <= i < |xs| ==> xs[i] <= m
    ensures exists i :: 0 <= i < |xs| && xs[i] == m
  {
    if |xs| == 1 then xs[0]
    else
      var rest := MaxOf(xs[1..]);
      assert forall i :: 1 <= i < |xs| ==> xs[i] == xs[1..][i - 1];
      if xs[0] >= rest then xs[0] else rest
  }

  /** The sum of the `word_count` metadata, a missing count counting 0. */
  function TotalWords(sources: seq<Source>): int {
    if |sources| == 0 then 0 else sources[0].metadata.wordCount.GetOr(0) + TotalWords(sources[1..])
  }

  function DomainsOf(sources: seq<Source>, domainOf: string -> string): (r: seq<string>)
    ensures |r| == |sources|
    ensures forall i :: 0 <= i < |sources| ==> r[i] == domainOf(sources[i].url)
  {
    if |sources| == 0 then [] else [domainOf(sources[0].url)] + DomainsOf(sources[1..], domainOf)
  }

  /** The statistics dictionary; `domainCount` is absent for no sources. */
  datatype ScrapingStats = ScrapingStats(
    totalSources: nat,
    avgContentLength: real,
    minContentLength: nat,
    maxContentLength: nat,
    totalWords: int,
    domains: seq<string>,
    domainCount: Option<nat>)

  /** `get_scraping_stats(sources)`. The domain list comes from a set, whose
      order Python leaves open; first-seen order is used here. */
  function GetScrapingStats(sources: seq<Source>, domainOf: string -> string): (st: ScrapingStats)
    ensures |sources| == 0 ==> st == ScrapingStats(0, 0.0, 0, 0, 0, [], None)
    ensures |sources| > 0 ==>
      && st.totalSources == |sources|
      && st.minContentLength <= st.maxContentLength
      && (forall i :: 0 <= i < |sources| ==>
            st.minContentLength <= |sources[i].content| <= st.maxContentLength)
      && (exists i :: 0 <= i < |sources| && |sources[i].content| == st.minContentLength)
      && (exists i :: 0 <= i < |sources| && |sources[i].content| == st.maxContentLength)
      && st.avgContentLength == SumNat(ContentLengths(sources)) as real / |sources| as real
      && st.totalWords == TotalWords(sources)
      && NoDuplicates(st.domains)
      && (forall d :: d in st.domains <==> d in DomainsOf(sources, domainOf))
      && st.domainCount == Some(|st.domains|)
  {
    if |sources| == 0 then ScrapingStats(0, 0.0, 0, 0, 0, [], None)
    else
      var lengths := ContentLengths(sources);
      var domains := Dedup(DomainsOf(sources, domainOf));
      var lo := MinOf(lengths);
      var hi := MaxOf(lengths);
      assert lo <= lengths[0] <= hi;
      ScrapingStats(|sources|, SumNat(lengths) as real / |sources| as real, lo, hi,
                    TotalWords(sources), domains, Some(|domains|))
  }

  /** The average content length lies between the shortest and the longest. */
  lemma AverageBetweenExtremes(sources: seq<Source>, domainOf: string -> string)
    requires |sources| > 0
    ensures var st := GetScrapingStats(sources, domainOf);
      st.minContentLength as real <= st.avgContentLength <= st.maxContentLength as real
  {
    var st := GetScrapingStats(sources, domainOf);
    var lengths := ContentLengths(sources);
    SumNatBounds(lengths, st.minContentLength, st.maxContentLength);
    MeanBetween(SumNat(lengths), |sources|, st.minContentLength, st.maxContentLength);
  }

  /** A total between `n * lo` and `n * hi` has its mean between `lo` and `hi`. */
  lemma MeanBetween(total: nat, n: nat, lo: nat, hi: nat)
    requires n > 0 && n * lo <= total <= n * hi
    ensures lo as real <= total as real / n as real <= hi as real
  {
    ProductAsReal(n, lo);
    ProductAsReal(n, hi);
    MeanAbove(total as real, n as real, lo as real);
    MeanBelow(total as real, n as real, hi as real);
  }

  lemma ProductAsReal(a: nat, b: nat)
    ensures (a * b) as real == a as real * b as real
  {
  }

  lemma MeanAbove(total: real, n: real, lo: real)
    requires n > 0.0 && n * lo <= total
    ensures lo <= total / n
  {
    assert total / n - lo == (total - n * lo) / n;
  }

  lemma MeanBelow(total: real, n: real, hi: real)
    requires n > 0.0 && total <= n * hi
    ensures total / n <= hi
  {
    assert hi - total / n == (n * hi - total) / n;
  }

  /** Every element within `[lo, hi]` bounds the sum by `n * lo` and `n * hi`. */
  lemma {:induction false} SumNatBounds(xs: seq<nat>, lo: nat, hi: nat)
    requires forall i :: 0 <= i < |xs| ==> lo <= xs[i] <= hi
    ensures |xs| * lo <= SumNat(xs) <= |xs| * hi
    decreases |xs|
  {
    if |xs| > 0 {
      assert forall i :: 0 <= i < |xs| - 1 ==> xs[1..][i] == xs[i + 1];
      SumNatBounds(xs[1..], lo, hi);
      assert |xs| * lo == (|xs| - 1) * lo + lo;
      assert |xs| * hi == (|xs| - 1) * hi + hi;
    }
  }
}

=== FILE: scraper_tool.dfy ===
/** Web scraping (research_assistant/tools/scraper.py): the retry loop with
    its one-shot fallback extractor, the 50-character content check, batch
    scraping, the word-boundary preview, `ScrapeResult` and
    `scrape_and_validate`. Downloading and HTML parsing are parameters. */
module ScraperTool {
  import opened Wrappers
  import opened Text
  import opened Seqs
  import opened Sources
  import Config

  /** What an extractor library hands back for a page: its title and its
      plain text. */
  datatype Page = Page(title: string, text: string)

  /** The two extraction back ends and `urlparse`. The primary extractor
      (newspaper3k) is told which attempt this is, so that a flaky network
      can answer differently each time; a failure carries the exception's
      message. */
  datatype Extractors = Extractors(
    primary: (string, int, nat) -> Result<Page, string>,
    fallback: (string, int) -> Result<Page, string>,
    domainOf: string -> string)

  const MinContentChars := 50

  /** The content check both extractors apply before returning. */
  predicate SubstantialContent(content: string) {
    |content| > 0 && |Strip(content)| >= MinContentChars
  }

  /** Builds the `Source` from an extracted page and applies the content
      check, failing with `insufficient` when it does not pass. */
  function FromPage(url: string, page: Result<Page, string>, ex: Extractors, insufficient: string)
    : (r: Result<Source, string>)
    ensures r.Success? <==> page.Success? && SubstantialContent(page.value.text)
    ensures r.Success? ==>
      (r.value.url == url && r.value.content == page.value.text
       && r.value.title == page.value.title && r.value.score == DefaultScore)
    ensures page.Failure? ==> r == Failure(page.error)
    ensures page.Success? && r.Failure? ==> r.error == insufficient
  {
    match page
    case Failure(e) => Failure(e)
    case Success(p) =>
      var words := if |p.text| == 0 then 0 else WordCount(p.text);
      var source := Source(url, p.title, p.text, DefaultScore, Metadata(Some(ex.domainOf(url)), Some(words), None));
      if SubstantialContent(source.content) then Success(source) else Failure(insufficient)
  }

  /** `_scrape_with_newspaper` on attempt `k`. */
  function Newspaper(url: string, timeout: int, k: nat, ex: Extractors): Result<Source, string> {
    FromPage(url, ex.primary(url, timeout, k), ex, "Insufficient content extracted")
  }

  /** `_scrape_with_beautifulsoup`. */
  function BeautifulSoup(url: string, timeout: int, ex: Extractors): Result<Source, string> {
    FromPage(url, ex.fallback(url, timeout), ex, "Insufficient content extracted with BeautifulSoup")
  }

  /** Which extractor ran. */
  datatype Attempt = Primary(k: nat) | Fallback

  /** The outcome of `scrape_url` together with the attempts it made. */
  datatype Outcome = Outcome(result: Result<Source, string>, trace: seq<Attempt>)

  function FailureMessage(url: string, retries: int, lastError: string): string {
    "Failed to scrape " + url + " after " + IntToString(retries + 1) + " attempts: " + lastError
  }

  /** What each attempt of the loop would return: the primary extractor on
      attempt `k`, and the fallback. */
  datatype Attempts = Attempts(primary: nat -> Result<Source, string>, fallback: Result<Source, string>)

  /** The attempts `scrape_url` makes on `url`. */
  function Tries(url: string, timeout: int, ex: Extractors): Attempts {
    Attempts((k: nat) => Newspaper(url, timeout, k, ex), BeautifulSoup(url, timeout, ex))
  }

  /** Attempts `k..retries` of the loop, `lastError` holding the message of
      the previous failure (`None` before the first). */
  function RetryFrom(url: string, retries: int, k: nat, lastError: string, a: Attempts): (o: Outcome)
    decreases retries + 1 - k
  {
    if k > retries then Outcome(Failure(FailureMessage(url, retries, lastError)), [])
    else
      match a.primary(k)
      case Success(s) => Outcome(Success(s), [Primary(k)])
      case Failure(e) =>
        if k == retries then
          match a.fallback
          case Success(s) => Outcome(Success(s), [Primary(k), Fallback])
          case Failure(fe) => Outcome(Failure(FailureMessage(url, retries, fe)), [Primary(k), Fallback])
        else
          var rest := RetryFrom(url, retries, k + 1, e, a);
          Outcome(rest.result, [Primary(k)] + rest.trace)
  }

  /** The effective timeout and retry count: a missing or zero argument falls
      back to the setting. */
  function EffectiveRetries(maxRetries: Option<int>, settings: Config.Settings): int {
    Config.OrDefault(maxRetries, settings.scraperMaxRetries)
  }

  function EffectiveTimeout(timeout: Option<int>, settings: Config.Settings): int {
    Config.OrDefault(timeout, settings.scraperTimeout)
  }

  /** `scrape_url`. */
  function ScrapeUrl(url: string, timeout: Option<int>, maxRetries: Option<int>, settings: Config.Settings,
                     ex: Extractors): (o: Outcome)
  {
    var t := EffectiveTimeout(timeout, settings);
    RetryFrom(url, EffectiveRetries(maxRetries, settings), 0, "None", Tries(url, t, ex))
  }

  /** The shape of every trace from attempt `k`: the primary attempts
      `k, k+1, ...` in order, then the fallback at most once, as the last
      attempt and only right after primary attempt number `retries`. */
  lemma {:induction false} RetryOrder(url: string, retries: int, k: nat, lastError: string, a: Attempts)
    ensures var o := RetryFrom(url, retries, k, lastError, a);
      && (k > retries <==> o.trace == [])
      && (forall j :: 0 <= j < |o.trace| && o.trace[j].Primary? ==> o.trace[j].k == k + j <= retries)
      && (forall j :: 0 <= j < |o.trace| && o.trace[j].Fallback? ==> j == |o.trace| - 1 && j == retries + 1 - k)
    decreases retries + 1 - k
  {
    if k < retries && a.primary(k).Failure? {
      RetryOrder(url, retries, k + 1, a.primary(k).error, a);
    }
  }

  /** Every attempt before the last one failed, and the result is the last
      attempt's: a success is what that extractor returned. */
  lemma {:induction false} RetryResult(url: string, retries: int, k: nat, lastError: string, a: Attempts)
    ensures var o := RetryFrom(url, retries, k, lastError, a);
      && (forall j :: 0 <= j < |o.trace| - 1 ==> o.trace[j].Primary? && a.primary(o.trace[j].k).Failure?)
      && (o.result.Success? ==> |o.trace| > 0)
      && (o.result.Success? && o.trace[|o.trace| - 1].Primary? ==>
            o.result == a.primary(o.trace[|o.trace| - 1].k))
      && (o.result.Success? && o.trace[|o.trace| - 1].Fallback? ==> o.result == a.fallback)
    decreases retries + 1 - k
  {
    if k < retries && a.primary(k).Failure? {
      RetryResult(url, retries, k + 1, a.primary(k).error, a);
      var rest := RetryFrom(url, retries, k + 1, a.primary(k).error, a);
      var o := RetryFrom(url, retries, k, lastError, a);
      assert forall j :: 1 <= j < |o.trace| ==> o.trace[j] == rest.trace[j - 1];
    }
  }

  /** Every successful scrape passed the content check. */
  lemma {:induction false} ScrapedContentIsSubstantial(url: string, timeout: int, retries: int, k: nat,
                                                       lastError: string, ex: Extractors)
    ensures var o := RetryFrom(url, retries, k, lastError, Tries(url, timeout, ex));
      o.result.Success? ==> SubstantialContent(o.result.value.content) && o.result.value.url == url
    decreases retries + 1 - k
  {
    var a := Tries(url, timeout, ex);
    if k <= retries {
      var first := Newspaper(url, timeout, k, ex);
      assert a.primary(k) == first;
      if first.Failure? {
        if k < retries {
          ScrapedContentIsSubstantial(url, timeout, retries, k + 1, first.error, ex);
        } else {
          var second := BeautifulSoup(url, timeout, ex);
        }
      }
    }
  }

  /** When every attempt fails, the message names the URL and the number of
      primary attempts. */
  lemma {:induction false} ExhaustedMessage(url: string, retries: int, k: nat, lastError: string, a: Attempts)
    ensures var o := RetryFrom(url, retries, k, lastError, a);
      o.result.Failure? ==>
        exists last :: o.result.error == FailureMessage(url, retries, last)
    decreases retries + 1 - k
  {
    if k < retries && a.primary(k).Failure? {
      ExhaustedMessage(url, retries, k + 1, a.primary(k).error, a);
    }
  }

  /** The number of primary attempts is the configured retries plus one when
      every attempt fails; a negative retry count makes no attempt at all. */
  lemma {:induction false} AttemptCount(url: string, retries: int, k: nat, lastError: string, a: Attempts)
    requires k <= retries + 1
    ensures var o := RetryFrom(url, retries, k, lastError, a);
      o.result.Failure? ==> |o.trace| == (if k <= retries then retries + 2 - k else 0)
    decreases retries + 1 - k
  {
    if k < retries && a.primary(k).Failure? {
      AttemptCount(url, retries, k + 1, a.primary(k).error, a);
    }
  }

  /** The `for attempt in range(max_retries + 1)` loop with its early
      returns, proved to agree with the recursive reading. */
  method ScrapeUrlLoop(url: string, timeout: Option<int>, maxRetries: Option<int>, settings: Config.Settings,
                       ex: Extractors)
    returns (result: Result<Source, string>)
    ensures result == ScrapeUrl(url, timeout, maxRetries, settings, ex).result
  {
    var t := EffectiveTimeout(timeout, settings);
    var retries := EffectiveRetries(maxRetries, settings);
    var lastError := "None";
    var attempt: nat := 0;
    while attempt <= retries
      invariant attempt <= retries + 1 || retries < 0
      invariant retries < 0 ==> attempt == 0
      invariant RetryFrom(url, retries, 0, "None", Tries(url, t, ex)).result
             == RetryFrom(url, retries, attempt, lastError, Tries(url, t, ex)).result
      decreases retries + 1 - attempt
    {
      var primary := Newspaper(url, t, attempt, ex);
      if primary.Success? {
        return primary;
      }
      lastError := primary.error;
      if attempt == retries {
        var fallback := BeautifulSoup(url, t, ex);
        if fallback.Success? {
          return fallback;
        }
        lastError := fallback.error;
      }
      attempt := attempt + 1;
    }
    result := Failure(FailureMessage(url, retries, lastError));
  }

  // ---------------------------------------------------------------------------
  // Batches
  // ---------------------------------------------------------------------------

  /** The fixed arguments of one batch call. */
  datatype BatchEnv = BatchEnv(timeout: Option<int>, maxRetries: Option<int>, settings: Config.Settings,
                               ex: Extractors)

  /** `scrape_url` with the batch's arguments, as the function the batch
      applies to each URL. */
  function Scraper(env: BatchEnv): string -> Result<Source, string> {
    url => ScrapeUrl(url, env.timeout, env.maxRetries, env.settings, env.ex).result
  }

  /** A per-URL scraper whose sources carry the URL they were scraped from. */
  ghost predicate KeepsUrl(scrape: string -> Result<Source, string>) {
    forall url :: scrape(url).Success? ==> scrape(url).value.url == url
  }

  /** `scrape_url` keeps the URL. */
  lemma ScraperKeepsUrl(env: BatchEnv)
    ensures KeepsUrl(Scraper(env))
  {
    var t := EffectiveTimeout(env.timeout, env.settings);
    var retries := EffectiveRetries(env.maxRetries, env.settings);
    forall url | Scraper(env)(url).Success?
      ensures Scraper(env)(url).value.url == url
    {
      ScrapedContentIsSubstantial(url, t, retries, 0, "None", env.ex);
    }
  }

  /** `scrape_multiple_urls(urls, skip_errors)`, applying `scrape` to each
      URL: with `skip_errors` every failure is recorded and the loop goes on;
      without it the first failure is re-raised and the remaining URLs are
      never attempted. */
  function ScrapeMultiple(scrape: string -> Result<Source, string>, urls: seq<string>, skipErrors: bool)
    : (r: Result<(seq<Source>, seq<string>), string>)
    ensures skipErrors ==> r.Success?
    ensures r.Success? ==> |r.value.0| + |r.value.1| == |urls|
  {
    if |urls| == 0 then Success(([], []))
    else
      match scrape(urls[0])
      case Success(s) =>
        (match ScrapeMultiple(scrape, urls[1..], skipErrors)
         case Success(rest) => Success(([s] + rest.0, rest.1))
         case Failure(e) => Failure(e))
      case Failure(e) =>
        if !skipErrors then Failure(e)
        else
          var rest := ScrapeMultiple(scrape, urls[1..], skipErrors).value;
          Success((rest.0, [urls[0]] + rest.1))
  }

  /** The URLs whose scrape fails, in input order. */
  function FailedUrls(scrape: string -> Result<Source, string>, urls: seq<string>): (r: seq<string>)
    ensures forall i :: 0 <= i < |r| ==> scrape(r[i]).Failure?
  {
    if |urls| == 0 then []
    else if scrape(urls[0]).Failure? then [urls[0]] + FailedUrls(scrape, urls[1..])
    else FailedUrls(scrape, urls[1..])
  }

  /** The URLs whose scrape succeeds, in input order. */
  function ScrapedUrls(scrape: string -> Result<Source, string>, urls: seq<string>): (r: seq<string>)
    ensures forall i :: 0 <= i < |r| ==> scrape(r[i]).Success?
  {
    if |urls| == 0 then []
    else if scrape(urls[0]).Success? then [urls[0]] + ScrapedUrls(scrape, urls[1..])
    else ScrapedUrls(scrape, urls[1..])
  }

  function UrlsOf(sources: seq<Source>): (r: seq<string>)
    ensures |r| == |sources|
  {
    if |sources| == 0 then [] else [sources[0].url] + UrlsOf(sources[1..])
  }

  /** With `skip_errors`, each input URL lands in exactly one of the two
      lists: the sources are those of the URLs that scraped, the failures the
      rest, both in input order. */
  lemma SkipErrorsPartition(env: BatchEnv, urls: seq<string>)
    ensures var scrape := Scraper(env);
      var r := ScrapeMultiple(scrape, urls, true);
      && r.Success?
      && UrlsOf(r.value.0) == ScrapedUrls(scrape, urls)
      && r.value.1 == FailedUrls(scrape, urls)
      && multiset(ScrapedUrls(scrape, urls)) + multiset(FailedUrls(scrape, urls)) == multiset(urls)
  {
    ScraperKeepsUrl(env);
    SkippedLists(Scraper(env), urls);
    PartitionCounts(Scraper(env), urls);
  }

  /** The two lists of a skipping batch, URL by URL. */
  lemma {:induction false} SkippedLists(scrape: string -> Result<Source, string>, urls: seq<string>)
    requires KeepsUrl(scrape)
    ensures var r := ScrapeMultiple(scrape, urls, true).value;
      UrlsOf(r.0) == ScrapedUrls(scrape, urls) && r.1 == FailedUrls(scrape, urls)
    decreases |urls|
  {
    if |urls| > 0 {
      var tail := urls[1..];
      SkippedLists(scrape, tail);
      var one := scrape(urls[0]);
      var rest := ScrapeMultiple(scrape, tail, true).value;
      if one.Success? {
        var sources := [one.value] + rest.0;
        assert sources[1..] == rest.0;
      }
    }
  }

  /** Every URL is either scraped or failed, and nothing else is. */
  lemma {:induction false} PartitionCounts(scrape: string -> Result<Source, string>, urls: seq<string>)
    ensures multiset(ScrapedUrls(scrape, urls)) + multiset(FailedUrls(scrape, urls)) == multiset(urls)
    decreases |urls|
  {
    if |urls| > 0 {
      var tail := urls[1..];
      PartitionCounts(scrape, tail);
      assert urls == [urls[0]] + tail;
      assert multiset(urls) == multiset{urls[0]} + multiset(tail);
      if scrape(urls[0]).Success? {
        assert ScrapedUrls(scrape, urls) == [urls[0]] + ScrapedUrls(scrape, tail);
      } else {
        assert FailedUrls(scrape, urls) == [urls[0]] + FailedUrls(scrape, tail);
      }
    }
  }

  /** Without `skip_errors` the batch succeeds exactly when every URL does,
      and otherwise reports the first failure's message. */
  lemma {:induction false} StrictBatch(scrape: string -> Result<Source, string>, urls: seq<string>)
    ensures var r := ScrapeMultiple(scrape, urls, false);
      && (r.Success? <==> |FailedUrls(scrape, urls)| == 0)
      && (r.Failure? ==> r.error == scrape(FailedUrls(scrape, urls)[0]).error)
    decreases |urls|
  {
    if |urls| > 0 {
      StrictBatch(scrape, urls[1..]);
    }
  }

  /** No URL is attempted after the first failure: the batch outcome is
      unchanged by whatever follows the first failing URL. */
  lemma {:induction false} StrictBatchStopsAtFailure(scrape: string -> Result<Source, string>,
                                                     before: seq<string>, bad: string, after: seq<string>)
    requires forall i :: 0 <= i < |before| ==> scrape(before[i]).Success?
    requires scrape(bad).Failure?
    ensures ScrapeMultiple(scrape, before + [bad] + after, false) == Failure(scrape(bad).error)
    decreases |before|
  {
    var all := before + [bad] + after;
    if |before| == 0 {
      assert all[0] == bad;
    } else {
      assert all[0] == before[0];
      assert all[1..] == before[1..] + [bad] + after;
      StrictBatchStopsAtFailure(scrape, before[1..], bad, after);
    }
  }

  // ---------------------------------------------------------------------------
  // Previews and result summaries
  // ---------------------------------------------------------------------------

  /** `content[:max_chars].rsplit(' ', 1)[0] + "..."` when the content is
      longer than `max_chars`: the prefix is cut back to its last space. */
  function WordBoundaryPreview(content: string, maxChars: int): (r: string)
    ensures |content| <= maxChars ==> r == content
    ensures |content| > maxChars ==>
      && |r| >= 3 && r[|r| - 3..] == "..."
      && r[..|r| - 3] <= PyPrefix(content, maxChars)
      && (0 <= maxChars ==> |r| <= maxChars + 3)
  {
    if |content| <= maxChars then content
    else
      var head := PyPrefix(content, maxChars);
      var cut := LastIndexOfChar(head, ' ');
      (if cut >= 0 then head[..cut] else head) + "..."
  }

  /** The cut happens at the last space of the prefix: the preview text is
      the whole prefix when it has no space, and otherwise stops right before
      a space with no space after it. */
  lemma PreviewCutsAtLastSpace(content: string, maxChars: int)
    requires |content| > maxChars
    ensures var head := PyPrefix(content, maxChars);
      var r := WordBoundaryPreview(content, maxChars);
      var body := r[..|r| - 3];
      && (body == head <==> forall j :: 0 <= j < |head| ==> head[j] != ' ')
      && (body != head ==> head[|body|] == ' ' && forall j :: |body| < j < |head| ==> head[j] != ' ')
  {
  }

  /** `ScrapeResult` and its derived counts. */
  datatype ScrapeResult = ScrapeResult(sources: seq<Source>, failedUrls: seq<string>) {
    function SuccessCount(): nat { |sources| }
    function FailureCount(): nat { |failedUrls| }

    /** `success_rate`: the percentage of successes, 0 when nothing was tried. */
    function SuccessRate(): (rate: real)
      ensures 0.0 <= rate <= 100.0
      ensures SuccessCount() + FailureCount() == 0 ==> rate == 0.0
      ensures FailureCount() == 0 && SuccessCount() > 0 ==> rate == 100.0
      ensures SuccessCount() == 0 ==> rate == 0.0
      ensures SuccessCount() + FailureCount() > 0 ==>
        rate == Percentage(SuccessCount(), SuccessCount() + FailureCount())
    {
      var total := SuccessCount() + FailureCount();
      if total == 0 then 0.0
      else
        var p := Percentage(SuccessCount(), total);
        assert p == (SuccessCount() as real / total as real) * 100.0;
        assert SuccessCount() == 0 ==> p == 0.0;
        assert FailureCount() == 0 ==> SuccessCount() as real / total as real == 1.0;
        p
    }
  }

  /** The success rate is the share of successes among all attempts: the
      rate times the number of URLs tried is 100 times the successes. */
  lemma SuccessRateShare(res: ScrapeResult)
    ensures res.SuccessRate() * (res.SuccessCount() + res.FailureCount()) as real
         == 100.0 * res.SuccessCount() as real
  {
    var total := res.SuccessCount() + res.FailureCount();
    if total > 0 {
      var p := Percentage(res.SuccessCount(), total);
      assert p * total as real == 100.0 * res.SuccessCount() as real;
    }
  }

  /** `scrape_and_validate`: the scraped source when it is long enough,
      otherwise nothing. */
  function ScrapeAndValidate(url: string, minContentLength: int, settings: Config.Settings, ex: Extractors)
    : (r: Option<Source>)
    ensures var s := ScrapeUrl(url, None, None, settings, ex).result;
      r.Some? <==> s.Success? && |s.value.content| >= minContentLength
    ensures r.Some? ==> r.value == ScrapeUrl(url, None, None, settings, ex).result.value
  {
    match ScrapeUrl(url, None, None, settings, ex).result
    case Success(s) => if |s.content| >= minContentLength then Some(s) else None
    case Failure(_) => None
  }
}

=== FILE: search.dfy ===
/** Web search helpers (research_assistant/tools/search.py): the error
    wrapping around the search provider, the multi-query URL collection with
    order-preserving de-duplication, URL extraction, the domain filter and
    the `SearchResult` wrapper. The provider itself (DuckDuckGo) and
    `urllib.parse` are parameters. */
module Search {
  import opened Wrappers
  import opened Seqs
  import opened Text
  import Config

  /** One provider hit: the `title`, `href` and `body` keys. */
  datatype SearchHit = SearchHit(title: string, href: string, body: string)

  /** The search provider: a query and a result cap give the hits, or the
      message of the exception it raised. */
  type Provider = (string, int) -> Result<seq<SearchHit>, string>

  /** `urlparse(url).netloc`, or `None` when parsing raises. */
  type DomainOf = string -> Option<string>

  const SearchFailedPrefix := "DuckDuckGo search failed for query '"

  /** `search_duckduckgo`: a missing or zero cap falls back to the setting,
      and any provider failure is re-raised with the query in the message. */
  function SearchDuckDuckGo(query: string, maxResults: Option<int>, settings: Config.Settings, provider: Provider)
    : (r: Result<seq<SearchHit>, string>)
    ensures var cap := Config.OrDefault(maxResults, settings.maxSearchResultsPerQuery);
      && (r.Success? <==> provider(query, cap).Success?)
      && (r.Success? ==> r.value == provider(query, cap).value)
      && (r.Failure? ==> r.error == SearchFailedPrefix + query + "': " + provider(query, cap).error)
  {
    var cap := Config.OrDefault(maxResults, settings.maxSearchResultsPerQuery);
    match provider(query, cap)
    case Success(hits) => Success(hits)
    case Failure(e) => Failure(SearchFailedPrefix + query + "': " + e)
  }

  /** `extract_urls_from_results`: each hit's `href`, same length and order. */
  function ExtractUrls(results: seq<SearchHit>): (urls: seq<string>)
    ensures |urls| == |results|
    ensures forall i :: 0 <= i < |results| ==> urls[i] == results[i].href
  {
    if |results| == 0 then [] else [results[0].href] + ExtractUrls(results[1..])
  }

  lemma {:induction false} ExtractUrlsAppend(a: seq<SearchHit>, b: seq<SearchHit>)
    ensures ExtractUrls(a + b) == ExtractUrls(a) + ExtractUrls(b)
  {
  }

  /** The fixed arguments of one `search_multiple_queries` call. */
  datatype SearchEnv = SearchEnv(perQuery: Option<int>, settings: Config.Settings, provider: Provider)

  /** The URLs one query contributes: its hits' hrefs, or nothing when the
      search fails (the failure is only logged). */
  function QueryUrls(env: SearchEnv, query: string): seq<string> {
    match SearchDuckDuckGo(query, env.perQuery, env.settings, env.provider)
    case Success(hits) => ExtractUrls(hits)
    case Failure(_) => []
  }

  /** The concatenation, in query order, of every query's URLs. */
  function AllUrls(env: SearchEnv, queries: seq<string>): seq<string> {
    if |queries| == 0 then [] else QueryUrls(env, queries[0]) + AllUrls(env, queries[1..])
  }

  lemma {:induction false} AllUrlsAppend(env: SearchEnv, q1: seq<string>, q2: seq<string>)
    ensures AllUrls(env, q1 + q2) == AllUrls(env, q1) + AllUrls(env, q2)
    decreases |q1|
  {
    if |q1| == 0 {
      assert q1 + q2 == q2;
    } else {
      assert (q1 + q2)[0] == q1[0];
      assert (q1 + q2)[1..] == q1[1..] + q2;
      AllUrlsAppend(env, q1[1..], q2);
    }
  }

  /** A failing query contributes nothing and does not stop the later ones. */
  lemma FailingQueryContributesNothing(env: SearchEnv, before: seq<string>, q: string, after: seq<string>)
    requires env.provider(q, Config.OrDefault(env.perQuery, env.settings.maxSearchResultsPerQuery)).Failure?
    ensures AllUrls(env, before + [q] + after) == AllUrls(env, before) + AllUrls(env, after)
  {
    assert SearchDuckDuckGo(q, env.perQuery, env.settings, env.provider).Failure?;
    assert QueryUrls(env, q) == [];
    assert [q][1..] == [];
    assert AllUrls(env, [q]) == [];
    AllUrlsAppend(env, before + [q], after);
    AllUrlsAppend(env, before, [q]);
  }

  /** `search_multiple_queries`: the query loop collecting every URL, then,
      when asked, the `seen`-set loop that drops repeats. */
  method SearchMultipleQueries(env: SearchEnv, queries: seq<string>, deduplicate: bool)
    returns (urls: seq<string>)
    ensures !deduplicate ==> urls == AllUrls(env, queries)
    ensures deduplicate ==> urls == Dedup(AllUrls(env, queries))
    ensures deduplicate ==> NoDuplicates(urls)
    ensures forall u :: u in urls <==> u in AllUrls(env, queries)
  {
    var all: seq<string> := [];
    var i := 0;
    while i < |queries|
      invariant 0 <= i <= |queries|
      invariant all == AllUrls(env, queries[..i])
    {
      assert queries[..i + 1] == queries[..i] + [queries[i]];
      AllUrlsAppend(env, queries[..i], [queries[i]]);
      assert AllUrls(env, [queries[i]]) == QueryUrls(env, queries[i]) + AllUrls(env, []);
      var found := SearchDuckDuckGo(queries[i], env.perQuery, env.settings, env.provider);
      if found.Success? {
        all := all + ExtractUrls(found.value);
      }
      i := i + 1;
    }
    assert queries[..i] == queries;
    if deduplicate {
      urls := DedupLoop(all);
    } else {
      urls := all;
    }
  }

  /** With de-duplication the result is a subsequence of the collected URLs. */
  lemma DedupedIsSubsequence(env: SearchEnv, queries: seq<string>)
    ensures IsSubsequence(Dedup(AllUrls(env, queries)), AllUrls(env, queries))
  {
    DedupSubsequence(AllUrls(env, queries));
  }

  // ---------------------------------------------------------------------------
  // Domain filtering
  // ---------------------------------------------------------------------------

  /** `any(entry in domain for entry in entries)`: some entry is a substring. */
  predicate AnyContained(entries: seq<string>, domain: string) {
    exists i :: 0 <= i < |entries| && Contains(domain, entries[i])
  }

  /** A list argument that is `None` or empty is falsy and switches its check off. */
  predicate Active(list: Option<seq<string>>) {
    list.Some? && |list.value| > 0
  }

  /** The decision `filter_urls_by_domain` makes for one URL. */
  predicate Kept(url: string, allowed: Option<seq<string>>, blocked: Option<seq<string>>, domainOf: DomainOf) {
    && domainOf(url).Some?
    && (!Active(allowed) || AnyContained(allowed.value, domainOf(url).value))
    && !(Active(blocked) && AnyContained(blocked.value, domainOf(url).value))
  }

  /** `filter_urls_by_domain`. */
  function FilterUrlsByDomain(urls: seq<string>, allowed: Option<seq<string>>, blocked: Option<seq<string>>,
                              domainOf: DomainOf): (r: seq<string>)
    ensures |r| <= |urls|
    ensures forall i :: 0 <= i < |r| ==> r[i] in urls && Kept(r[i], allowed, blocked, domainOf)
    ensures forall i :: 0 <= i < |urls| && Kept(urls[i], allowed, blocked, domainOf) ==> urls[i] in r
  {
    if |urls| == 0 then []
    else
      var rest := FilterUrlsByDomain(urls[1..], allowed, blocked, domainOf);
      assert forall i :: 1 <= i < |urls| ==> urls[i] == urls[1..][i - 1];
      if Kept(urls[0], allowed, blocked, domainOf) then [urls[0]] + rest else rest
  }

  lemma {:induction false} FilterUrlsSubsequence(urls: seq<string>, allowed: Option<seq<string>>,
                                                 blocked: Option<seq<string>>, domainOf: DomainOf)
    ensures IsSubsequence(FilterUrlsByDomain(urls, allowed, blocked, domainOf), urls)
    decreases |urls|
  {
    if |urls| > 0 {
      var rest := FilterUrlsByDomain(urls[1..], allowed, blocked, domainOf);
      FilterUrlsSubsequence(urls[1..], allowed, blocked, domainOf);
      assert [urls[0]] + urls[1..] == urls;
      if Kept(urls[0], allowed, blocked, domainOf) {
        SubsequenceCons(urls[0], rest, urls[1..]);
      } else {
        SubsequenceOfTail(rest, urls[0], urls[1..]);
      }
    }
  }

  /** Without allowed or blocked lists every parsable URL is kept. */
  lemma {:induction false} FilterWithoutListsKeepsParsable(urls: seq<string>, domainOf: DomainOf)
    requires forall i :: 0 <= i < |urls| ==> domainOf(urls[i]).Some?
    ensures FilterUrlsByDomain(urls, None, None, domainOf) == urls
    decreases |urls|
  {
    if |urls| > 0 {
      FilterWithoutListsKeepsParsable(urls[1..], domainOf);
    }
  }

  // ---------------------------------------------------------------------------
  // SearchResult
  // ---------------------------------------------------------------------------

  /** `SearchResult.limit(n)`: the first `n` hits (Python slice semantics). */
  function Limit(results: seq<SearchHit>, n: int): (r: seq<SearchHit>)
    ensures r <= results
    ensures 0 <= n ==> |r| == if n < |results| then n else |results|
  {
    PyPrefix(results, n)
  }

  /** `SearchResult.filter_by_domain`: the hits whose `href` is among the
      filtered URLs. */
  function FilterByDomain(results: seq<SearchHit>, allowed: Option<seq<string>>, blocked: Option<seq<string>>,
                          domainOf: DomainOf): (r: seq<SearchHit>)
    ensures |r| <= |results|
  {
    var keep := FilterUrlsByDomain(ExtractUrls(results), allowed, blocked, domainOf);
    HitsWithHrefIn(results, keep)
  }

  function HitsWithHrefIn(results: seq<SearchHit>, keep: seq<string>): (r: seq<SearchHit>)
    ensures |r| <= |results|
  {
    if |results| == 0 then []
    else if results[0].href in keep then [results[0]] + HitsWithHrefIn(results[1..], keep)
    else HitsWithHrefIn(results[1..], keep)
  }

  /** The hits whose own `href` passes the domain test, in order. */
  function HitsKept(results: seq<SearchHit>, allowed: Option<seq<string>>, blocked: Option<seq<string>>,
                    domainOf: DomainOf): seq<SearchHit>
  {
    if |results| == 0 then []
    else if Kept(results[0].href, allowed, blocked, domainOf) then
      [results[0]] + HitsKept(results[1..], allowed, blocked, domainOf)
    else HitsKept(results[1..], allowed, blocked, domainOf)
  }

  lemma {:induction false} HitsWithHrefInKept(results: seq<SearchHit>, keep: seq<string>, all: seq<SearchHit>,
                                              allowed: Option<seq<string>>, blocked: Option<seq<string>>,
                                              domainOf: DomainOf)
    requires forall i :: 0 <= i < |results| ==> results[i] in all
    requires keep == FilterUrlsByDomain(ExtractUrls(all), allowed, blocked, domainOf)
    ensures HitsWithHrefIn(results, keep) == HitsKept(results, allowed, blocked, domainOf)
    decreases |results|
  {
    if |results| > 0 {
      var h := results[0];
      var urls := ExtractUrls(all);
      var j :| 0 <= j < |all| && all[j] == h;
      assert urls[j] == h.href;
      assert h.href in keep <==> Kept(h.href, allowed, blocked, domainOf);
      HitsWithHrefInKept(results[1..], keep, all, allowed, blocked, domainOf);
    }
  }

  /** Filtering hits through the URL list is the same as testing each hit's
      own `href`: the membership detour neither loses nor adds hits. */
  lemma FilterByDomainIsPerHit(results: seq<SearchHit>, allowed: Option<seq<string>>, blocked: Option<seq<string>>,
                               domainOf: DomainOf)
    ensures FilterByDomain(results, allowed, blocked, domainOf) == HitsKept(results, allowed, blocked, domainOf)
  {
    var keep := FilterUrlsByDomain(ExtractUrls(results), allowed, blocked, domainOf);
    HitsWithHrefInKept(results, keep, results, allowed, blocked, domainOf);
  }
}

=== FILE: searcher_agent.dfy ===
/** The searcher agent (research_assistant/agents/searcher.py): turning the
    language model's reply into search queries, falling back to the topic,
    and collecting de-duplicated URLs for the queries. The model's reply is
    a parameter: its text, or the message of the exception it raised. */
module SearcherAgent {
  import opened Wrappers
  import opened Seqs
  import opened Text
  import opened AgentBase
  import Search

  /** The characters `lstrip` removes from the front of a query line. The
      digit `0` is not among them. */
  const NumberingChars: set<char> := {'1', '2', '3', '4', '5', '6', '7', '8', '9', '.', '-', ')', ' '}

  /** A reply line that yields a query: not blank, and not a `#` heading. */
  predicate IsQueryLine(line: string) {
    Strip(line) != "" && !("#" <= Strip(line))
  }

  /** The query a line yields: stripped, then its numbering removed. */
  function CleanQuery(line: string): (q: string)
    ensures |q| == 0 || q[0] !in NumberingChars
    ensures |q| <= |Strip(line)| && q == Strip(line)[|Strip(line)| - |q|..]
  {
    LStripChars(Strip(line), NumberingChars)
  }

  /** `q` is the query of one of the query lines among `lines`. */
  predicate FromQueryLine(q: string, lines: seq<string>) {
    exists l :: l in lines && IsQueryLine(l) && q == CleanQuery(l)
  }

  /** The lines the comprehension keeps, in order. */
  function QueryLines(lines: seq<string>): (r: seq<string>)
    ensures |r| <= |lines|
    ensures forall i :: 0 <= i < |r| ==> IsQueryLine(r[i]) && r[i] in lines
    ensures forall i :: 0 <= i < |lines| && IsQueryLine(lines[i]) ==> lines[i] in r
  {
    if |lines| == 0 then []
    else
      var rest := QueryLines(lines[1..]);
      assert forall i :: 1 <= i < |lines| ==> lines[i] == lines[1..][i - 1];
      if IsQueryLine(lines[0]) then [lines[0]] + rest else rest
  }

  function CleanAll(lines: seq<string>): (qs: seq<string>)
    ensures |qs| == |lines|
    ensures forall i :: 0 <= i < |lines| ==> qs[i] == CleanQuery(lines[i])
  {
    if |lines| == 0 then [] else [CleanQuery(lines[0])] + CleanAll(lines[1..])
  }

  /** The list comprehension over the reply's lines: each query line gives
      one query, in line order, and no query starts with numbering. */
  function ParseQueryLines(lines: seq<string>): (qs: seq<string>)
    ensures |qs| <= |lines|
    ensures forall i :: 0 <= i < |qs| ==> |qs[i]| == 0 || qs[i][0] !in NumberingChars
    ensures forall i :: 0 <= i < |qs| ==> FromQueryLine(qs[i], lines)
  {
    var kept := QueryLines(lines);
    var qs := CleanAll(kept);
    assert forall i :: 0 <= i < |qs| ==> kept[i] in lines && IsQueryLine(kept[i]) && qs[i] == CleanQuery(kept[i]);
    qs
  }

  /** The queries a reply yields before the fallback: every query line of
      the stripped reply, cleaned, cut to `maxQueries`. */
  function ParseQueries(text: string, maxQueries: int): (qs: seq<string>)
    ensures qs <= ParseQueryLines(Split(Strip(text), "\n"))
    ensures var n := |ParseQueryLines(Split(Strip(text), "\n"))|;
      && (maxQueries >= 0 ==> |qs| == if maxQueries < n then maxQueries else n)
      && (maxQueries < 0 ==> |qs| == if n + maxQueries < 0 then 0 else n + maxQueries)
  {
    PyPrefix(ParseQueryLines(Split(Strip(text), "\n")), maxQueries)
  }

  /** `generate_queries(topic)`: the parsed queries, or `[topic]` when none
      were parsed or the model raised. */
  function GenerateQueries(topic: string, maxQueries: int, reply: Result<string, string>): (qs: seq<string>)
    ensures |qs| >= 1
    ensures reply.Failure? ==> qs == [topic]
    ensures reply.Success? && ParseQueries(reply.value, maxQueries) != [] ==> qs == ParseQueries(reply.value, maxQueries)
    ensures reply.Success? && ParseQueries(reply.value, maxQueries) == [] ==> qs == [topic]
  {
    match reply
    case Failure(_) => [topic]
    case Success(text) =>
      var queries := ParseQueries(text, maxQueries);
      if |queries| == 0 then [topic] else queries
  }

  /** Every generated query is the topic itself or the cleaned form of one
      of the reply's query lines, and there are at most `maxQueries` of them
      unless the fallback applied. */
  lemma GeneratedQueriesOrigin(topic: string, maxQueries: int, reply: Result<string, string>)
    ensures var qs := GenerateQueries(topic, maxQueries, reply);
      || qs == [topic]
      || (&& reply.Success?
          && (maxQueries >= 0 ==> |qs| <= maxQueries)
          && forall i :: 0 <= i < |qs| ==> FromQueryLine(qs[i], Split(Strip(reply.value), "\n")))
  {
    if reply.Success? {
      var qs := ParseQueries(reply.value, maxQueries);
      ParsedQueriesOrigin(reply.value, maxQueries);
      assert maxQueries >= 0 ==> |qs| <= maxQueries;
    }
  }

  /** Each parsed query comes from a query line of the stripped reply. */
  lemma ParsedQueriesOrigin(text: string, maxQueries: int)
    ensures var qs := ParseQueries(text, maxQueries);
      forall i :: 0 <= i < |qs| ==> FromQueryLine(qs[i], Split(Strip(text), "\n"))
  {
    PrefixKeepsOrigin(Split(Strip(text), "\n"), maxQueries);
  }

  /** Cutting the parsed queries short keeps each one's origin. */
  lemma PrefixKeepsOrigin(lines: seq<string>, n: int)
    ensures var qs := PyPrefix(ParseQueryLines(lines), n);
      forall i :: 0 <= i < |qs| ==> FromQueryLine(qs[i], lines)
  {
    var all := ParseQueryLines(lines);
    var qs := PyPrefix(all, n);
    assert forall i :: 0 <= i < |qs| ==> qs[i] == all[i];
  }

  /** Because `0` is not a numbering character, "10. x" yields "0. x". */
  lemma TenthLineKeepsZero()
    ensures CleanQuery("10. x") == "0. x"
  {
    var s := "10. x";
    assert !IsSpace(s[0]) && !IsSpace(s[|s| - 1]);
    StripNoop(s);
    assert s[0] in NumberingChars && s[1..] == "0. x";
    assert LStripChars("0. x", NumberingChars) == "0. x" by {
      assert "0. x"[0] !in NumberingChars;
    }
  }

  /** A line made only of numbering passes the blank-line filter, which
      looks at it before the numbering is removed, and yields an empty
      query; that empty query is enough to suppress the fallback. */
  lemma NumberingOnlyLineGivesEmptyQuery(topic: string)
    ensures GenerateQueries(topic, 5, Success("1.")) == [""]
  {
    StripNoop("1.");
    assert IndexOf("1.", "\n") == None by {
      assert !OccursAt("1.", "\n", 0);
      assert !OccursAt("1.", "\n", 1);
    }
    assert Split("1.", "\n") == ["1."];
    assert IsQueryLine("1.");
    assert "1."[1..][1..] == "";
    assert CleanQuery("1.") == "";
  }

  /** `search_urls(queries)`: the de-duplicated URLs of every query, in
      first-seen order (`search_multiple_queries` never raises). */
  function SearchUrls(env: Search.SearchEnv, queries: seq<string>): (urls: seq<string>)
    ensures NoDuplicates(urls)
    ensures forall u :: u in urls <==> u in Search.AllUrls(env, queries)
  {
    Dedup(Search.AllUrls(env, queries))
  }

  /** The data of a successful `run`. */
  datatype SearchData = SearchData(queries: seq<string>, urls: seq<string>, urlCount: nat)

  /** `run(topic, queries)`: the given queries, or generated ones when none
      are given, and the URLs they find. */
  function Run(topic: string, queries: Option<seq<string>>, maxQueries: int, reply: Result<string, string>,
               env: Search.SearchEnv): (r: AgentResult<SearchData>)
    ensures r.Succeeded?
    ensures queries.Some? ==> r.data.queries == queries.value
    ensures queries.None? ==> r.data.queries == GenerateQueries(topic, maxQueries, reply)
    ensures r.data.urlCount == |r.data.urls|
    ensures r.data.urls == SearchUrls(env, r.data.queries)
  {
    var qs := match queries case Some(q) => q case None => GenerateQueries(topic, maxQueries, reply);
    var urls := SearchUrls(env, qs);
    CreateSuccessResult(SearchData(qs, urls, |urls|))
  }
}

=== FILE: seqs.dfy ===
/** Sequence operations the Python code uses implicitly: slicing with an
    integer bound, subsequences, and order-preserving de-duplication
    (the `seen` set loop of tools/search.py and `dict.fromkeys` of
    agents/scraper.py). */
module Seqs {

  /** Python's `s[:n]` for an arbitrary integer `n`: a non-negative bound keeps
      the first `min(n, |s|)` elements, a negative one drops `-n` elements from
      the end. */
  function PyPrefix<T>(s: seq<T>, n: int): (r: seq<T>)
    ensures r <= s
    ensures 0 <= n ==> |r| == if n < |s| then n else |s|
    ensures n < 0 ==> |r| == if |s| + n < 0 then 0 else |s| + n
  {
    if 0 <= n then (if n < |s| then s[..n] else s)
    else if |s| + n < 0 then []
    else s[..|s| + n]
  }

  /** `a` is obtained from `b` by deleting elements, keeping the order. */
  ghost predicate IsSubsequence<T>(a: seq<T>, b: seq<T>)
    decreases |b|
  {
    if |a| == 0 then true
    else if |b| == 0 then false
    else if a[0] == b[0] then IsSubsequence(a[1..], b[1..])
    else IsSubsequence(a, b[1..])
  }

  lemma {:induction false} SubsequenceOfSelf<T>(a: seq<T>)
    ensures IsSubsequence(a, a)
    decreases |a|
  {
    if |a| > 0 {
      SubsequenceOfSelf(a[1..]);
    }
  }

  lemma {:induction false} SubsequenceOfTail<T>(a: seq<T>, x: T, b: seq<T>)
    requires IsSubsequence(a, b)
    ensures IsSubsequence(a, [x] + b)
    decreases |b|, 1
  {
    if |a| > 0 && a[0] == x {
      assert ([x] + b)[1..] == b;
      SubsequenceDropHead(a, b);
    } else {
      assert ([x] + b)[1..] == b;
    }
  }

  lemma {:induction false} SubsequenceDropHead<T>(a: seq<T>, b: seq<T>)
    requires |a| > 0
    requires IsSubsequence(a, b)
    ensures IsSubsequence(a[1..], b)
    decreases |b|, 0
  {
    if |b| == 0 {
    } else if a[0] == b[0] {
      SubsequenceOfTail(a[1..], b[0], b[1..]);
      assert [b[0]] + b[1..] == b;
    } else {
      SubsequenceDropHead(a, b[1..]);
      SubsequenceOfTail(a[1..], b[0], b[1..]);
      assert [b[0]] + b[1..] == b;
    }
  }

  /** Prepending the same element to both sides keeps the relation. */
  lemma SubsequenceCons<T>(x: T, a: seq<T>, b: seq<T>)
    requires IsSubsequence(a, b)
    ensures IsSubsequence([x] + a, [x] + b)
  {
    assert ([x] + a)[1..] == a;
    assert ([x] + b)[1..] == b;
  }

  /** Every element of a subsequence occurs in the original. */
  lemma {:induction false} SubsequenceElements<T>(a: seq<T>, b: seq<T>)
    requires IsSubsequence(a, b)
    ensures forall x :: x in a ==> x in b
    decreases |b|
  {
    if |a| == 0 {
    } else if a[0] == b[0] {
      SubsequenceElements(a[1..], b[1..]);
      forall x | x in a ensures x in b {
        if x != a[0] {
          assert x in a[1..];
        }
      }
    } else {
      SubsequenceElements(a, b[1..]);
    }
  }

  predicate NoDuplicates<T(==)>(s: seq<T>) {
    forall i, j :: 0 <= i < j < |s| ==> s[i] != s[j]
  }

  /** The elements of `xs` not in `seen`, each kept at its first occurrence;
      the functional reading of the Python `seen` set loop. */
  function DedupFrom<T(==)>(xs: seq<T>, seen: set<T>): (r: seq<T>)
    ensures NoDuplicates(r)
    ensures forall i :: 0 <= i < |r| ==> r[i] in xs && r[i] !in seen
    ensures forall i :: 0 <= i < |xs| && xs[i] !in seen ==> xs[i] in r
    decreases |xs|
  {
    if |xs| == 0 then []
    else if xs[0] in seen then DedupFrom(xs[1..], seen)
    else [xs[0]] + DedupFrom(xs[1..], seen + {xs[0]})
  }

  /** Order-preserving de-duplication: each distinct element once, at the
      position of its first occurrence. */
  function Dedup<T(==)>(xs: seq<T>): (r: seq<T>)
    ensures NoDuplicates(r)
    ensures forall i :: 0 <= i < |r| ==> r[i] in xs
    ensures forall i :: 0 <= i < |xs| ==> xs[i] in r
  {
    DedupFrom(xs, {})
  }

  lemma {:induction false} DedupFromSubsequence<T>(xs: seq<T>, seen: set<T>)
    ensures IsSubsequence(DedupFrom(xs, seen), xs)
    decreases |xs|
  {
    if |xs| == 0 {
    } else if xs[0] in seen {
      DedupFromSubsequence(xs[1..], seen);
      SubsequenceOfTail(DedupFrom(xs[1..], seen), xs[0], xs[1..]);
      assert [xs[0]] + xs[1..] == xs;
    } else {
      DedupFromSubsequence(xs[1..], seen + {xs[0]});
      SubsequenceCons(xs[0], DedupFrom(xs[1..], seen + {xs[0]}), xs[1..]);
      assert [xs[0]] + xs[1..] == xs;
    }
  }

  /** De-duplication only deletes elements: its result is a subsequence of
      the input. */
  lemma DedupSubsequence<T>(xs: seq<T>)
    ensures IsSubsequence(Dedup(xs), xs)
  {
    DedupFromSubsequence(xs, {});
  }

  lemma {:induction false} DedupFromSnoc<T>(xs: seq<T>, x: T, seen: set<T>)
    ensures DedupFrom(xs + [x], seen)
         == if x in xs || x in seen then DedupFrom(xs, seen) else DedupFrom(xs, seen) + [x]
    decreases |xs|
  {
    if |xs| == 0 {
      assert xs + [x] == [x];
    } else {
      assert (xs + [x])[0] == xs[0];
      assert (xs + [x])[1..] == xs[1..] + [x];
      if xs[0] in seen {
        DedupFromSnoc(xs[1..], x, seen);
        assert x in xs[1..] ==> x in xs;
      } else {
        DedupFromSnoc(xs[1..], x, seen + {xs[0]});
        assert x in xs ==> x == xs[0] || x in xs[1..];
      }
    }
  }

  /** The incremental law that pins de-duplication down completely: reading
      one more element appends it exactly when it has not been seen before.
      Together with `Dedup([]) == []` this is the "first-seen order" promise. */
  lemma DedupSnoc<T>(xs: seq<T>, x: T)
    ensures Dedup(xs + [x]) == if x in xs then Dedup(xs) else Dedup(xs) + [x]
  {
    DedupFromSnoc(xs, x, {});
  }

  /** A sequence without duplicates is its own de-duplication. */
  lemma {:induction false} DedupFromDistinct<T>(xs: seq<T>, seen: set<T>)
    requires NoDuplicates(xs)
    requires forall x :: x in xs ==> x !in seen
    ensures DedupFrom(xs, seen) == xs
    decreases |xs|
  {
    if |xs| > 0 {
      var rest := xs[1..];
      assert xs[0] !in seen;
      assert NoDuplicates(rest) by {
        forall i, j | 0 <= i < j < |rest| ensures rest[i] != rest[j] {
          assert rest[i] == xs[i + 1] && rest[j] == xs[j + 1];
        }
      }
      forall x | x in rest ensures x !in seen + {xs[0]} {
        assert x in xs;
      }
      DedupFromDistinct(rest, seen + {xs[0]});
    }
  }

  lemma DedupIdempotent<T>(xs: seq<T>)
    ensures Dedup(Dedup(xs)) == Dedup(xs)
  {
    DedupFromDistinct(Dedup(xs), {});
  }

  /** The imperative loop of `search_multiple_queries` (a `seen` set and an
      output list), proved to compute `Dedup`. */
  method DedupLoop<T(==)>(xs: seq<T>) returns (unique: seq<T>)
    ensures NoDuplicates(unique)
    ensures forall x :: x in unique <==> x in xs
    ensures unique == Dedup(xs)
  {
    var seen: set<T> := {};
    unique := [];
    var i := 0;
    while i < |xs|
      invariant 0 <= i <= |xs|
      invariant unique == Dedup(xs[..i])
      invariant forall x :: x in seen <==> x in xs[..i]
    {
      DedupSnoc(xs[..i], xs[i]);
      assert xs[..i + 1] == xs[..i] + [xs[i]];
      if xs[i] !in seen {
        seen := seen + {xs[i]};
        unique := unique + [xs[i]];
      }
      i := i + 1;
    }
    assert xs[..i] == xs;
  }
}

=== FILE: source.dfy ===
/** The `Source` record and `SourceCollection` (research_assistant/models/source.py),
    plus the score bands that every reporting component shares. */
module Sources {
  import opened Wrappers
  import opened Seqs

  /** The `trustworthiness_analysis` entry the analyzer writes into a
      source's metadata; each key may be absent. */
  datatype AnalysisMeta = AnalysisMeta(
    reasoning: Option<string>,
    redFlags: Option<seq<string>>,
    strengths: Option<seq<string>>,
    error: Option<string>)
  {
    /** An empty dictionary, which Python treats as falsy. */
    predicate IsEmpty() {
      reasoning.None? && redFlags.None? && strengths.None? && error.None?
    }
  }

  /** The metadata keys the core reads back. */
  datatype Metadata = Metadata(
    domain: Option<string>,
    wordCount: Option<int>,
    analysis: Option<AnalysisMeta>)

  const NoMetadata := Metadata(None, None, None)

  datatype Source = Source(
    url: string,
    title: string,
    content: string,
    score: real,
    metadata: Metadata)

  /** The pydantic bound on `trustworthiness_score`. */
  predicate ValidScore(x: real) {
    0.0 <= x <= 100.0
  }

  const DefaultScore: real := 0.0

  /** The default `threshold` of `is_trustworthy` and `get_trustworthy`. */
  const TrustThreshold: real := 85.0

  /** Constructing a `Source`: pydantic rejects a score outside [0, 100]. */
  function MakeSource(url: string, title: string, content: string, score: real, metadata: Metadata)
    : (r: Result<Source, string>)
    ensures r.Success? <==> ValidScore(score)
    ensures r.Success? ==>
      (r.value.url == url && r.value.content == content && r.value.score == score
       && r.value.title == title && r.value.metadata == metadata)
  {
    if ValidScore(score) then Success(Source(url, title, content, score, metadata))
    else Failure("trustworthiness_score must be between 0.0 and 100.0")
  }

  /** `Source(url=url)`: every other field takes its default. */
  function NewSource(url: string): (r: Source)
    ensures ValidScore(r.score) && r.score == DefaultScore
    ensures r.url == url && r.title == "" && r.content == "" && r.metadata == NoMetadata
  {
    Source(url, "", "", DefaultScore, NoMetadata)
  }

  predicate IsTrustworthy(s: Source, threshold: real) {
    s.score >= threshold
  }

  /** `get_content_preview(max_chars)`: the content itself when short enough,
      otherwise a prefix (Python slice semantics, so a negative bound drops
      characters from the end) followed by "...". */
  function ContentPreview(s: Source, maxChars: int): (r: string)
    ensures |s.content| <= maxChars ==> r == s.content
    ensures |s.content| > maxChars ==>
      && |r| >= 3 && r[|r| - 3..] == "..."
      && r[..|r| - 3] <= s.content
      && |r| - 3 == (if maxChars < 0 then (if |s.content| + maxChars < 0 then 0 else |s.content| + maxChars) else maxChars)
  {
    if |s.content| <= maxChars then s.content
    else PyPrefix(s.content, maxChars) + "..."
  }

  // ---------------------------------------------------------------------------
  // Score filters, shared by every component that splits sources at a threshold
  // ---------------------------------------------------------------------------

  /** The sources scoring at least `t`, in their original order. */
  function AtLeast(xs: seq<Source>, t: real): (r: seq<Source>)
    ensures |r| <= |xs|
    ensures forall i :: 0 <= i < |r| ==> r[i].score >= t && r[i] in xs
  {
    if |xs| == 0 then []
    else if xs[0].score >= t then [xs[0]] + AtLeast(xs[1..], t)
    else AtLeast(xs[1..], t)
  }

  /** The sources scoring strictly below `t`, in their original order. */
  function Below(xs: seq<Source>, t: real): (r: seq<Source>)
    ensures |r| <= |xs|
    ensures forall i :: 0 <= i < |r| ==> r[i].score < t && r[i] in xs
  {
    if |xs| == 0 then []
    else if xs[0].score < t then [xs[0]] + Below(xs[1..], t)
    else Below(xs[1..], t)
  }

  /** The two filters split the input: together they hold every source
      exactly as often as the input does, so their lengths add up. */
  lemma {:induction false} FilterPartition(xs: seq<Source>, t: real)
    ensures multiset(AtLeast(xs, t)) + multiset(Below(xs, t)) == multiset(xs)
    ensures |AtLeast(xs, t)| + |Below(xs, t)| == |xs|
    decreases |xs|
  {
    if |xs| > 0 {
      FilterPartition(xs[1..], t);
      assert xs == [xs[0]] + xs[1..];
    }
  }

  /** Both filters keep the input order. */
  lemma {:induction false} FiltersKeepOrder(xs: seq<Source>, t: real)
    ensures IsSubsequence(AtLeast(xs, t), xs)
    ensures IsSubsequence(Below(xs, t), xs)
    decreases |xs|
  {
    if |xs| > 0 {
      FiltersKeepOrder(xs[1..], t);
      assert [xs[0]] + xs[1..] == xs;
      if xs[0].score >= t {
        SubsequenceCons(xs[0], AtLeast(xs[1..], t), xs[1..]);
        SubsequenceOfTail(Below(xs[1..], t), xs[0], xs[1..]);
      } else {
        SubsequenceOfTail(AtLeast(xs[1..], t), xs[0], xs[1..]);
        SubsequenceCons(xs[0], Below(xs[1..], t), xs[1..]);
      }
    }
  }

  /** Every source at or above the threshold is kept (the filter misses none). */
  lemma {:induction false} AtLeastKeepsAll(xs: seq<Source>, t: real)
    ensures forall i :: 0 <= i < |xs| && xs[i].score >= t ==> xs[i] in AtLeast(xs, t)
    decreases |xs|
  {
    if |xs| > 0 {
      AtLeastKeepsAll(xs[1..], t);
      forall i | 0 <= i < |xs| && xs[i].score >= t ensures xs[i] in AtLeast(xs, t) {
        if i > 0 {
          assert xs[i] == xs[1..][i - 1];
        }
      }
    }
  }

  /** `AtLeast` is empty exactly when no source reaches the threshold. */
  lemma {:induction false} AtLeastEmpty(xs: seq<Source>, t: real)
    ensures |AtLeast(xs, t)| == 0 <==> forall i :: 0 <= i < |xs| ==> xs[i].score < t
    decreases |xs|
  {
    if |xs| > 0 {
      AtLeastEmpty(xs[1..], t);
      if xs[0].score < t {
        forall i | 1 <= i < |xs| ensures (xs[i].score < t <==> xs[1..][i - 1].score < t) {
        }
      }
    }
  }

  /** When no source reaches the threshold, the lower filter is the input. */
  lemma {:induction false} BelowKeepsAll(xs: seq<Source>, t: real)
    requires forall i :: 0 <= i < |xs| ==> xs[i].score < t
    ensures Below(xs, t) == xs
    decreases |xs|
  {
    if |xs| > 0 {
      BelowKeepsAll(xs[1..], t);
      assert [xs[0]] + xs[1..] == xs;
    }
  }

  /** Raising the threshold can only remove sources. */
  lemma {:induction false} AtLeastMonotone(xs: seq<Source>, t1: real, t2: real)
    requires t1 <= t2
    ensures |AtLeast(xs, t2)| <= |AtLeast(xs, t1)|
    decreases |xs|
  {
    if |xs| > 0 {
      AtLeastMonotone(xs[1..], t1, t2);
    }
  }

  /** Some source reaches the threshold (the routing test of the workflow). */
  predicate AnyAtLeast(xs: seq<Source>, t: real) {
    exists i :: 0 <= i < |xs| && xs[i].score >= t
  }

  lemma AnyAtLeastIffNonEmpty(xs: seq<Source>, t: real)
    ensures AnyAtLeast(xs, t) <==> |AtLeast(xs, t)| > 0
  {
    AtLeastEmpty(xs, t);
  }

  // ---------------------------------------------------------------------------
  // SourceCollection
  // ---------------------------------------------------------------------------

  datatype SourceCollection = SourceCollection(sources: seq<Source>)

  datatype Statistics = Statistics(
    totalCount: nat,
    averageScore: real,
    trustworthyCount: nat,
    trustworthyPercentage: real)

  /** `add`: appends one source and leaves the earlier ones alone. */
  function Add(c: SourceCollection, s: Source): (r: SourceCollection)
    ensures |r.sources| == |c.sources| + 1
    ensures r.sources[..|c.sources|] == c.sources
    ensures r.sources[|c.sources|] == s
  {
    SourceCollection(c.sources + [s])
  }

  /** `filter_by_score(min_score)`: exactly the collection's sources that
      reach `minScore`, in the collection's order. */
  function FilterByScore(c: SourceCollection, minScore: real): (r: seq<Source>)
    ensures forall s :: s in r <==> s in c.sources && s.score >= minScore
    ensures IsSubsequence(r, c.sources)
  {
    AtLeastKeepsAll(c.sources, minScore);
    FiltersKeepOrder(c.sources, minScore);
    AtLeast(c.sources, minScore)
  }

  /** `get_trustworthy(threshold)`: exactly the collection's sources scoring
      at least `threshold`, in order (it delegates to `filter_by_score`). */
  function GetTrustworthy(c: SourceCollection, threshold: real): (r: seq<Source>)
    ensures forall s :: s in r <==> s in c.sources && s.score >= threshold
    ensures IsSubsequence(r, c.sources)
  {
    FilterByScore(c, threshold)
  }

  function SumScores(xs: seq<Source>): real {
    if |xs| == 0 then 0.0 else xs[0].score + SumScores(xs[1..])
  }

  /** `get_statistics` with the default 85.0 threshold: the count, the mean
      score, the number of sources at the threshold and their share in
      percent. */
  function GetStatistics(c: SourceCollection): (st: Statistics)
    ensures |c.sources| == 0 ==> st == Statistics(0, 0.0, 0, 0.0)
    ensures st.totalCount == |c.sources|
    ensures st.trustworthyCount == |GetTrustworthy(c, TrustThreshold)| <= st.totalCount
    ensures |c.sources| > 0 ==> st.averageScore == SumScores(c.sources) / |c.sources| as real
    ensures 0.0 <= st.trustworthyPercentage <= 100.0
    ensures |c.sources| > 0 ==> st.trustworthyPercentage == Percentage(st.trustworthyCount, |c.sources|)
  {
    if |c.sources| == 0 then Statistics(0, 0.0, 0, 0.0)
    else
      var n := |c.sources|;
      var k := |GetTrustworthy(c, TrustThreshold)|;
      Statistics(n, SumScores(c.sources) / n as real, k, Percentage(k, n))
  }

  /** The statistics read independently of the filter: the trustworthy
      count is the number of scores at 85 or above, so the percentage is
      that count's share of all sources. */
  lemma StatisticsCountScores(c: SourceCollection)
    ensures var st := GetStatistics(c);
      && st.trustworthyCount == CountAtLeast(Scores(c.sources), TrustThreshold)
      && (|c.sources| > 0 ==>
            st.trustworthyPercentage == Percentage(CountAtLeast(Scores(c.sources), TrustThreshold), |c.sources|))
  {
    CountMatchesFilter(c.sources, TrustThreshold);
  }

  /** `(k / n) * 100`: the share of `k` in a positive total `n`, in percent. */
  function Percentage(k: nat, n: nat): (p: real)
    requires 0 < n && k <= n
    ensures 0.0 <= p <= 100.0
    ensures p * n as real == 100.0 * k as real
  {
    PercentBounds(k, n);
    (k as real / n as real) * 100.0
  }

  /** A share of a positive total, as a percentage, lies in [0, 100]. */
  lemma PercentBounds(k: nat, n: nat)
    requires 0 < n && k <= n
    ensures 0.0 <= (k as real / n as real) * 100.0 <= 100.0
    ensures (k as real / n as real) * 100.0 * n as real == 100.0 * k as real
  {
    var q := k as real / n as real;
    assert q * n as real == k as real;
  }

  /** A valid score's average stays within [0, 100]. */
  lemma {:induction false} SumScoresBounds(xs: seq<Source>)
    requires forall i :: 0 <= i < |xs| ==> ValidScore(xs[i].score)
    ensures 0.0 <= SumScores(xs) <= 100.0 * |xs| as real
    decreases |xs|
  {
    if |xs| > 0 {
      SumScoresBounds(xs[1..]);
    }
  }

  // ---------------------------------------------------------------------------
  // Score bands shared by the reporter, the HTML generator and the analyzer
  // ---------------------------------------------------------------------------

  datatype TrustClass = TrustHigh | TrustMedium | TrustLow {
    /** The CSS class name written into the report. */
    function Css(): string {
      match this
      case TrustHigh => "trust-high"
      case TrustMedium => "trust-medium"
      case TrustLow => "trust-low"
    }
  }

  /** The three-band classification: >= 85 high, >= 70 medium, else low. */
  function ClassifyTrust(score: real): (c: TrustClass)
    ensures c == TrustHigh <==> score >= 85.0
    ensures c == TrustMedium <==> 70.0 <= score < 85.0
    ensures c == TrustLow <==> score < 70.0
  {
    if score >= 85.0 then TrustHigh
    else if score >= 70.0 then TrustMedium
    else TrustLow
  }

  /** The high band is exactly the default trust threshold. */
  lemma HighIsTrustworthy(s: Source)
    ensures ClassifyTrust(s.score) == TrustHigh <==> IsTrustworthy(s, TrustThreshold)
  {
  }

  lemma CssNamesDistinct()
    ensures TrustHigh.Css() != TrustMedium.Css()
    ensures TrustHigh.Css() != TrustLow.Css()
    ensures TrustMedium.Css() != TrustLow.Css()
  {
  }

  /** The four-way score distribution: excellent (>= 90), good ([80, 90)),
      fair ([70, 80)) and poor (< 70). */
  datatype Buckets = Buckets(excellent: nat, good: nat, fair: nat, poor: nat) {
    function Total(): nat { excellent + good + fair + poor }
  }

  function Bucket(scores: seq<real>): Buckets {
    if |scores| == 0 then Buckets(0, 0, 0, 0)
    else
      var rest := Bucket(scores[1..]);
      var x := scores[0];
      if x >= 90.0 then rest.(excellent := rest.excellent + 1)
      else if 80.0 <= x < 90.0 then rest.(good := rest.good + 1)
      else if 70.0 <= x < 80.0 then rest.(fair := rest.fair + 1)
      else rest.(poor := rest.poor + 1)
  }

  function CountAtLeast(scores: seq<real>, t: real): nat {
    if |scores| == 0 then 0
    else (if scores[0] >= t then 1 else 0) + CountAtLeast(scores[1..], t)
  }

  /** Every score lands in exactly one band, so the four counts add up to
      the number of scores. */
  lemma {:induction false} BucketTotal(scores: seq<real>)
    ensures Bucket(scores).Total() == |scores|
    decreases |scores|
  {
    if |scores| > 0 {
      BucketTotal(scores[1..]);
    }
  }

  /** The excellent bucket counts the scores at 90 or above, excellent plus
      good those at 80 or above, and poor those below 70. */
  lemma {:induction false} BucketCounts(scores: seq<real>)
    ensures Bucket(scores).excellent == CountAtLeast(scores, 90.0)
    ensures Bucket(scores).excellent + Bucket(scores).good == CountAtLeast(scores, 80.0)
    ensures Bucket(scores).poor + CountAtLeast(scores, 70.0) == |scores|
    decreases |scores|
  {
    if |scores| > 0 {
      BucketCounts(scores[1..]);
    }
  }

  function Scores(xs: seq<Source>): (r: seq<real>)
    ensures |r| == |xs|
    ensures forall i :: 0 <= i < |xs| ==> r[i] == xs[i].score
  {
    if |xs| == 0 then [] else [xs[0].score] + Scores(xs[1..])
  }

  /** Counting scores at a threshold agrees with the length of the filter. */
  lemma {:induction false} CountMatchesFilter(xs: seq<Source>, t: real)
    ensures CountAtLeast(Scores(xs), t) == |AtLeast(xs, t)|
    decreases |xs|
  {
    if |xs| > 0 {
      CountMatchesFilter(xs[1..], t);
      assert Scores(xs)[1..] == Scores(xs[1..]);
    }
  }
}

=== FILE: state.dfy ===
/** The record that flows through the research workflow
    (research_assistant/graph/state.py) and the per-field rule by which a
    node's partial update is merged into it: seven list fields accumulate
    (old ++ increment) and five fields are replaced. */
module ResearchState {
  import opened Wrappers
  import opened Sources

  /** The values `current_step` takes; `Label` is the string the Python code
      stores. */
  datatype Step =
    | Initialized
    | QueryGenerationComplete
    | QueryGenerationFailed
    | SearchComplete
    | SearchFailed
    | ScrapingSkippedNoUrls
    | ScrapingComplete
    | ScrapingFailed
    | AnalysisSkippedNoSources
    | AnalysisComplete
    | AnalysisFailed
    | StorageSkippedNoSources
    | StorageSkippedNoTrustworthySources
    | StorageComplete
    | StorageFailed
    | ReportGeneratedWithErrors
    | ReportComplete
    | ReportFailed
  {
    function Label(): string {
      match this
      case Initialized => "initialized"
      case QueryGenerationComplete => "query_generation_complete"
      case QueryGenerationFailed => "query_generation_failed"
      case SearchComplete => "search_complete"
      case SearchFailed => "search_failed"
      case ScrapingSkippedNoUrls => "scraping_skipped_no_urls"
      case ScrapingComplete => "scraping_complete"
      case ScrapingFailed => "scraping_failed"
      case AnalysisSkippedNoSources => "analysis_skipped_no_sources"
      case AnalysisComplete => "analysis_complete"
      case AnalysisFailed => "analysis_failed"
      case StorageSkippedNoSources => "storage_skipped_no_sources"
      case StorageSkippedNoTrustworthySources => "storage_skipped_no_trustworthy_sources"
      case StorageComplete => "storage_complete"
      case StorageFailed => "storage_failed"
      case ReportGeneratedWithErrors => "report_generated_with_errors"
      case ReportComplete => "report_complete"
      case ReportFailed => "report_failed"
    }
  }

  datatype State = State(
    // replaced
    topic: string,
    maxSources: int,
    searchQueries: seq<string>,
    // accumulated
    discoveredUrls: seq<string>,
    scrapedSources: seq<Source>,
    failedUrls: seq<string>,
    analyzedSources: seq<Source>,
    storedSources: seq<Source>,
    rejectedSources: seq<Source>,
    // replaced
    reportHtml: string,
    currentStep: Step,
    // accumulated
    errors: seq<string>)

  /** The keys a node returns; `None` is a key the node leaves out. */
  datatype Update = Update(
    topic: Option<string>,
    maxSources: Option<int>,
    searchQueries: Option<seq<string>>,
    discoveredUrls: Option<seq<string>>,
    scrapedSources: Option<seq<Source>>,
    failedUrls: Option<seq<string>>,
    analyzedSources: Option<seq<Source>>,
    storedSources: Option<seq<Source>>,
    rejectedSources: Option<seq<Source>>,
    reportHtml: Option<string>,
    currentStep: Option<Step>,
    errors: Option<seq<string>>)

  /** The update returning no key at all. */
  const NoUpdate := Update(None, None, None, None, None, None, None, None, None, None, None, None)

  /** `create_initial_state(topic, max_sources=10)`; `None` stands for the
      omitted keyword argument. */
  function InitialState(topic: string, maxSources: Option<int>): (s: State)
    ensures s.topic == topic
    ensures s.maxSources == (if maxSources.Some? then maxSources.value else 10)
    ensures s.searchQueries == [] && s.discoveredUrls == [] && s.scrapedSources == []
    ensures s.failedUrls == [] && s.analyzedSources == [] && s.storedSources == []
    ensures s.rejectedSources == [] && s.errors == []
    ensures s.reportHtml == "" && s.currentStep == Initialized
  {
    State(topic, maxSources.GetOr(10), [], [], [], [], [], [], [], "", Initialized, [])
  }

  /** The `operator.add` reducer of an `Annotated[List, add]` field. */
  function Accumulate<T>(prev: seq<T>, inc: Option<seq<T>>): seq<T> {
    match inc
    case Some(more) => prev + more
    case None => prev
  }

  /** The default reducer of a plain field: the last written value wins. */
  function Replace<T>(prev: T, value: Option<T>): T {
    match value
    case Some(v) => v
    case None => prev
  }

  /** Applies one node's update to the state. */
  function Merge(s: State, u: Update): State {
    State(
      Replace(s.topic, u.topic),
      Replace(s.maxSources, u.maxSources),
      Replace(s.searchQueries, u.searchQueries),
      Accumulate(s.discoveredUrls, u.discoveredUrls),
      Accumulate(s.scrapedSources, u.scrapedSources),
      Accumulate(s.failedUrls, u.failedUrls),
      Accumulate(s.analyzedSources, u.analyzedSources),
      Accumulate(s.storedSources, u.storedSources),
      Accumulate(s.rejectedSources, u.rejectedSources),
      Replace(s.reportHtml, u.reportHtml),
      Replace(s.currentStep, u.currentStep),
      Accumulate(s.errors, u.errors))
  }

  /** A key the update leaves out keeps its value. */
  lemma MergeOmittedUnchanged(s: State, u: Update)
    ensures u.topic.None? ==> Merge(s, u).topic == s.topic
    ensures u.maxSources.None? ==> Merge(s, u).maxSources == s.maxSources
    ensures u.searchQueries.None? ==> Merge(s, u).searchQueries == s.searchQueries
    ensures u.discoveredUrls.None? ==> Merge(s, u).discoveredUrls == s.discoveredUrls
    ensures u.scrapedSources.None? ==> Merge(s, u).scrapedSources == s.scrapedSources
    ensures u.failedUrls.None? ==> Merge(s, u).failedUrls == s.failedUrls
    ensures u.analyzedSources.None? ==> Merge(s, u).analyzedSources == s.analyzedSources
    ensures u.storedSources.None? ==> Merge(s, u).storedSources == s.storedSources
    ensures u.rejectedSources.None? ==> Merge(s, u).rejectedSources == s.rejectedSources
    ensures u.reportHtml.None? ==> Merge(s, u).reportHtml == s.reportHtml
    ensures u.currentStep.None? ==> Merge(s, u).currentStep == s.currentStep
    ensures u.errors.None? ==> Merge(s, u).errors == s.errors
  {
  }

  /** Merging the empty update is the identity. */
  lemma MergeNoUpdate(s: State)
    ensures Merge(s, NoUpdate) == s
  {
  }

  /** Applies the updates in order, as the executor does. */
  function MergeAll(s: State, us: seq<Update>): State
    decreases |us|
  {
    if |us| == 0 then s else MergeAll(Merge(s, us[0]), us[1..])
  }

  /** Applying one more update at the end. */
  lemma {:induction false} MergeAllSnoc(s: State, us: seq<Update>, u: Update)
    ensures MergeAll(s, us + [u]) == Merge(MergeAll(s, us), u)
    decreases |us|
  {
    if |us| > 0 {
      assert (us + [u])[1..] == us[1..] + [u];
      MergeAllSnoc(Merge(s, us[0]), us[1..], u);
    }
  }

  // Field selectors, so that one definition serves every field.
  function DiscoveredOf(u: Update): Option<seq<string>> { u.discoveredUrls }
  function ScrapedOf(u: Update): Option<seq<Source>> { u.scrapedSources }
  function FailedOf(u: Update): Option<seq<string>> { u.failedUrls }
  function AnalyzedOf(u: Update): Option<seq<Source>> { u.analyzedSources }
  function StoredOf(u: Update): Option<seq<Source>> { u.storedSources }
  function RejectedOf(u: Update): Option<seq<Source>> { u.rejectedSources }
  function ErrorsOf(u: Update): Option<seq<string>> { u.errors }
  function TopicOf(u: Update): Option<string> { u.topic }
  function MaxSourcesOf(u: Update): Option<int> { u.maxSources }
  function QueriesOf(u: Update): Option<seq<string>> { u.searchQueries }
  function ReportOf(u: Update): Option<string> { u.reportHtml }
  function StepOf(u: Update): Option<Step> { u.currentStep }

  /** Every increment a sequence of updates carries for one field, in
      application order. */
  function Increments<T>(us: seq<Update>, field: Update -> Option<seq<T>>): seq<T> {
    if |us| == 0 then [] else field(us[0]).GetOr([]) + Increments(us[1..], field)
  }

  /** The value written by the LAST update that mentions the field, or
      `init` when none does. */
  function LastWritten<T>(init: T, us: seq<Update>, field: Update -> Option<T>): T
    decreases |us|
  {
    if |us| == 0 then init
    else match field(us[|us| - 1])
      case Some(v) => v
      case None => LastWritten(init, us[..|us| - 1], field)
  }

  lemma {:induction false} IncrementsStep<T>(init: seq<T>, us: seq<Update>, field: Update -> Option<seq<T>>)
    requires |us| > 0
    ensures init + Increments(us, field) == Accumulate(init, field(us[0])) + Increments(us[1..], field)
  {
    var inc := field(us[0]).GetOr([]);
    assert init + (inc + Increments(us[1..], field)) == (init + inc) + Increments(us[1..], field);
  }

  /** Writing `u` first and then `rest` leaves the value `rest` would leave
      on top of what `u` wrote. */
  lemma {:induction false} LastWrittenCons<T>(init: T, u: Update, rest: seq<Update>, field: Update -> Option<T>)
    ensures LastWritten(init, [u] + rest, field) == LastWritten(Replace(init, field(u)), rest, field)
    decreases |rest|
  {
    var all := [u] + rest;
    if |rest| == 0 {
      assert all[..0] == [];
    } else {
      assert all[|all| - 1] == rest[|rest| - 1];
      assert all[..|all| - 1] == [u] + rest[..|rest| - 1];
      LastWrittenCons(init, u, rest[..|rest| - 1], field);
    }
  }

  /** After a run of updates, each accumulated field is its initial value
      followed by every increment, in the order the updates were applied. */
  lemma {:induction false} MergeAllAccumulates(s: State, us: seq<Update>)
    ensures MergeAll(s, us).discoveredUrls == s.discoveredUrls + Increments(us, DiscoveredOf)
    ensures MergeAll(s, us).scrapedSources == s.scrapedSources + Increments(us, ScrapedOf)
    ensures MergeAll(s, us).failedUrls == s.failedUrls + Increments(us, FailedOf)
    ensures MergeAll(s, us).analyzedSources == s.analyzedSources + Increments(us, AnalyzedOf)
    ensures MergeAll(s, us).storedSources == s.storedSources + Increments(us, StoredOf)
    ensures MergeAll(s, us).rejectedSources == s.rejectedSources + Increments(us, RejectedOf)
    ensures MergeAll(s, us).errors == s.errors + Increments(us, ErrorsOf)
    decreases |us|
  {
    if |us| > 0 {
      MergeAllAccumulates(Merge(s, us[0]), us[1..]);
      IncrementsStep(s.discoveredUrls, us, DiscoveredOf);
      IncrementsStep(s.scrapedSources, us, ScrapedOf);
      IncrementsStep(s.failedUrls, us, FailedOf);
      IncrementsStep(s.analyzedSources, us, AnalyzedOf);
      IncrementsStep(s.storedSources, us, StoredOf);
      IncrementsStep(s.rejectedSources, us, RejectedOf);
      IncrementsStep(s.errors, us, ErrorsOf);
    } else {
      assert s.errors + [] == s.errors;
      assert s.discoveredUrls + [] == s.discoveredUrls;
      assert s.scrapedSources + [] == s.scrapedSources;
      assert s.failedUrls + [] == s.failedUrls;
      assert s.analyzedSources + [] == s.analyzedSources;
      assert s.storedSources + [] == s.storedSources;
      assert s.rejectedSources + [] == s.rejectedSources;
    }
  }

  /** After a run of updates, each replaced field holds the value of the last
      update that mentioned it, or its initial value. */
  lemma {:induction false} MergeAllReplaces(s: State, us: seq<Update>)
    ensures MergeAll(s, us).topic == LastWritten(s.topic, us, TopicOf)
    ensures MergeAll(s, us).maxSources == LastWritten(s.maxSources, us, MaxSourcesOf)
    ensures MergeAll(s, us).searchQueries == LastWritten(s.searchQueries, us, QueriesOf)
    ensures MergeAll(s, us).reportHtml == LastWritten(s.reportHtml, us, ReportOf)
    ensures MergeAll(s, us).currentStep == LastWritten(s.currentStep, us, StepOf)
    decreases |us|
  {
    if |us| > 0 {
      MergeAllReplaces(Merge(s, us[0]), us[1..]);
      assert us == [us[0]] + us[1..];
      LastWrittenCons(s.topic, us[0], us[1..], TopicOf);
      LastWrittenCons(s.maxSources, us[0], us[1..], MaxSourcesOf);
      LastWrittenCons(s.searchQueries, us[0], us[1..], QueriesOf);
      LastWrittenCons(s.reportHtml, us[0], us[1..], ReportOf);
      LastWrittenCons(s.currentStep, us[0], us[1..], StepOf);
    }
  }

  /** Earlier values of an accumulated field are prefixes of later ones. */
  lemma {:induction false} MergeAllGrows(s: State, us: seq<Update>)
    ensures s.discoveredUrls <= MergeAll(s, us).discoveredUrls
    ensures s.scrapedSources <= MergeAll(s, us).scrapedSources
    ensures s.failedUrls <= MergeAll(s, us).failedUrls
    ensures s.analyzedSources <= MergeAll(s, us).analyzedSources
    ensures s.storedSources <= MergeAll(s, us).storedSources
    ensures s.rejectedSources <= MergeAll(s, us).rejectedSources
    ensures s.errors <= MergeAll(s, us).errors
  {
    MergeAllAccumulates(s, us);
  }
}

=== FILE: text.dfy ===
/** The Python `str` methods the core relies on, over `string = seq<char>`:
    `strip`, `lstrip(chars)`, `startswith`, `find`/`rfind`, `split(sep)`,
    `sep.join`, `replace`, `lower`, `isalnum`, `isdigit` and `str(n)`. */
module Text {
  import opened Wrappers

  /** Python's `str.isspace` for one character: the full set of characters
      that `str.strip()` and `str.split()` treat as whitespace. */
  predicate IsSpace(c: char) {
    || c == ' ' || '\t' <= c <= '\r' || '\U{1C}' <= c <= '\U{1F}'
    || c == '\U{85}' || c == '\U{A0}' || c == '\U{1680}' || '\U{2000}' <= c <= '\U{200A}'
    || c == '\U{2028}' || c == '\U{2029}' || c == '\U{202F}' || c == '\U{205F}' || c == '\U{3000}'
  }

  /** `s.lstrip()`: drops leading whitespace. */
  function LStrip(s: string): (r: string)
    ensures |r| <= |s| && r == s[|s| - |r|..]
    ensures |r| == 0 || !IsSpace(r[0])
    ensures forall i :: 0 <= i < |s| - |r| ==> IsSpace(s[i])
  {
    if |s| > 0 && IsSpace(s[0]) then LStrip(s[1..]) else s
  }

  /** `s.rstrip()`: drops trailing whitespace. */
  function RStrip(s: string): (r: string)
    ensures |r| <= |s| && r == s[..|r|]
    ensures |r| == 0 || !IsSpace(r[|r| - 1])
    ensures forall i :: |r| <= i < |s| ==> IsSpace(s[i])
  {
    if |s| > 0 && IsSpace(s[|s| - 1]) then RStrip(s[..|s| - 1]) else s
  }

  /** Number of leading whitespace characters of `s`. */
  function LeadingSpace(s: string): (n: nat)
    ensures n <= |s|
  {
    |s| - |LStrip(s)|
  }

  /** `s.strip()`: the piece of `s` left after removing leading and trailing
      whitespace; it neither starts nor ends with whitespace, and everything
      removed was whitespace. */
  function Strip(s: string): (r: string)
    ensures |r| == 0 || (!IsSpace(r[0]) && !IsSpace(r[|r| - 1]))
    ensures LeadingSpace(s) + |r| <= |s|
    ensures r == s[LeadingSpace(s)..LeadingSpace(s) + |r|]
    ensures forall i :: 0 <= i < LeadingSpace(s) ==> IsSpace(s[i])
    ensures forall i :: LeadingSpace(s) + |r| <= i < |s| ==> IsSpace(s[i])
  {
    var l := LStrip(s);
    var r := RStrip(l);
    StripTail(s, |s| - |l|, l, r);
    r
  }

  /** Cutting trailing whitespace off the suffix `s[n..]` cuts it off `s`. */
  lemma StripTail(s: string, n: nat, l: string, r: string)
    requires n <= |s| && l == s[n..]
    requires forall i :: 0 <= i < n ==> IsSpace(s[i])
    requires |r| <= |l| && r == l[..|r|]
    requires forall j :: |r| <= j < |l| ==> IsSpace(l[j])
    requires |l| == 0 || !IsSpace(l[0])
    requires |r| == 0 || !IsSpace(r[|r| - 1])
    ensures |r| == 0 || (!IsSpace(r[0]) && !IsSpace(r[|r| - 1]))
    ensures n + |r| <= |s| && r == s[n..n + |r|]
    ensures forall i :: 0 <= i < n ==> IsSpace(s[i])
    ensures forall i :: n + |r| <= i < |s| ==> IsSpace(s[i])
  {
    if |r| > 0 {
      assert r[0] == l[0];
    }
    forall i | n + |r| <= i < |s|
      ensures IsSpace(s[i])
    {
      assert s[i] == l[i - n];
    }
  }

  /** A string without surrounding whitespace is its own `strip()`. */
  lemma StripNoop(s: string)
    requires |s| == 0 || (!IsSpace(s[0]) && !IsSpace(s[|s| - 1]))
    ensures Strip(s) == s
  {
  }

  /** `s.lstrip(chars)`: drops the longest prefix made of characters of `chars`. */
  function LStripChars(s: string, chars: set<char>): (r: string)
    ensures |r| <= |s| && r == s[|s| - |r|..]
    ensures |r| == 0 || r[0] !in chars
    ensures forall i :: 0 <= i < |s| - |r| ==> s[i] in chars
  {
    if |s| > 0 && s[0] in chars then LStripChars(s[1..], chars) else s
  }

  /** `pat` occurs in `s` at offset `k`. */
  predicate OccursAt(s: string, pat: string, k: nat) {
    k + |pat| <= |s| && s[k..k + |pat|] == pat
  }

  /** `s.find(pat)`: the first offset where `pat` occurs, if any. */
  function IndexOf(s: string, pat: string): (r: Option<nat>)
    ensures r.Some? ==> OccursAt(s, pat, r.value)
    ensures r.Some? ==> forall k: nat :: k < r.value ==> !OccursAt(s, pat, k)
    ensures r.None? ==> forall k: nat :: !OccursAt(s, pat, k)
    decreases |s|
  {
    if pat <= s then Some(0)
    else if |s| == 0 then None
    else
      match IndexOf(s[1..], pat)
      case None =>
        assert forall k: nat :: 1 <= k ==> OccursAt(s, pat, k) == OccursAt(s[1..], pat, k - 1);
        None
      case Some(i) =>
        assert forall k: nat :: 1 <= k ==> OccursAt(s, pat, k) == OccursAt(s[1..], pat, k - 1);
        Some(i + 1)
  }

  /** Python's `pat in s`. */
  predicate Contains(s: string, pat: string) {
    IndexOf(s, pat).Some?
  }

  /** `s.rfind(c)` for one character: the last index holding `c`, or -1. */
  function LastIndexOfChar(s: string, c: char): (r: int)
    ensures -1 <= r < |s|
    ensures r >= 0 ==> s[r] == c
    ensures forall k :: r < k < |s| ==> s[k] != c
  {
    if |s| == 0 then -1
    else if s[|s| - 1] == c then |s| - 1
    else LastIndexOfChar(s[..|s| - 1], c)
  }

  /** `s.find(c)` for one character, or -1. */
  function FirstIndexOfChar(s: string, c: char): (r: int)
    ensures -1 <= r < |s|
    ensures r >= 0 ==> s[r] == c
    ensures forall k :: 0 <= k < |s| && (r < 0 || k < r) ==> s[k] != c
  {
    match IndexOf(s, [c])
    case None =>
      assert forall k: nat :: k < |s| ==> (s[k] == c <==> OccursAt(s, [c], k));
      -1
    case Some(i) =>
      assert forall k: nat :: k < |s| ==> (s[k] == c <==> OccursAt(s, [c], k));
      i
  }

  /** `s.split(sep)` for a non-empty separator: the pieces between
      left-to-right, non-overlapping occurrences of `sep`. */
  function Split(s: string, sep: string): (parts: seq<string>)
    requires |sep| > 0
    ensures |parts| >= 1
    decreases |s|
  {
    match IndexOf(s, sep)
    case None => [s]
    case Some(i) => [s[..i]] + Split(s[i + |sep|..], sep)
  }

  /** `sep.join(parts)`. */
  function Join(parts: seq<string>, sep: string): string {
    if |parts| == 0 then ""
    else if |parts| == 1 then parts[0]
    else parts[0] + sep + Join(parts[1..], sep)
  }

  lemma JoinCons(a: string, tail: seq<string>, sep: string)
    requires |tail| >= 1
    ensures Join([a] + tail, sep) == a + sep + Join(tail, sep)
  {
    assert ([a] + tail)[1..] == tail;
  }

  lemma SplitStep(s: string, sep: string, i: nat)
    requires |sep| > 0
    requires IndexOf(s, sep) == Some(i)
    ensures i + |sep| <= |s|
    ensures Split(s, sep) == [s[..i]] + Split(s[i + |sep|..], sep)
    ensures s == s[..i] + sep + s[i + |sep|..]
  {
    assert OccursAt(s, sep, i);
    SliceThree(s, i, i + |sep|);
  }

  /** A string is the concatenation of its three slices around `i` and `j`. */
  lemma SliceThree(s: string, i: nat, j: nat)
    requires i <= j <= |s|
    ensures s == s[..i] + s[i..j] + s[j..]
  {
    assert s[..j] == s[..i] + s[i..j];
  }

  /** Splitting and re-joining with the same separator gives back the input. */
  lemma {:induction false} SplitJoin(s: string, sep: string)
    requires |sep| > 0
    ensures Join(Split(s, sep), sep) == s
    decreases |s|
  {
    var found := IndexOf(s, sep);
    if found.Some? {
      var i := found.value;
      SplitStep(s, sep, i);
      var rest := s[i + |sep|..];
      SplitJoin(rest, sep);
      JoinCons(s[..i], Split(rest, sep), sep);
    }
  }

  /** A string without the separator splits into itself alone. */
  lemma SplitWithoutSeparator(s: string, sep: string)
    requires |sep| > 0
    requires !Contains(s, sep)
    ensures Split(s, sep) == [s]
  {
  }

  /** `s.replace(pat, rep)`: every left-to-right, non-overlapping occurrence
      of `pat` replaced by `rep`. */
  function ReplaceStr(s: string, pat: string, rep: string): string
    requires |pat| > 0
    decreases |s|
  {
    if |s| == 0 then ""
    else if pat <= s then rep + ReplaceStr(s[|pat|..], pat, rep)
    else [s[0]] + ReplaceStr(s[1..], pat, rep)
  }

  /** Replacing a one-character pattern by a one-character replacement maps
      each character independently. */
  lemma {:induction false} ReplaceCharPrefix(s: string, a: char, b: char)
    ensures |s| > 0 ==>
      (ReplaceStr(s, [a], [b]) == [if s[0] == a then b else s[0]] + ReplaceStr(s[1..], [a], [b]))
  {
    if |s| > 0 {
      if s[0] == a {
        assert [a] <= s;
      } else {
        assert !([a] <= s);
      }
    }
  }

  /** Replacing one character by another keeps the length and maps every
      position on its own. */
  lemma {:induction false} ReplaceCharPerChar(s: string, a: char, b: char)
    ensures |ReplaceStr(s, [a], [b])| == |s|
    ensures forall i :: 0 <= i < |s| ==> ReplaceStr(s, [a], [b])[i] == (if s[i] == a then b else s[i])
    decreases |s|
  {
    if |s| > 0 {
      ReplaceCharPrefix(s, a, b);
      ReplaceCharPerChar(s[1..], a, b);
    }
  }

  predicate IsAsciiUpper(c: char) { 'A' <= c <= 'Z' }
  predicate IsAsciiLower(c: char) { 'a' <= c <= 'z' }
  predicate IsDigit(c: char) { '0' <= c <= '9' }

  /** `c.isalnum()` (ASCII). */
  predicate IsAlnum(c: char) { IsAsciiUpper(c) || IsAsciiLower(c) || IsDigit(c) }

  function LowerChar(c: char): (r: char)
    ensures !IsAsciiUpper(r)
    ensures IsAlnum(r) <==> IsAlnum(c)
  {
    if IsAsciiUpper(c) then (c as int - 'A' as int + 'a' as int) as char else c
  }

  /** `s.lower()` (ASCII): same length, every letter lower-case. */
  function Lower(s: string): (r: string)
    ensures |r| == |s|
    ensures forall i :: 0 <= i < |s| ==> r[i] == LowerChar(s[i])
  {
    if |s| == 0 then "" else [LowerChar(s[0])] + Lower(s[1..])
  }

  function DigitChar(d: nat): char
    requires d < 10
  {
    ('0' as int + d) as char
  }

  /** `str(n)` for a natural number: its decimal digits, no leading zero. */
  function NatToString(n: nat): (r: string)
    ensures |r| >= 1
    ensures forall i :: 0 <= i < |r| ==> IsDigit(r[i])
    ensures |r| > 1 ==> r[0] != '0'
  {
    if n < 10 then [DigitChar(n)] else NatToString(n / 10) + [DigitChar(n % 10)]
  }

  /** `str(n)` for any integer: a minus sign before the digits of `-n`. */
  function IntToString(n: int): (r: string)
    ensures |r| >= 1
    ensures n >= 0 ==> r == NatToString(n)
    ensures n < 0 ==> r == "-" + NatToString(-n)
  {
    if n >= 0 then NatToString(n) else "-" + NatToString(-n)
  }

  /** `len(s.split())`: the number of maximal runs of non-whitespace. */
  function WordCount(s: string): (n: nat)
    ensures n <= |s|
    decreases |s|
  {
    if |s| == 0 then 0
    else if IsSpace(s[0]) then WordCount(s[1..])
    else 1 + WordCount(SkipWord(s))
  }

  /** Drops the leading run of non-whitespace characters. */
  function SkipWord(s: string): (r: string)
    ensures |r| <= |s| && r == s[|s| - |r|..]
    ensures |s| > 0 && !IsSpace(s[0]) ==> |r| < |s|
  {
    if |s| > 0 && !IsSpace(s[0]) then SkipWord(s[1..]) else s
  }

  /** A string of whitespace only holds no word. */
  lemma {:induction false} BlankHasNoWords(s: string)
    requires forall i :: 0 <= i < |s| ==> IsSpace(s[i])
    ensures WordCount(s) == 0
    decreases |s|
  {
    if |s| > 0 {
      BlankHasNoWords(s[1..]);
    }
  }

  /** `"".join(ts)`. */
  function Concat(ts: seq<string>): string {
    if |ts| == 0 then "" else ts[0] + Concat(ts[1..])
  }

  /** Every piece stripped. */
  function StripAll(parts: seq<string>): (r: seq<string>)
    ensures |r| == |parts|
    ensures forall i :: 0 <= i < |parts| ==> r[i] == Strip(parts[i])
  {
    seq(|parts|, i requires 0 <= i < |parts| => Strip(parts[i]))
  }

  /** The non-empty strings, in order. */
  function NonEmpty(xs: seq<string>): (r: seq<string>)
    ensures |r| <= |xs|
    ensures forall i :: 0 <= i < |r| ==> r[i] != "" && r[i] in xs
    ensures forall k :: 0 <= k < |xs| && xs[k] != "" ==> xs[k] in r
  {
    if |xs| == 0 then []
    else
      var rest := NonEmpty(xs[1..]);
      assert forall k :: 1 <= k < |xs| ==> xs[k] == xs[1..][k - 1];
      if xs[0] != "" then [xs[0]] + rest else rest
  }
}

=== FILE: vector_store.dfy ===
/** The source store (research_assistant/tools/vector_store.py): URL-derived
    record ids, and adding, looking up, filtering, deleting and clearing
    records. The ChromaDB collection is an ordered list of id-keyed records
    with unique ids; embeddings, semantic ranking and the MD5 digest are not
    modelled (the digest is a parameter of fixed length). */
module VectorStore {
  import opened Wrappers
  import opened Seqs
  import opened Text
  import opened Sources

  /** A hex MD5 digest: always 32 characters. */
  type Digest = s: string | |s| == 32 witness "00000000000000000000000000000000"

  /** What the store needs from outside: the digest of a long URL and
      `source.get_domain()`. */
  datatype StoreEnv = StoreEnv(md5: string -> Digest, domainOf: string -> string)

  /** URLs longer than this are hashed instead of cleaned. */
  const MaxIdLength := 200

  /** The per-character reading of the id cleaning. */
  function CleanChar(c: char): char {
    if c == '/' || c == ':' then '_' else c
  }

  /** The URL with `/` and `:` replaced by `_`, character by character. */
  function CleanUrl(url: string): (r: string)
    ensures |r| == |url|
    ensures forall i :: 0 <= i < |url| ==> r[i] == CleanChar(url[i])
  {
    if |url| == 0 then "" else [CleanChar(url[0])] + CleanUrl(url[1..])
  }

  /** The per-character reading agrees with the two chained
      `str.replace` calls of `_generate_id`. */
  lemma CleanUrlIsReplace(url: string)
    ensures CleanUrl(url) == ReplaceStr(ReplaceStr(url, "/", "_"), ":", "_")
  {
    var slashes := ReplaceStr(url, "/", "_");
    ReplaceCharPerChar(url, '/', '_');
    ReplaceCharPerChar(slashes, ':', '_');
    var both := ReplaceStr(slashes, ":", "_");
    assert forall i :: 0 <= i < |url| ==> both[i] == CleanChar(url[i]);
  }

  /** `_generate_id(url)`: the MD5 digest of a long URL, otherwise the URL
      with `/` and `:` replaced by `_`, cut to 200 characters. */
  function GenerateId(url: string, env: StoreEnv): (id: string)
    ensures |id| <= MaxIdLength
    ensures |url| > MaxIdLength ==> id == env.md5(url)
    ensures |url| <= MaxIdLength ==> |id| == |url|
  {
    if |url| > MaxIdLength then env.md5(url)
    else PyPrefix(CleanUrl(url), MaxIdLength)
  }

  /** A short URL's id is the URL with each `/` and `:` turned into `_`. */
  lemma ShortIdChars(url: string, env: StoreEnv)
    requires |url| <= MaxIdLength
    ensures forall i :: 0 <= i < |url| ==> GenerateId(url, env)[i] == CleanChar(url[i])
  {
  }

  /** A cleaned id holds no `/` and no `:`. */
  lemma ShortIdClean(url: string, env: StoreEnv)
    requires |url| <= MaxIdLength
    ensures forall i :: 0 <= i < |GenerateId(url, env)| ==>
      GenerateId(url, env)[i] != '/' && GenerateId(url, env)[i] != ':'
  {
    ShortIdChars(url, env);
  }

  /** The id is not injective: two different short URLs that differ only in
      a `/` against a `:` get the same id. */
  lemma IdCollision(env: StoreEnv)
    ensures "a/b" != "a:b"
    ensures GenerateId("a/b", env) == GenerateId("a:b", env) == "a_b"
  {
    ShortIdChars("a/b", env);
    ShortIdChars("a:b", env);
    var x := GenerateId("a/b", env);
    var y := GenerateId("a:b", env);
    assert |x| == 3 && x[0] == 'a' && x[1] == '_' && x[2] == 'b';
    assert |y| == 3 && y[0] == 'a' && y[1] == '_' && y[2] == 'b';
  }

  // ---------------------------------------------------------------------------
  // The collection
  // ---------------------------------------------------------------------------

  /** The metadata written for a source, plus its document (the content).
      `wordCount` and `analysis` are the entries the source's own metadata
      carries over. */
  datatype Record = Record(
    url: string,
    title: string,
    score: real,
    domain: string,
    wordCount: Option<int>,
    analysis: Option<AnalysisMeta>,
    document: string)

  datatype Entry = Entry(id: string, record: Record)

  /** The collection: records in insertion order, one per id. */
  datatype Store = Store(entries: seq<Entry>)

  predicate HasId(entries: seq<Entry>, id: string) {
    exists i :: 0 <= i < |entries| && entries[i].id == id
  }

  predicate UniqueIds(entries: seq<Entry>) {
    forall i, j :: 0 <= i < j < |entries| ==> entries[i].id != entries[j].id
  }

  predicate Valid(st: Store) {
    UniqueIds(st.entries)
  }

  /** `count()`. */
  function Count(st: Store): nat {
    |st.entries|
  }

  /** Where the record with `id` stands, if anywhere (its first place). */
  function IndexOfId(entries: seq<Entry>, id: string): (k: Option<nat>)
    ensures k.None? <==> !HasId(entries, id)
    ensures k.Some? ==> k.value < |entries| && entries[k.value].id == id
    ensures k.Some? ==> forall i :: 0 <= i < k.value ==> entries[i].id != id
  {
    if |entries| == 0 then None
    else if entries[0].id == id then Some(0)
    else
      match IndexOfId(entries[1..], id)
      case None => None
      case Some(k) => Some(k + 1)
  }

  /** The record stored under `id`, if any. */
  function Lookup(entries: seq<Entry>, id: string): (r: Option<Record>)
    ensures r.None? <==> !HasId(entries, id)
  {
    match IndexOfId(entries, id)
    case None => None
    case Some(k) => Some(entries[k].record)
  }

  /** With unique ids, looking up the id of the `k`-th entry finds it. */
  lemma LookupUnique(entries: seq<Entry>, k: nat)
    requires k < |entries| && UniqueIds(entries)
    ensures Lookup(entries, entries[k].id) == Some(entries[k].record)
  {
  }

  /** Writes `e`: replaces the record with the same id where it stands, or
      appends it when the id is new (a later write of an id wins). */
  function Upsert(entries: seq<Entry>, e: Entry): (r: seq<Entry>)
    ensures !HasId(entries, e.id) ==> r == entries + [e]
    ensures HasId(entries, e.id) ==> |r| == |entries|
  {
    match IndexOfId(entries, e.id)
    case None => entries + [e]
    case Some(k) => entries[k := e]
  }

  /** A write keeps ids unique, makes `e` the record of its id and leaves
      every other id's record as it was. */
  lemma UpsertLookup(entries: seq<Entry>, e: Entry)
    requires UniqueIds(entries)
    ensures UniqueIds(Upsert(entries, e))
    ensures Lookup(Upsert(entries, e), e.id) == Some(e.record)
    ensures forall id :: id != e.id ==> Lookup(Upsert(entries, e), id) == Lookup(entries, id)
  {
    var r := Upsert(entries, e);
    var k := if HasId(entries, e.id) then IndexOfId(entries, e.id).value else |entries|;
    assert r[k] == e;
    LookupUnique(r, k);
    forall id | id != e.id
      ensures Lookup(r, id) == Lookup(entries, id)
    {
      if HasId(entries, id) {
        var j := IndexOfId(entries, id).value;
        assert r[j] == entries[j];
        LookupUnique(r, j);
        LookupUnique(entries, j);
      } else {
        assert !HasId(r, id);
      }
    }
  }

  /** The record `add_sources` writes for one source: the url, title, score
      and `get_domain()`, with the source's own metadata spread over them
      last, so a `domain` entry in the metadata wins over the computed one. */
  function RecordOf(s: Source, env: StoreEnv): (r: Record)
    ensures r.url == s.url && r.title == s.title && r.score == s.score && r.document == s.content
    ensures s.metadata.domain.Some? ==> r.domain == s.metadata.domain.value
    ensures s.metadata.domain.None? ==> r.domain == env.domainOf(s.url)
    ensures r.wordCount == s.metadata.wordCount && r.analysis == s.metadata.analysis
  {
    var computed := Record(s.url, s.title, s.score, env.domainOf(s.url), None, None, s.content);
    computed.(domain := s.metadata.domain.GetOr(computed.domain),
              wordCount := s.metadata.wordCount,
              analysis := s.metadata.analysis)
  }

  function EntryOf(s: Source, env: StoreEnv): Entry {
    Entry(GenerateId(s.url, env), RecordOf(s, env))
  }

  /** The entries written for `sources`, one per source, in order. */
  function EntriesOf(sources: seq<Source>, env: StoreEnv): (r: seq<Entry>)
    ensures |r| == |sources|
    ensures forall i :: 0 <= i < |sources| ==> r[i] == EntryOf(sources[i], env)
  {
    if |sources| == 0 then [] else [EntryOf(sources[0], env)] + EntriesOf(sources[1..], env)
  }

  /** One `collection.add` call: the entries are written in order. */
  function UpsertAll(entries: seq<Entry>, es: seq<Entry>): seq<Entry>
    decreases |es|
  {
    if |es| == 0 then entries else UpsertAll(Upsert(entries, es[0]), es[1..])
  }

  /** `add_sources(sources)`: an empty list returns at once; otherwise the
      ids, metadata and documents of all sources go to the collection in one
      call. */
  function AddSources(st: Store, sources: seq<Source>, env: StoreEnv): (r: Store)
    ensures sources == [] ==> r == st
  {
    if |sources| == 0 then st else Store(UpsertAll(st.entries, EntriesOf(sources, env)))
  }

  lemma {:induction false} UpsertAllValid(entries: seq<Entry>, es: seq<Entry>)
    requires UniqueIds(entries)
    ensures UniqueIds(UpsertAll(entries, es))
    decreases |es|
  {
    if |es| > 0 {
      UpsertLookup(entries, es[0]);
      UpsertAllValid(Upsert(entries, es[0]), es[1..]);
    }
  }

  /** Adding keeps the ids of the store unique. */
  lemma AddSourcesValid(st: Store, sources: seq<Source>, env: StoreEnv)
    requires Valid(st)
    ensures Valid(AddSources(st, sources, env))
  {
    UpsertAllValid(st.entries, EntriesOf(sources, env));
  }

  /** The ids of `sources` are pairwise distinct and none is stored yet. */
  predicate FreshIds(entries: seq<Entry>, sources: seq<Source>, env: StoreEnv) {
    && (forall i, j :: 0 <= i < j < |sources| ==> GenerateId(sources[i].url, env) != GenerateId(sources[j].url, env))
    && (forall i :: 0 <= i < |sources| ==> !HasId(entries, GenerateId(sources[i].url, env)))
  }

  /** The ids of `es` are pairwise distinct and none is among `entries`. */
  predicate FreshEntries(entries: seq<Entry>, es: seq<Entry>) {
    && (forall i, j :: 0 <= i < j < |es| ==> es[i].id != es[j].id)
    && (forall i :: 0 <= i < |es| ==> !HasId(entries, es[i].id))
  }

  lemma HasIdSnoc(entries: seq<Entry>, e: Entry, id: string)
    ensures HasId(entries + [e], id) <==> HasId(entries, id) || e.id == id
  {
    var next := entries + [e];
    if HasId(next, id) {
      var j :| 0 <= j < |next| && next[j].id == id;
      if j < |entries| {
        assert entries[j] == next[j];
      }
    }
    if HasId(entries, id) {
      var j :| 0 <= j < |entries| && entries[j].id == id;
      assert next[j] == entries[j];
    }
    assert next[|entries|] == e;
  }

  /** Each entry's id is new when its turn to be written comes. */
  predicate FreshInTurn(entries: seq<Entry>, es: seq<Entry>)
    decreases |es|
  {
    |es| == 0 || (!HasId(entries, es[0].id) && FreshInTurn(entries + [es[0]], es[1..]))
  }

  /** Writing entries whose ids are new in turn appends them. */
  lemma {:induction false} UpsertAllFresh(entries: seq<Entry>, es: seq<Entry>)
    requires FreshInTurn(entries, es)
    ensures UpsertAll(entries, es) == entries + es
    decreases |es|
  {
    if |es| > 0 {
      var next := entries + [es[0]];
      assert Upsert(entries, es[0]) == next;
      UpsertAllFresh(next, es[1..]);
      AppendHead(entries, es);
    }
  }

  lemma AppendHead<T>(a: seq<T>, b: seq<T>)
    requires |b| > 0
    ensures (a + [b[0]]) + b[1..] == a + b
  {
    assert b == [b[0]] + b[1..];
  }

  /** Distinct ids, none stored yet, are new in turn. */
  lemma {:induction false} FreshEntriesInTurn(entries: seq<Entry>, es: seq<Entry>)
    requires FreshEntries(entries, es)
    ensures FreshInTurn(entries, es)
    decreases |es|
  {
    if |es| > 0 {
      FreshTail(entries, es);
      FreshEntriesInTurn(entries + [es[0]], es[1..]);
    }
  }

  /** After the first fresh entry is appended, the rest are still fresh. */
  lemma FreshTail(entries: seq<Entry>, es: seq<Entry>)
    requires |es| > 0 && FreshEntries(entries, es)
    ensures FreshEntries(entries + [es[0]], es[1..])
  {
    var tail := es[1..];
    forall i | 0 <= i < |tail|
      ensures !HasId(entries + [es[0]], tail[i].id)
    {
      assert tail[i] == es[i + 1];
      HasIdSnoc(entries, es[0], tail[i].id);
    }
  }

  /** Adding sources whose ids are fresh and distinct appends one record per
      source, in order. */
  lemma AddFreshAppends(st: Store, sources: seq<Source>, env: StoreEnv)
    requires FreshIds(st.entries, sources, env)
    ensures AddSources(st, sources, env).entries == st.entries + EntriesOf(sources, env)
  {
    var es := EntriesOf(sources, env);
    assert FreshEntries(st.entries, es);
    FreshEntriesInTurn(st.entries, es);
    UpsertAllFresh(st.entries, es);
  }

  /** With fresh, distinct ids the count grows by the number of sources, and
      every source reads back with its url, title, score and content. */
  lemma AddFreshSources(st: Store, sources: seq<Source>, env: StoreEnv)
    requires Valid(st) && FreshIds(st.entries, sources, env)
    ensures Count(AddSources(st, sources, env)) == Count(st) + |sources|
    ensures forall i :: 0 <= i < |sources| ==>
      GetByUrl(AddSources(st, sources, env), sources[i].url, env) == Some(RecordOf(sources[i], env))
  {
    AddFreshAppends(st, sources, env);
    AddSourcesValid(st, sources, env);
    var es := EntriesOf(sources, env);
    assert AddSources(st, sources, env) == Store(st.entries + es);
    forall i | 0 <= i < |sources|
      ensures Lookup(st.entries + es, es[i].id) == Some(es[i].record)
    {
      AppendedReadBack(st.entries, es, i);
    }
  }

  /** With unique ids, an appended entry is found under its id. */
  lemma AppendedReadBack(entries: seq<Entry>, es: seq<Entry>, i: nat)
    requires UniqueIds(entries + es) && i < |es|
    ensures Lookup(entries + es, es[i].id) == Some(es[i].record)
  {
    assert (entries + es)[|entries| + i] == es[i];
    LookupUnique(entries + es, |entries| + i);
  }

  /** `get_by_url(url)`: the record under the URL's id, or `None`. */
  function GetByUrl(st: Store, url: string, env: StoreEnv): (r: Option<Record>)
    ensures r.None? <==> !HasId(st.entries, GenerateId(url, env))
  {
    Lookup(st.entries, GenerateId(url, env))
  }

  function RecordsAtLeast(entries: seq<Entry>, threshold: real): (r: seq<Record>)
    ensures |r| <= |entries|
    ensures forall i :: 0 <= i < |r| ==> r[i].score >= threshold
    ensures forall i :: 0 <= i < |entries| && entries[i].record.score >= threshold ==> entries[i].record in r
    ensures forall i :: 0 <= i < |r| ==> exists j :: 0 <= j < |entries| && entries[j].record == r[i]
  {
    if |entries| == 0 then []
    else
      var rest := RecordsAtLeast(entries[1..], threshold);
      assert forall i :: 1 <= i < |entries| ==> entries[i] == entries[1..][i - 1];
      if entries[0].record.score >= threshold then [entries[0].record] + rest else rest
  }

  /** `get_trustworthy_sources(threshold, limit)`: the records scoring at
      least `threshold`, in insertion order, at most `limit` of them when a
      limit is given. */
  function GetTrustworthySources(st: Store, threshold: real, limit: Option<nat>): (r: seq<Record>)
    ensures forall i :: 0 <= i < |r| ==> r[i].score >= threshold
    ensures limit.Some? ==> |r| <= limit.value
    ensures limit.None? ==>
      forall i :: 0 <= i < |st.entries| && st.entries[i].record.score >= threshold ==> st.entries[i].record in r
    ensures forall i :: 0 <= i < |r| ==> exists j :: 0 <= j < |st.entries| && st.entries[j].record == r[i]
  {
    var all := RecordsAtLeast(st.entries, threshold);
    match limit
    case None => all
    case Some(n) =>
      var r := PyPrefix(all, n);
      assert forall i :: 0 <= i < |r| ==> r[i] == all[i];
      r
  }

  /** Removes the record with `id`, if there is one. */
  function RemoveId(entries: seq<Entry>, id: string): (r: seq<Entry>)
    ensures HasId(entries, id) ==> |r| == |entries| - 1
    ensures !HasId(entries, id) ==> r == entries
  {
    match IndexOfId(entries, id)
    case None => entries
    case Some(k) => entries[..k] + entries[k + 1..]
  }

  /** With unique ids, removing one leaves no record under it, keeps ids
      unique and leaves every other id's record as it was. */
  lemma RemoveLookup(entries: seq<Entry>, id: string)
    requires UniqueIds(entries)
    ensures UniqueIds(RemoveId(entries, id))
    ensures !HasId(RemoveId(entries, id), id)
    ensures forall x :: x != id ==> Lookup(RemoveId(entries, id), x) == Lookup(entries, x)
  {
    if HasId(entries, id) {
      var k := IndexOfId(entries, id).value;
      RemovedAt(entries, k);
      forall x | x != id
        ensures Lookup(RemoveId(entries, id), x) == Lookup(entries, x)
      {
        RemoveOther(entries, k, x);
      }
    }
  }

  /** Dropping the `k`-th entry shifts the later ones down by one, keeps ids
      unique and leaves nothing under the dropped id. */
  lemma RemovedAt(entries: seq<Entry>, k: nat)
    requires k < |entries| && UniqueIds(entries)
    ensures var r := entries[..k] + entries[k + 1..];
      && (forall i :: 0 <= i < |r| ==> r[i] == entries[if i < k then i else i + 1])
      && UniqueIds(r)
      && !HasId(r, entries[k].id)
  {
    var r := entries[..k] + entries[k + 1..];
    assert forall i :: 0 <= i < |r| ==> r[i] == entries[if i < k then i else i + 1];
  }

  /** Dropping the `k`-th entry leaves other ids' records where they can be
      found. */
  lemma RemoveOther(entries: seq<Entry>, k: nat, x: string)
    requires k < |entries| && UniqueIds(entries) && entries[k].id != x
    ensures Lookup(entries[..k] + entries[k + 1..], x) == Lookup(entries, x)
  {
    var r := entries[..k] + entries[k + 1..];
    RemovedAt(entries, k);
    if HasId(entries, x) {
      var j := IndexOfId(entries, x).value;
      LookupUnique(entries, j);
      var j' := if j < k then j else j - 1;
      assert r[j'] == entries[j];
      LookupUnique(r, j');
    }
  }

  /** `delete_by_url(url)`: removes the record under the URL's id and
      reports `True`; a missing id leaves the store as it is. `raises` says
      whether the collection's `delete` raised, in which case nothing is
      removed and the result is `False`. */
  function DeleteByUrl(st: Store, url: string, env: StoreEnv, raises: bool): (r: (Store, bool))
    ensures r.1 <==> !raises
    ensures raises ==> r.0 == st
    ensures GetByUrl(st, url, env).None? ==> r.0 == st
    ensures !raises && GetByUrl(st, url, env).Some? ==> Count(r.0) == Count(st) - 1
  {
    if raises then (st, false)
    else (Store(RemoveId(st.entries, GenerateId(url, env))), true)
  }

  /** On a valid store, a deleted URL reads back as `None` and every URL
      with another id reads back as before. */
  lemma DeleteByUrlLookup(st: Store, url: string, env: StoreEnv)
    requires Valid(st)
    ensures Valid(DeleteByUrl(st, url, env, false).0)
    ensures GetByUrl(DeleteByUrl(st, url, env, false).0, url, env) == None
    ensures forall other :: GenerateId(other, env) != GenerateId(url, env) ==>
      GetByUrl(DeleteByUrl(st, url, env, false).0, other, env) == GetByUrl(st, other, env)
  {
    RemoveLookup(st.entries, GenerateId(url, env));
  }

  /** The result reports whether `delete` raised, not whether the URL was
      stored: deleting an absent URL leaves the store unchanged and still
      reports `True`, unlike the docstring's "False if not found". */
  lemma DeleteAbsentReportsTrue(st: Store, url: string, env: StoreEnv)
    requires GetByUrl(st, url, env).None?
    ensures DeleteByUrl(st, url, env, false) == (st, true)
  {
  }

  /** `clear()`: drops and recreates the collection. */
  function Clear(st: Store): (r: Store)
    ensures Count(r) == 0 && Valid(r)
    ensures forall url, env :: GetByUrl(r, url, env) == None
  {
    Store([])
  }

  datatype StoreStatistics = StoreStatistics(totalCount: nat, trustworthyCount: nat)

  /** The stored scores, in insertion order. */
  function StoredScores(entries: seq<Entry>): (r: seq<real>)
    ensures |r| == |entries|
    ensures forall i :: 0 <= i < |entries| ==> r[i] == entries[i].record.score
  {
    if |entries| == 0 then [] else [entries[0].record.score] + StoredScores(entries[1..])
  }

  /** The threshold query returns one record per stored score that reaches
      the threshold. */
  lemma {:induction false} RecordsAtLeastCount(entries: seq<Entry>, threshold: real)
    ensures |RecordsAtLeast(entries, threshold)| == CountAtLeast(StoredScores(entries), threshold)
    decreases |entries|
  {
    if |entries| > 0 {
      RecordsAtLeastCount(entries[1..], threshold);
      assert StoredScores(entries)[1..] == StoredScores(entries[1..]);
    }
  }

  /** `get_statistics()`: the number of records, and how many of them score
      85 or above. */
  function GetStatistics(st: Store): (r: StoreStatistics)
    ensures r.totalCount == Count(st)
    ensures r.trustworthyCount == CountAtLeast(StoredScores(st.entries), TrustThreshold)
    ensures r.trustworthyCount <= r.totalCount
  {
    RecordsAtLeastCount(st.entries, TrustThreshold);
    StoreStatistics(Count(st), |GetTrustworthySources(st, TrustThreshold, None)|)
  }
}

=== FILE: wrappers.dfy ===
/** Option and Result datatypes shared by every module of the model. Python's
    `None` becomes `None`, and an exception that a caller catches becomes a
    `Failure` carrying the exception's message. */
module Wrappers {

  datatype Option<+T> = None | Some(value: T) {

    /** The value, or `default` when absent (Python's `d.get(key, default)`). */
    function GetOr(default: T): T {
      match this
      case Some(v) => v
      case None => default
    }
  }

  datatype Result<+T, +E> = Success(value: T) | Failure(error: E) {

    /** Drops the error, keeping only whether a value was produced. */
    function ToOption(): Option<T> {
      match this
      case Success(v) => Some(v)
      case Failure(_) => None
    }
  }
}
